=== FILE: README.md ===
# httpsnippet converters in Dafny

This project models five of httpsnippet's target converters. Each one
turns a normalised HAR request into a code snippet that performs the
request in another language:

- `python/requests` builds a `requests` call from headers, payload, files and query.
- `php/curl` builds a `curl_setopt_array` script.
- `csharp/restsharp` builds a RestSharp client with one call per header and cookie.
- `node/fetch` builds a `node-fetch` options record, with `URLSearchParams` or `form-data` bodies.
- `javascript/fetch` builds a browser `fetch` options record and a `FormData` form.

A snippet is a list of lines, each with an indentation level and a text.
This is what the converters push into their code builder. `CodeBuilder.Render`
is the builder's `join()`. JavaScript objects are modelled as ordered
association lists (`OrderedObject`), so key order, in-place assignment and
`delete` behave as in the source. That matters because the printed order of
the options record depends on when each key was first assigned, except that
array-index keys such as `1` come first in numeric order. `undefined`
is `Wrappers.None`, and a JavaScript `if (s)` on a string is `Wrappers.Truthy`.

Some helpers the converters call are not part of this model. They are
replaced by stand-ins that carry their own proved properties:

| helper | stand-in | property |
|---|---|---|
| `JSON.stringify` | `Json` | quote/unquote round trip |
| `encodeURIComponent` | `Uri` | decodes back to the UTF-8 bytes |
| `getHeaderName`, `getHeader` | `Headers` | ASCII case-insensitive lookup |
| `stringify-object` | `JsLiteral` | single-quoted, one-line literal with a round trip |
| `literalRepresentation` | `PythonRequests.Literal` | one-line Python literal |
| `Array.prototype.sort` on keys | `Sorting` | an insertion sort, proved sorted and a permutation |

## Model

| member | source | states |
|---|---|---|
| OrderedObject.Set | src/targets/node/fetch/client.ts:102-107 | Assigning a key makes it map to the new value and leaves every other key's value alone. An existing key keeps its position; a new key that is not an array index (such as `cookie`) is appended. Keys stay distinct. |
| OrderedObject.Assign | src/targets/python/requests/client.ts:80-85 | A plain-object assignment, for any key: an existing key keeps its place, a new array-index key goes into its numeric place, and any other new key goes last. Keys stay distinct, array indices stay first and ascending, and the other keys keep their order with the new one appended. |
| OrderedObject.DecimalInjective | src/targets/python/requests/client.ts:80-85 | Two array-index keys with the same numeric value are the same key, so the index keys of an object are strictly ordered. |
| OrderedObject.Delete | src/targets/node/fetch/client.ts:113-115 | `delete` removes exactly the entry for the key. The other entries keep their values and order. |
| Headers.Remove | src/targets/node/fetch/client.ts:69-72 | Removing the content-type header drops the one entry whose name matches case-insensitively. Every other header survives with its value. |
| Uri.DecodeEncode | src/targets/php/curl/client.ts:111-113 | Percent-decoding an encoded cookie name or value gives back its UTF-8 bytes. |
| Cookies.ParseHeader | src/targets/php/curl/client.ts:111-115 | The `; `-joined cookie header splits back into one encoded `name=value` pair per cookie, in order. |
| Cookies.DecodeHeader | src/targets/node/fetch/client.ts:98-101 | Each pair of the cookie header decodes back to that cookie's name and value. |
| Json.QuoteRoundTrip | src/targets/csharp/restsharp/client.ts:37 | A JSON-quoted body text reads back as the text. It holds no raw control character, as section 7 of RFC 8259 requires. |
| JsLiteral.QuoteRoundTrip | src/targets/node/fetch/client.ts:117 | A single-quoted string in the printed options reads back as the string. |
| Sorting.Sort | src/targets/php/curl/client.ts:119-121 | The header keys come out sorted, as a permutation of the input. |
| Sorting.SortedUnique | src/targets/php/curl/client.ts:119-121 | Any two sorted permutations of the same keys are equal, so the sorted key order is determined. |
| PythonRequests.SplitParams | src/targets/python/requests/client.ts:78-87 | A multipart parameter with a file name goes to `files`, any other to `payload`. Each flag holds exactly when a parameter of its kind exists. Each name maps to the entry of the last parameter of that name and kind: `open('<fileName>', 'rb')` for a file, the value for a field. Both dicts list array-index names first, in ascending numeric order, and the other names in the order they first appear. |
| PythonRequests.NewNames | src/targets/python/requests/client.ts:78-87 | The non-index names of one kind, once each: exactly the names used by a parameter of that kind, ordered by their first parameter. |
| PythonRequests.IndexNamesSorted | src/targets/python/requests/client.ts:83-85 | Fields `2=a` then `1=b` give the `payload` keys in the order `1`, `2`, not in assignment order. |
| PythonRequests.BuildPayload | src/targets/python/requests/client.ts:57-123 | JSON payload exactly for a truthy parsed JSON body. Files exactly for multipart with a file parameter, and then the content-type header is removed; otherwise the headers are untouched. |
| PythonRequests.HeaderBlock | src/targets/python/requests/client.ts:125-152 | No headers gives a blank line only when there is a body. One header is an inline dict. More headers get one line each, with a comma after all but the last. |
| PythonRequests.CallArgs | src/targets/python/requests/client.ts:159-179 | The keyword arguments appear in the fixed order data/json, files, headers, params. Each appears exactly when its part is present. |
| PythonRequests.ArgumentsOfRequest | src/targets/python/requests/client.ts:155-179 | `json=payload` iff a truthy JSON body. `files=files` iff a multipart file. `params=querystring` iff a non-empty query. `headers=headers` only when there are headers, and always when a header other than content-type is present; without files, exactly when there are headers. |
| PythonRequests.MethodDispatch | src/targets/python/requests/client.ts:16-157 | `GET`, `HEAD`, `POST`, `PUT`, `PATCH`, `DELETE` and `OPTIONS` call `requests.get(url` through `requests.options(url`. The match is case-sensitive: `get` calls `requests.request("get", url`. The generic `requests.request("` call is made exactly for methods outside those seven. |
| PythonRequests.Convert | src/targets/python/requests/client.ts:39-187 | The import, URL, body, call and print lines come in the source's order. |
| PythonRequests.HeadersFixtureLines | src/targets/python/requests/fixtures/headers.py:1-13 | The GET request with three headers converts to exactly the thirteen lines of the fixture. |
| PhpCurl.HttpVersion | src/targets/php/curl/client.ts:86 | Version 1.0 is chosen exactly for `HTTP/1.0`; every other version gets 1.1. |
| PhpCurl.Entries | src/targets/php/curl/client.ts:104-108 | There is one array entry per option whose value is neither null nor undefined, and no other entry. |
| PhpCurl.EntryAt | src/targets/php/curl/client.ts:104-108 | The entry of option `i` sits right after the entries of the options before it, so the entries follow the table's order. |
| PhpCurl.EntriesInOrder | src/targets/php/curl/client.ts:104-108 | An option with a value is placed before the entries of every later option. |
| PhpCurl.EntriesConcat | src/targets/php/curl/client.ts:104-108 | The entries of two runs of options are the entries of the first run followed by those of the second. |
| PhpCurl.RowSet | src/targets/php/curl/client.ts:52-108 | A table option is set in the final array exactly when its value is present. |
| PhpCurl.CookieSet | src/targets/php/curl/client.ts:111-116 | `CURLOPT_COOKIE` is set exactly when there are cookies. |
| PhpCurl.CookieEntry | src/targets/php/curl/client.ts:111-116 | The cookie entry holds the encoded pairs joined by `; `. |
| PhpCurl.HeaderSet | src/targets/php/curl/client.ts:119-127 | `CURLOPT_HTTPHEADER` is set exactly when there are headers. |
| PhpCurl.HeaderBlock | src/targets/php/curl/client.ts:119-127 | The header lines are in sorted key order, one `"key: value"` per header, with commas between them and `],` at the end. |
| PhpCurl.Limits | src/targets/php/curl/client.ts:31-40 | Redirects default to 10 and the timeout to 30. A given number replaces the default; a null or undefined one drops the entry. |
| PhpCurl.RequestEntries | src/targets/php/curl/client.ts:58-92 | The URL, HTTP version and custom method entries are always present, with the values the source computes. |
| PhpCurl.OptionalEntries | src/targets/php/curl/client.ts:53-97 | The port and post-field entries are present exactly when those values are defined. |
| PhpCurl.Convert | src/targets/php/curl/client.ts:44-152 | `<?php` or `<?` unless tags are off. The options array sits between `curl_setopt_array($curl, [` and `]);`. Named or plain error echo. `?>` exactly with tags and `closingTag`. |
| RestSharp.SupportIgnoresCase | src/targets/csharp/restsharp/client.ts:14-16 | The method whitelist is case-insensitive. |
| RestSharp.HeaderLines | src/targets/csharp/restsharp/client.ts:27-29 | One `AddHeader` per header key in key order, carrying that key's value. |
| RestSharp.BodyLines | src/targets/csharp/restsharp/client.ts:35-39 | The body parameter appears exactly for a non-empty body text. Its line is `request.AddParameter("<content type>", <JSON-quoted text>, ParameterType.RequestBody);`. |
| RestSharp.BodyReadsBack | src/targets/csharp/restsharp/client.ts:35-39 | The string literal in the `AddParameter` line reads back as the body text. |
| RestSharp.Snippet | src/targets/csharp/restsharp/client.ts:22-41 | Client and request first, then headers, cookies, the optional body, and `Execute` last. |
| RestSharp.Convert | src/targets/csharp/restsharp/client.ts:18-20 | The output is exactly `Method not supported` iff the method is outside the whitelist. |
| NodeFetch.HeadersAfterBody | src/targets/node/fetch/client.ts:62-72 | A multipart body with parameters loses its content-type header. Every other header is kept. |
| NodeFetch.FinalHeaders | src/targets/node/fetch/client.ts:97-108 | Cookies are merged as one `cookie` header holding the encoded pairs. The object is empty exactly when there are no cookies and no remaining headers. |
| NodeFetch.Options | src/targets/node/fetch/client.ts:35-115 | `method` comes first. `headers` is present exactly when cookies or remaining headers exist. It precedes `body` exactly when the request had headers to begin with. |
| NodeFetch.BodyOfRequest | src/targets/node/fetch/client.ts:43-95 | The body per MIME type: the params variable, the stringified truthy JSON, none for multipart, otherwise the truthy text. |
| NodeFetch.SentHeaders | src/targets/node/fetch/client.ts:39-115 | The sent headers are the request's own, except a multipart content type, plus the cookie header. |
| NodeFetch.AppendLines | src/targets/node/fetch/client.ts:78-88 | One `append` line per parameter that is a file or has neither file name nor content type, and no other lines. |
| NodeFetch.AppendLinesConcat | src/targets/node/fetch/client.ts:78-88 | The lines of two runs of parameters are those of the first run followed by those of the second. |
| NodeFetch.AppendLineAt | src/targets/node/fetch/client.ts:78-88 | The line of parameter `i` comes right after the lines of the parameters before it, so the lines follow the parameters' order. |
| NodeFetch.ContentTypeOnlyDropped | src/targets/node/fetch/client.ts:79-87 | A parameter with a content type and no file name produces no line, wherever it stands; the lines around it are unchanged. |
| NodeFetch.FsRequiredIffStreamed | src/targets/node/fetch/client.ts:84-123 | `fs` is required exactly when some appended field streams a file. |
| NodeFetch.Requires | src/targets/node/fetch/client.ts:45-123 | The `fs`, `form-data` and `url` requires appear exactly for file parameters, multipart bodies with parameters and URL-encoded bodies. `fs` comes first. There is one line per require that applies and no other line. |
| NodeFetch.Convert | src/targets/node/fetch/client.ts:33-131 | Corrected: the options refer to the `encodedParams` variable instead of holding the string. Otherwise the source's lines: the requires, the `node-fetch` require, the body statements, `const url = '<full URL>';`, the options, `options.body = formData;` for multipart with parameters, and the promise chain. |
| NodeFetch.UrlEncodedBodyIsVariable | src/targets/node/fetch/client.ts:53 | Corrected: a URL-encoded body is the `encodedParams` variable itself. |
| NodeFetch.AsWrittenSendsLiteral | src/targets/node/fetch/client.ts:133-134 | As written, a parameter named `encodedParams` captures the unquoting, and the body stays the string `'encodedParams'`. This is stated of the text after the first replace (client.ts:134). |
| NodeFetch.AsWrittenAgreesUrlEncoded | src/targets/node/fetch/client.ts:53-135 | For a URL-encoded request, the snippet as written equals the corrected one whenever the corrected one holds `'encodedParams'` nowhere. This holds after the first replace and for the returned text after both replaces. |
| NodeFetch.UnquoteName | src/targets/node/fetch/client.ts:53-134 | For any variable name of plain characters, unquoting the first `'name'` turns the snippet storing the quoted name into the one referring to the variable, unless the latter already holds `'name'`. |
| NodeFetch.AsWrittenAgreesElsewhere | src/targets/node/fetch/client.ts:133-135 | For any other request, the snippet as written equals the corrected one exactly when the corrected one holds `'encodedParams'` nowhere. This holds both after the first replace and for the returned text after both replaces. |
| NodeFetch.UnquoteStream | src/targets/node/fetch/client.ts:135 | The second replace leaves a text with no match unchanged. A text without `"fs.createReadStream(\"` has no match. A text with a match becomes four characters shorter. |
| NodeFetch.StreamCallUnquoted | src/targets/node/fetch/client.ts:135 | A whole `"fs.createReadStream(\"<name>\")"` string with a one-line name becomes `fs.createReadStream("<name>")`. |
| Text.ReplaceGroupAt | src/targets/node/fetch/client.ts:135 | A non-global `/open(.+)close/` replace rewrites the leftmost match, with the longest group on its line, to the group between the new texts. |
| Text.ReplaceGroup | src/targets/node/fetch/client.ts:135 | Without a match the text is unchanged. With a match its length changes by the fixed difference between the new texts and the matched ones. |
| NodeFetch.HeaderHoldsQuotedMarker | src/targets/node/fetch/client.ts:39-118 | Corrected: a header sent with the value `encodedParams` is printed as the string `'encodedParams'` in the options. |
| NodeFetch.HeaderValueUnquoted | src/targets/node/fetch/client.ts:39-135 | As written, outside URL-encoded bodies, a request header with the value `encodedParams` (other than content-type or cookie) is unquoted, so the snippet differs from the corrected one, and so does the returned text after both replaces. |
| JavascriptFetch.Options | src/targets/javascript/fetch/client.ts:37-88 | Keys in the order method, headers, credentials, body. `headers` iff headers remain. `credentials` iff not null. The body per MIME type. |
| JavascriptFetch.BodyOfRequest | src/targets/javascript/fetch/client.ts:49-83 | URL-encoded: always a body; the parameter object, else the text, else undefined. JSON: always a body; the stringified JSON, or undefined without one. Multipart: none. Other types: a body iff truthy text, and then that text. |
| JavascriptFetch.SentHeaders | src/targets/javascript/fetch/client.ts:41-88 | No headers key without headers. The other headers are kept unchanged. |
| JavascriptFetch.FieldValue | src/targets/javascript/fetch/client.ts:73 | A form field's value is its value, else its file name, else empty. |
| JavascriptFetch.FormLines | src/targets/javascript/fetch/client.ts:70-76 | For multipart with parameters, `new FormData()`, then one `append` per parameter in order, then a blank line. |
| JavascriptFetch.Convert | src/targets/javascript/fetch/client.ts:90-114 | Form statements, options, `options.body = form` exactly for multipart with parameters, and the chain on the full URL. |
| JavascriptFetch.NoHookNoDifference | src/targets/javascript/fetch/client.ts:94-99 | Away from URL-encoded bodies, the corrected printer gives the same snippet as written. |
| JavascriptFetch.UrlEncodedParamsWrapped | src/targets/javascript/fetch/client.ts:51-99 | Corrected: the parameter object is wrapped in `URLSearchParams` as printed on its own. |
| JavascriptFetch.AsWrittenWrapsField | src/targets/javascript/fetch/client.ts:94-99 | As written, a form field called `body` is wrapped as well. |
| JavascriptFetch.ConvertKeepsField | src/targets/javascript/fetch/client.ts:94-99 | Corrected, the same field prints as the plain string. |

## Left out

- Line-level output: the snippets are modelled as lists of lines, and most properties are stated on the lines. `CodeBuilder.Render` joins them. The node fetch finding is stated on the joined text, the javascript fetch finding on the options line's text, and the fixture is compared line by line.
- The Python `pretty` option and the multi-line layout of `literalRepresentation`: payloads are printed on one line.
- `stringify-object` layout: the one-line form is kept; the multi-line layout past `inlineCharacterLimit: 80` is left out. Its string escaping is simplified to escaping `\`, `'`, line feed and carriage return.
- Node fetch's second `.replace` (client.ts:135) is modelled as `Text.ReplaceGroup`. It applies to the whole snippet, including the raw `set` and `append` values and the URL. Its `.` is taken to exclude the four ECMAScript line terminators. The agreement lemmas state their results both for `AsWritten`, the text after the first replace, and for `AsWrittenOutput`, the returned text.
- Key order of plain objects: `OrderedObject.Assign` lists array-index keys first, as JavaScript does. It is used where the converters build an object from request-supplied names (the python `files` and `payload` dicts). `OrderedObject.Set` serves the fixed keys (`cookie`, `headers`, `body`) and already-present keys, where the two agree. Objects that come in with the request (`headersObj`, `paramsObj`, `jsonObj`) are taken in the order the caller lists them.
- `Text.Upper`, `Text.Lower`: ASCII case mapping only. JavaScript's full Unicode `toUpperCase`/`toLowerCase` is not modelled.
- `Sorting.Sort`: orders keys by code point. JavaScript's default sort compares UTF-16 code units, which differs only outside the Basic Multilingual Plane.
- Numbers: JSON numbers and the PHP limits are integers. Floating point is not modelled.
- PHP nested builder: the header array is modelled at indentation level 2 instead of as a second builder joined with `\n` plus indent.
- Options the converters receive only to pass on (the indent unit) are the `unit` parameter of `Render`. The HAR normalisation that derives `fullUrl`, `allHeaders`, `paramsObj` and `jsonObj` is not part of this model.
- The helper modules `getHeaderName`, `literalRepresentation`, `stringify-object`, `JSON.stringify` and `encodeURIComponent` are not part of this model. Each is replaced by the stand-in listed above.

## Findings

| source | as written | input that shows it | evidently intended | confidence | as-written member | corrected member |
|---|---|---|---|---|---|---|
| src/targets/node/fetch/client.ts:134 | The unquoting of the body marker is a non-global replace on the whole snippet, so it hits the first `'encodedParams'` anywhere. | A URL-encoded request whose first parameter is named `encodedParams`. Its `set` line comes first, so the options keep `body: 'encodedParams'`. | The options record's body refers to the `encodedParams` variable. | medium, not executed | NodeFetch.AsWrittenSendsLiteral | NodeFetch.UrlEncodedBodyIsVariable |
| src/targets/node/fetch/client.ts:134 | The same replace runs for every MIME type, so any other string `'encodedParams'` in the snippet is unquoted as well. | A JSON request with the header `x-foo: encodedParams`. It prints `'x-foo': encodedParams`, a reference to an undefined variable. | Only the URL-encoded body's marker is unquoted; the header value stays the string `'encodedParams'`. | medium, not executed | NodeFetch.HeaderValueUnquoted | NodeFetch.HeaderHoldsQuotedMarker |
| src/targets/javascript/fetch/client.ts:94-99 | The `transform` hook wraps every property named `body` at any depth, not only the options record's own body. | A URL-encoded request with `paramsObj` `{body: 'x'}`. It prints `new URLSearchParams({body: new URLSearchParams('x')})`. | Only the record's own `body` is wrapped: `new URLSearchParams({body: 'x'})`. | medium, not executed | JavascriptFetch.AsWrittenWrapsField | JavascriptFetch.ConvertKeepsField |

=== FILE: code_builder.dfy ===
/** The generated snippet as the converters assemble it: a list of lines,
    each an indentation level and a text (`push(text, level)`, `blank()`,
    `unshift(text)`), joined with newlines at the end (`join()`). The builder
    itself is not part of this model; `Render` is its `join()`. */
module CodeBuilder {
  import Text

  datatype Line = Line(indent: nat, text: string)

  /** `blank()`. */
  const Blank := Line(0, "")

  /** `join()`: every line prefixed by its indentation, joined by newlines. */
  function Render(lines: seq<Line>, unit: string): string {
    Text.Join(seq(|lines|, i requires 0 <= i < |lines| => Text.Repeat(unit, lines[i].indent) + lines[i].text), "\n")
  }

  /** Items laid out one per line, each but the last followed by a comma. */
  function CommaSeparated(items: seq<string>, indent: nat): (r: seq<Line>)
    ensures |r| == |items|
    ensures forall i :: 0 <= i < |r| ==> r[i].indent == indent
    ensures forall i :: 0 <= i < |r| - 1 ==> r[i].text == items[i] + ","
    ensures |r| > 0 ==> r[|r| - 1].text == items[|r| - 1]
  {
    if |items| == 0 then []
    else if |items| == 1 then [Line(indent, items[0])]
    else [Line(indent, items[0] + ",")] + CommaSeparated(items[1..], indent)
  }

  /** Rendering two non-empty runs of lines puts a newline between them. */
  lemma RenderConcat(a: seq<Line>, b: seq<Line>, unit: string)
    requires |a| > 0 && |b| > 0
    ensures Render(a + b, unit) == Render(a, unit) + "\n" + Render(b, unit)
  {
    var pa := seq(|a|, i requires 0 <= i < |a| => Text.Repeat(unit, a[i].indent) + a[i].text);
    var pb := seq(|b|, i requires 0 <= i < |b| => Text.Repeat(unit, b[i].indent) + b[i].text);
    var ab := a + b;
    assert seq(|ab|, i requires 0 <= i < |ab| => Text.Repeat(unit, ab[i].indent) + ab[i].text) == pa + pb;
    Text.JoinConcat(pa, pb, "\n");
  }

  /** The text of every unindented line occurs in the rendering. */
  lemma RenderContainsLine(lines: seq<Line>, i: nat, unit: string)
    requires i < |lines| && lines[i].indent == 0
    ensures Text.Contains(Render(lines, unit), lines[i].text)
  {
    var parts := seq(|lines|, j requires 0 <= j < |lines| => Text.Repeat(unit, lines[j].indent) + lines[j].text);
    assert parts[i] == lines[i].text;
    Text.JoinContainsPart(parts, "\n", i);
  }

  /** Rendering splits after any line. */
  lemma RenderAt(lines: seq<Line>, k: nat, unit: string)
    requires 0 < k < |lines|
    ensures Render(lines, unit) == Render(lines[..k], unit) + ("\n" + Render(lines[k..], unit))
  {
    assert lines == lines[..k] + lines[k..];
    RenderConcat(lines[..k], lines[k..], unit);
  }

  /** Rendering around an unindented line: the lines before it, its text,
      and the lines after it. */
  lemma RenderAround(lines: seq<Line>, o: nat, unit: string)
    requires 0 < o < |lines| - 1 && lines[o].indent == 0
    ensures Render(lines, unit) == Render(lines[..o], unit) + "\n" + lines[o].text + "\n" + Render(lines[o + 1..], unit)
  {
    var rest := lines[o..];
    RenderAt(lines, o, unit);
    RenderAt(rest, 1, unit);
    assert rest[..1] == [lines[o]];
    assert rest[1..] == lines[o + 1..];
    assert Render([lines[o]], unit) == lines[o].text;
  }

  /** The rendering split after line `i`: line `i` lies in the first part,
      every later line in the second. */
  lemma RenderSplit(lines: seq<Line>, i: nat, j: nat, unit: string)
    requires i < j < |lines|
    requires lines[i].indent == 0 && lines[j].indent == 0
    ensures Render(lines, unit) == Render(lines[..i + 1], unit) + ("\n" + Render(lines[i + 1..], unit))
    ensures Text.Contains(Render(lines[..i + 1], unit), lines[i].text)
    ensures Text.Contains("\n" + Render(lines[i + 1..], unit), lines[j].text)
  {
    RenderAt(lines, i + 1, unit);
    var p, q := lines[..i + 1], lines[i + 1..];
    assert p[i] == lines[i];
    RenderContainsLine(p, i, unit);
    assert q[j - i - 1] == lines[j];
    RenderContainsLine(q, j - i - 1, unit);
    Text.ContainsAfter("\n", Render(q, unit), lines[j].text);
  }

  /** The parts of a three-way concatenation. */
  lemma Middle(a: seq<Line>, b: seq<Line>, c: seq<Line>)
    ensures (a + b + c)[..|a|] == a
    ensures (a + b + c)[|a|..|a| + |b|] == b
    ensures (a + b + c)[|a| + |b|..] == c
  {
  }

  /** An opening line, the items one per line with a comma after all but
      the last, and the closing lines. */
  function Block(open: Line, items: seq<string>, indent: nat, close: seq<Line>): (r: seq<Line>)
    requires |items| > 0
    ensures |r| == |items| + 1 + |close|
    ensures r[0] == open
    ensures forall i :: 1 <= i < |items| ==> r[i] == Line(indent, items[i - 1] + ",")
    ensures r[|items|] == Line(indent, items[|items| - 1])
    ensures r[|items| + 1..] == close
  {
    var body := CommaSeparated(items, indent);
    var r := [open] + body + close;
    assert forall i :: 1 <= i <= |items| ==> r[i] == body[i - 1];
    assert r[|items| + 1..] == close;
    r
  }
}

=== FILE: cookies.dfy ===
/** The `Cookie` request header the converters build from the cookie list:
    `encodeURIComponent(name)=encodeURIComponent(value)` pairs joined by
    `; `, the cookie-string form of section 4.2.1 of RFC 6265. */
module Cookies {
  import Text
  import Uri
  import opened Har
  import opened Wrappers

  function Pair(c: Cookie): string {
    Uri.Encode(c.name) + "=" + Uri.Encode(c.value)
  }

  /** `cookies.map(c => `${enc(c.name)}=${enc(c.value)}`).join('; ')`. */
  function Header(cookies: seq<Cookie>): string {
    Text.Join(seq(|cookies|, i requires 0 <= i < |cookies| => Pair(cookies[i])), "; ")
  }

  /** Splits one cookie-pair at its first `=`. */
  function SplitPair(p: string): (string, string) {
    var parts := Text.Split(p, "=");
    if |parts| == 1 then (p, "") else (parts[0], Text.Join(parts[1..], "="))
  }

  /** Reads a cookie-string back into its (still percent-encoded) pairs. */
  function Parse(s: string): seq<(string, string)> {
    if s == "" then []
    else
      var pairs := Text.Split(s, "; ");
      seq(|pairs|, i requires 0 <= i < |pairs| => SplitPair(pairs[i]))
  }

  lemma EncodedHasNoDelimiter(s: string)
    ensures ';' !in Uri.Encode(s) && '=' !in Uri.Encode(s)
  {
    Uri.EncodeSafe(s);
  }

  lemma SplitEncodedPair(c: Cookie)
    ensures SplitPair(Pair(c)) == (Uri.Encode(c.name), Uri.Encode(c.value))
  {
    var a, b := Uri.Encode(c.name), Uri.Encode(c.value);
    EncodedHasNoDelimiter(c.name);
    EncodedHasNoDelimiter(c.value);
    assert Text.Join([a, b], "=") == Pair(c);
    Text.SplitJoin([a, b], "=");
  }

  /** The header lists every cookie, in order, as its encoded name and
      value. */
  lemma {:induction false} ParseHeader(cookies: seq<Cookie>)
    ensures |Parse(Header(cookies))| == |cookies|
    ensures forall i :: 0 <= i < |cookies| ==>
              Parse(Header(cookies))[i] == (Uri.Encode(cookies[i].name), Uri.Encode(cookies[i].value))
  {
    var pairs := seq(|cookies|, i requires 0 <= i < |cookies| => Pair(cookies[i]));
    if |cookies| > 0 {
      forall p | p in pairs ensures ';' !in p {
        var i :| 0 <= i < |pairs| && pairs[i] == p;
        EncodedHasNoDelimiter(cookies[i].name);
        EncodedHasNoDelimiter(cookies[i].value);
      }
      Text.SplitJoin(pairs, "; ");
      assert '=' in pairs[0];
      assert Header(cookies) != "" by {
        if |cookies| == 1 { } else { assert Header(cookies)[..|pairs[0]|] == pairs[0]; }
      }
      forall i | 0 <= i < |cookies|
        ensures Parse(Header(cookies))[i] == (Uri.Encode(cookies[i].name), Uri.Encode(cookies[i].value))
      {
        SplitEncodedPair(cookies[i]);
      }
    }
  }

  /** Percent-decoding each parsed name and value gives the UTF-8 bytes of
      the cookie's own name and value. */
  lemma DecodeHeader(cookies: seq<Cookie>, i: nat)
    requires i < |cookies|
    ensures i < |Parse(Header(cookies))|
    ensures Uri.Decode(Parse(Header(cookies))[i].0) == Some(Uri.Utf8String(cookies[i].name))
    ensures Uri.Decode(Parse(Header(cookies))[i].1) == Some(Uri.Utf8String(cookies[i].value))
  {
    ParseHeader(cookies);
    Uri.DecodeEncode(cookies[i].name);
    Uri.DecodeEncode(cookies[i].value);
  }
}

=== FILE: har.dfy ===
/** The normalised request record every converter receives: the HAR request
    after the generator has derived its convenience fields (`fullUrl`,
    `queryObj`, `headersObj`, `allHeaders`, `postData.paramsObj`,
    `postData.jsonObj`). The normalisation itself is not part of this model. */
module Har {
  import opened Wrappers
  import opened OrderedObject
  import Json

  /** One part of a multipart or urlencoded body. */
  datatype Param = Param(name: string, value: Option<string>, fileName: Option<string>, contentType: Option<string>)

  datatype PostData = PostData(
    mimeType: string,
    text: Option<string>,
    params: Option<seq<Param>>,
    paramsObj: Option<Obj<Json.Value>>,
    jsonObj: Option<Json.Value>)

  datatype Cookie = Cookie(name: string, value: string)

  /** `httpMethod` is the record's `method` field. */
  datatype Request = Request(
    httpMethod: string,
    url: string,
    fullUrl: string,
    httpVersion: string,
    port: Option<string>,
    queryObj: Obj<Json.Value>,
    headersObj: Obj<string>,
    allHeaders: Obj<string>,
    cookies: seq<Cookie>,
    postData: PostData)

  /** Each object of the record is a JavaScript object: no key twice. */
  predicate WellFormed(r: Request) {
    DistinctKeys(r.headersObj) && DistinctKeys(r.allHeaders) && DistinctKeys(r.queryObj)
  }

  const JsonMime := "application/json"
  const MultipartMime := "multipart/form-data"
  const UrlEncodedMime := "application/x-www-form-urlencoded"
}

=== FILE: headers.dfy ===
/** Header lookup by name, as the converters use it: `getHeaderName`,
    `getHeader` and the `delete headers[getHeaderName(…)]` idiom. The helper
    file that defines the first two is not part of this model; they are
    modelled as the first key whose ASCII lower-case form equals the lower-case
    form of the name asked for, since header field names are
    case-insensitive (section 3.2 of RFC 7230). */
module Headers {
  import opened Wrappers
  import opened OrderedObject
  import Text

  predicate SameName(a: string, b: string) {
    Text.Lower(a) == Text.Lower(b)
  }

  /** At most one key of `h` names the header `name`. */
  predicate Unique(h: Obj<string>, name: string) {
    forall i, j :: 0 <= i < |h| && 0 <= j < |h| && SameName(h[i].0, name) && SameName(h[j].0, name) ==> i == j
  }

  /** `getHeaderName(h, name)`: the key under which `h` holds the header
      `name`, if any. */
  function NameOf(h: Obj<string>, name: string): (r: Option<string>)
    ensures r.Some? ==> SameName(r.value, name)
    ensures r.Some? ==> exists i | 0 <= i < |h| :: h[i].0 == r.value
    ensures r.None? <==> forall i :: 0 <= i < |h| ==> !SameName(h[i].0, name)
  {
    if |h| == 0 then None
    else if SameName(h[0].0, name) then Some(h[0].0)
    else
      var r := NameOf(h[1..], name);
      assert forall i :: 1 <= i < |h| ==> h[i] == h[1..][i - 1];
      r
  }

  /** `getHeader(h, name)`: the value of the header `name`, if present. */
  function ValueOf(h: Obj<string>, name: string): (r: Option<string>)
    ensures r.Some? ==> exists i | 0 <= i < |h| :: SameName(h[i].0, name) && h[i].1 == r.value
    ensures r.None? ==> forall i :: 0 <= i < |h| ==> !SameName(h[i].0, name)
  {
    match NameOf(h, name)
    case None => None
    case Some(k) => Get(h, k)
  }

  /** Dropping the entry at `i`, which names the header: no other entry
      naming it remains when it was the only one, and every entry that does
      not name it survives. */
  lemma DropNamed(h: Obj<string>, i: nat, name: string, r: Obj<string>)
    requires i < |h| && SameName(h[i].0, name)
    requires r == h[..i] + h[i + 1..]
    ensures Unique(h, name) ==> forall j :: 0 <= j < |r| ==> !SameName(r[j].0, name)
    ensures forall e :: e in h && !SameName(e.0, name) ==> e in r
  {
    assert forall j :: 0 <= j < |r| ==> r[j] == if j < i then h[j] else h[j + 1];
    forall e | e in h && !SameName(e.0, name) ensures e in r {
      var j :| 0 <= j < |h| && h[j] == e;
      assert r[if j < i then j else j - 1] == e;
    }
  }

  /** `const n = getHeaderName(h, name); if (n) { delete h[n]; }`: the entry
      naming the header leaves and every other entry keeps its place. */
  function Remove(h: Obj<string>, name: string): (r: Obj<string>)
    requires DistinctKeys(h)
    ensures DistinctKeys(r)
    ensures NameOf(h, name).None? ==> r == h
    ensures NameOf(h, name).Some? ==>
              exists i | 0 <= i < |h| :: SameName(h[i].0, name) && r == h[..i] + h[i + 1..]
    ensures Unique(h, name) ==> forall i :: 0 <= i < |r| ==> !SameName(r[i].0, name)
    ensures forall e :: e in h && !SameName(e.0, name) ==> e in r
    ensures forall k :: !SameName(k, name) ==> Get(r, k) == Get(h, k)
  {
    match NameOf(h, name)
    case None => h
    case Some(k) =>
      var r := Delete(h, k);
      var i :| 0 <= i < |h| && h[i].0 == k && r == h[..i] + h[i + 1..];
      DropNamed(h, i, name, r);
      r
  }
}

=== FILE: javascript_fetch.dfy ===
/** The browser `fetch` target: an options record (`method`, the headers,
    the optional `credentials`, the body), a `FormData` built field by field
    for a multipart body, and the `fetch(url, options)` promise chain. */
module JavascriptFetch {
  import opened Wrappers
  import opened OrderedObject
  import opened Har
  import opened CodeBuilder
  import opened JsLiteral
  import Json
  import Headers
  import Text

  /** The target's own option: `credentials`, where None is its default
      `null` and any other value (`undefined` included) is copied into the
      options record. */
  datatype FetchOptions = FetchOptions(credentials: Option<JsVal>)

  const DefaultOptions := FetchOptions(None)

  predicate IsMultipartWithParams(pd: PostData) {
    pd.mimeType == MultipartMime && pd.params.Some?
  }

  predicate IsUrlEncoded(pd: PostData) {
    pd.mimeType == UrlEncodedMime
  }

  /** `allHeaders` after the multipart branch, which drops the content type
      so that `FormData` can set its own boundary. */
  function HeadersAfterBody(req: Request): (h: Obj<string>)
    requires DistinctKeys(req.allHeaders)
    ensures DistinctKeys(h)
    ensures !IsMultipartWithParams(req.postData) ==> h == req.allHeaders
    ensures IsMultipartWithParams(req.postData) && Headers.Unique(req.allHeaders, "content-type") ==>
              forall i :: 0 <= i < |h| ==> !Headers.SameName(h[i].0, "content-type")
    ensures forall k :: !Headers.SameName(k, "content-type") ==> Get(h, k) == Get(req.allHeaders, k)
    ensures |req.allHeaders| == 0 ==> |h| == 0
  {
    if IsMultipartWithParams(req.postData) then Headers.Remove(req.allHeaders, "content-type") else req.allHeaders
  }

  /** The `body` property the switch on the MIME type assigns, if any. An
      assignment of `undefined` still creates the property. */
  function BodyValue(pd: PostData): Option<JsVal> {
    if pd.mimeType == UrlEncodedMime then
      Some(if pd.paramsObj.Some? then FromJson(Json.Object(pd.paramsObj.value))
           else if pd.text.Some? then Str(pd.text.value)
           else Undefined)
    else if pd.mimeType == JsonMime then
      Some(if pd.jsonObj.Some? then Str(Json.Stringify(pd.jsonObj.value)) else Undefined)
    else if pd.mimeType == MultipartMime then None
    else if Truthy(pd.text) then Some(Str(pd.text.value))
    else None
  }

  /** Where each property sits in the record. */
  function Rank(k: string): nat {
    if k == "method" then 0
    else if k == "headers" then 1
    else if k == "credentials" then 2
    else 3
  }

  /** Properties in strictly increasing rank. */
  predicate Ranked(r: Obj<JsVal>) {
    forall i, j :: 0 <= i < j < |r| ==> Rank(r[i].0) < Rank(r[j].0)
  }

  /** Every property ranks below `n`. */
  predicate Below(r: Obj<JsVal>, n: nat) {
    forall i :: 0 <= i < |r| ==> Rank(r[i].0) < n
  }

  /** Adds property `k` after the others when it is given. */
  function AppendOpt(r: Obj<JsVal>, k: string, v: Option<JsVal>): (s: Obj<JsVal>)
    requires Ranked(r) && Below(r, Rank(k))
    ensures Ranked(s) && Below(s, Rank(k) + 1)
    ensures |s| >= |r| && s[..|r|] == r
    ensures Get(s, k) == v
    ensures forall k' :: k' != k ==> Get(s, k') == Get(r, k')
  {
    if v.None? then
      assert !HasKey(r, k);
      r
    else
      assert !HasKey(r, k);
      var s := Set(r, k, v.value);
      assert s[..|r|] == r;
      s
  }

  lemma RankedDistinct(r: Obj<JsVal>)
    requires Ranked(r)
    ensures DistinctKeys(r)
  {
  }

  /** The record in property order, each optional property present exactly
      when given. */
  function Props(m: JsVal, headers: Option<JsVal>, credentials: Option<JsVal>, body: Option<JsVal>): (r: Obj<JsVal>)
    ensures |r| > 0 && r[0] == ("method", m)
    ensures forall i, j :: 0 <= i < j < |r| ==> Rank(r[i].0) < Rank(r[j].0)
    ensures DistinctKeys(r)
    ensures Get(r, "headers") == headers
    ensures Get(r, "credentials") == credentials
    ensures Get(r, "body") == body
  {
    var r1 := AppendOpt([("method", m)], "headers", headers);
    var r2 := AppendOpt(r1, "credentials", credentials);
    var r := AppendOpt(r2, "body", body);
    assert r[0] == r[..|r2|][0] == r2[..|r1|][0] == r1[..1][0];
    RankedDistinct(r);
    r
  }

  /** The `options` record as it is printed. */
  function Options(req: Request, o: FetchOptions): (r: Obj<JsVal>)
    requires DistinctKeys(req.allHeaders)
    ensures |r| > 0 && r[0] == ("method", Str(req.httpMethod))
    ensures forall i, j :: 0 <= i < j < |r| ==> Rank(r[i].0) < Rank(r[j].0)
    ensures DistinctKeys(r)
    ensures HasKey(r, "headers") <==> |HeadersAfterBody(req)| > 0
    ensures HasKey(r, "headers") ==> Get(r, "headers") == Some(FromStrings(HeadersAfterBody(req)))
    ensures Get(r, "credentials") == o.credentials
    ensures Get(r, "body") == BodyValue(req.postData)
  {
    var h := HeadersAfterBody(req);
    Props(Str(req.httpMethod), if |h| > 0 then Some(FromStrings(h)) else None, o.credentials, BodyValue(req.postData))
  }

  /** What the generated `options.body` is, by MIME type: for a URL-encoded
      body the parameter object, else the text, else `undefined`; for JSON
      the stringified object, else `undefined`; nothing for multipart; the
      text, when non-empty, for any other type. */
  lemma BodyOfRequest(req: Request, o: FetchOptions)
    requires DistinctKeys(req.allHeaders)
    ensures var pd, r := req.postData, Options(req, o);
            && (pd.mimeType == UrlEncodedMime ==>
                  && HasKey(r, "body")
                  && (pd.paramsObj.Some? ==> Get(r, "body") == Some(FromJson(Json.Object(pd.paramsObj.value))))
                  && (pd.paramsObj.None? && pd.text.Some? ==> Get(r, "body") == Some(Str(pd.text.value)))
                  && (pd.paramsObj.None? && pd.text.None? ==> Get(r, "body") == Some(Undefined)))
            && (pd.mimeType == JsonMime ==>
                  && HasKey(r, "body")
                  && (pd.jsonObj.Some? ==> Get(r, "body") == Some(Str(Json.Stringify(pd.jsonObj.value))))
                  && (pd.jsonObj.None? ==> Get(r, "body") == Some(Undefined)))
            && (pd.mimeType == MultipartMime ==> !HasKey(r, "body"))
            && (pd.mimeType != UrlEncodedMime && pd.mimeType != JsonMime && pd.mimeType != MultipartMime ==>
                  (HasKey(r, "body") <==> Truthy(pd.text))
                  && (HasKey(r, "body") ==> Get(r, "body") == Some(Str(pd.text.value))))
  {
  }

  /** The headers the snippet sends: every header of the request except a
      multipart body's content type; none at all when that leaves nothing. */
  lemma SentHeaders(req: Request, o: FetchOptions, k: string)
    requires DistinctKeys(req.allHeaders)
    ensures var r := Options(req, o);
            && (|req.allHeaders| == 0 ==> !HasKey(r, "headers"))
            && (!IsMultipartWithParams(req.postData) ==> (HasKey(r, "headers") <==> |req.allHeaders| > 0))
            && (HasKey(r, "headers") && !Headers.SameName(k, "content-type") ==>
                  Get(HeadersAfterBody(req), k) == Get(req.allHeaders, k))
  {
  }

  /** `param.value || param.fileName || ''`. */
  function FieldValue(p: Param): (v: string)
    ensures Truthy(p.value) ==> v == p.value.value
    ensures !Truthy(p.value) && Truthy(p.fileName) ==> v == p.fileName.value
    ensures v == "" <==> !Truthy(p.value) && !Truthy(p.fileName)
  {
    if Truthy(p.value) then p.value.value
    else if Truthy(p.fileName) then p.fileName.value
    else ""
  }

  function AppendLine(p: Param): Line {
    Line(0, "form.append('" + p.name + "', '" + FieldValue(p) + "');")
  }

  /** The statements that build the form: one `append` per parameter, in
      order, then a blank line. */
  function FormLines(pd: PostData): (r: seq<Line>)
    ensures !IsMultipartWithParams(pd) ==> r == []
    ensures IsMultipartWithParams(pd) ==>
              && |r| == |pd.params.value| + 2
              && r[0] == Line(0, "const form = new FormData();")
              && (forall i :: 0 <= i < |pd.params.value| ==> r[1 + i] == AppendLine(pd.params.value[i]))
              && r[|r| - 1] == Blank
  {
    if IsMultipartWithParams(pd) then
      var ps := pd.params.value;
      [Line(0, "const form = new FormData();")] + seq(|ps|, i requires 0 <= i < |ps| => AppendLine(ps[i])) + [Blank]
    else []
  }

  function Chain(fullUrl: string): seq<Line> {
    [Line(0, "fetch('" + fullUrl + "', options)"),
     Line(1, ".then(response => response.json())"),
     Line(1, ".then(response => console.log(response))"),
     Line(1, ".catch(err => console.error(err));")]
  }

  /** The snippet around its form statements and options line. */
  function Frame(form: seq<Line>, options: Line, formBody: bool, fullUrl: string): (lines: seq<Line>)
    ensures var n := |form|;
            && |lines| == n + 2 + (if formBody then 2 else 0) + 4
            && lines[..n] == form
            && lines[n] == options
            && lines[n + 1] == Blank
            && (formBody ==> lines[n + 2] == Line(0, "options.body = form;") && lines[n + 3] == Blank)
            && lines[|lines| - 4..] == Chain(fullUrl)
  {
    form + [options, Blank]
      + (if formBody then [Line(0, "options.body = form;"), Blank] else [])
      + Chain(fullUrl)
  }

  /** The options line as written: the `URLSearchParams` hook of a
      URL-encoded body applies to every property called `body`, at any
      depth. */
  function AsWrittenOptionsLine(req: Request, o: FetchOptions): Line
    requires DistinctKeys(req.allHeaders)
  {
    Line(0, "const options = " + Lit(Record(Options(req, o)), IsUrlEncoded(req.postData)) + ";")
  }

  /** The options line with the hook applied to the record's own `body`
      only. */
  function OptionsLine(req: Request, o: FetchOptions): Line
    requires DistinctKeys(req.allHeaders)
  {
    Line(0, "const options = " + TopLit(Options(req, o), IsUrlEncoded(req.postData)) + ";")
  }

  /** `fetch.convert` as written. */
  function AsWritten(req: Request, o: FetchOptions): (lines: seq<Line>)
    requires DistinctKeys(req.allHeaders)
    ensures var n := |FormLines(req.postData)|;
            && |lines| == n + 2 + (if IsMultipartWithParams(req.postData) then 2 else 0) + 4
            && lines[..n] == FormLines(req.postData)
            && lines[n] == AsWrittenOptionsLine(req, o)
            && lines[|lines| - 4..] == Chain(req.fullUrl)
  {
    Frame(FormLines(req.postData), AsWrittenOptionsLine(req, o), IsMultipartWithParams(req.postData), req.fullUrl)
  }

  /** `fetch.convert` with the hook confined to the record's own body: the
      form statements, the options, the `options.body = form` assignment
      exactly for a multipart body with parameters, and the chain. */
  function Convert(req: Request, o: FetchOptions): (lines: seq<Line>)
    requires DistinctKeys(req.allHeaders)
    ensures var n := |FormLines(req.postData)|;
            && |lines| == n + 2 + (if IsMultipartWithParams(req.postData) then 2 else 0) + 4
            && lines[..n] == FormLines(req.postData)
            && lines[n] == OptionsLine(req, o)
            && lines[n + 1] == Blank
            && (IsMultipartWithParams(req.postData) ==> lines[n + 2] == Line(0, "options.body = form;"))
            && lines[|lines| - 4..] == Chain(req.fullUrl)
  {
    Frame(FormLines(req.postData), OptionsLine(req, o), IsMultipartWithParams(req.postData), req.fullUrl)
  }

  /** Away from URL-encoded bodies the two printers agree. */
  lemma NoHookNoDifference(req: Request, o: FetchOptions)
    requires DistinctKeys(req.allHeaders)
    requires !IsUrlEncoded(req.postData)
    ensures AsWritten(req, o) == Convert(req, o)
  {
    TopLitWithoutHook(Options(req, o));
  }

  /** Each property of the record occurs in the printed options line. */
  lemma OptionsLineHolds(r: Obj<JsVal>, wrapBody: bool, i: nat)
    requires i < |r|
    ensures Text.Contains("const options = " + TopLit(r, wrapBody) + ";",
                          Key(r[i].0) + ": " + Transform(r[i].0, Lit(r[i].1, false), wrapBody))
  {
    var lit := TopLit(r, wrapBody);
    TopLitHoldsEntry(r, wrapBody, i);
    Text.ContainsInfix("const options = ", lit, ";");
    Text.ContainsWithin("const options = " + lit + ";", lit, Key(r[i].0) + ": " + Transform(r[i].0, Lit(r[i].1, false), wrapBody));
  }

  /** The printed `body` property under the hook. */
  lemma WrappedEntry(r: Obj<JsVal>, i: nat, v: JsVal)
    requires i < |r| && r[i] == ("body", v)
    ensures Key(r[i].0) + ": " + Transform(r[i].0, Lit(r[i].1, false), true)
            == "body" + ": " + ("new URLSearchParams(" + Lit(v, false) + ")")
  {
    assert Key("body") == "body" by {
      assert IsIdentifier("body");
    }
  }

  /** The corrected snippet wraps a URL-encoded body's parameter object as
      it is printed on its own. */
  lemma UrlEncodedParamsWrapped(req: Request, o: FetchOptions)
    requires DistinctKeys(req.allHeaders)
    requires IsUrlEncoded(req.postData) && req.postData.paramsObj.Some?
    ensures Text.Contains(OptionsLine(req, o).text,
                          "body" + ": " + ("new URLSearchParams(" + Lit(FromJson(Json.Object(req.postData.paramsObj.value)), false) + ")"))
  {
    var r := Options(req, o);
    var v := FromJson(Json.Object(req.postData.paramsObj.value));
    BodyOfRequest(req, o);
    assert Get(r, "body") == Some(v);
    var i := IndexOf(r, "body").value;
    assert r[i] == ("body", v);
    WrappedEntry(r, i, v);
    OptionsLineHolds(r, true, i);
  }

  /** A form field called `body`. */
  const ExampleParams: Obj<Json.Value> := [("body", Json.String("x"))]

  /** A URL-encoded request whose only field is called `body`. */
  const BodyFieldExample := Request(
    "POST", "http://mockbin.com/har", "http://mockbin.com/har", "HTTP/1.1", None, [], [], [], [],
    PostData(UrlEncodedMime, None, None, Some(ExampleParams), None))

  lemma ExampleParamsLit(wrapBody: bool)
    ensures Lit(FromJson(Json.Object(ExampleParams)), wrapBody) ==
              "{" + ("body" + ": " + Transform("body", Quote("x"), wrapBody)) + "}"
  {
    var v := FromJson(Json.Object(ExampleParams));
    assert v == Record([("body", Str("x"))]);
    assert Key("body") == "body" by {
      assert IsIdentifier("body");
    }
    RecordEntries([("body", Str("x"))], wrapBody);
  }

  /** The record's `body` entry, as written, holds its value printed with
      the hook. */
  lemma BodyEntryHoldsValue(r: Obj<JsVal>, wrapBody: bool)
    requires HasKey(r, "body")
    ensures Text.Contains(Lit(Record(r), wrapBody), Lit(Get(r, "body").value, wrapBody))
  {
    var i := IndexOf(r, "body").value;
    var v := r[i].1;
    LitHoldsEntry(r, wrapBody, i);
    var t := EntryText("body", v, wrapBody);
    if wrapBody {
      assert t == Key("body") + ": " + "new URLSearchParams(" + Lit(v, wrapBody) + ")";
      Text.ContainsInfix(Key("body") + ": " + "new URLSearchParams(", Lit(v, wrapBody), ")");
    } else {
      assert t == Key("body") + ": " + Lit(v, wrapBody) + "";
      Text.ContainsInfix(Key("body") + ": ", Lit(v, wrapBody), "");
    }
    Text.ContainsWithin(Lit(Record(r), wrapBody), t, Lit(v, wrapBody));
  }

  /** As written, the field called `body` inside the parameter object is
      wrapped too, so the form sends `new URLSearchParams('x')` (which reads
      back as `x=`) instead of `x`. */
  lemma AsWrittenWrapsField()
    ensures Text.Contains(AsWrittenOptionsLine(BodyFieldExample, DefaultOptions).text,
                          "{" + ("body" + ": " + ("new URLSearchParams(" + Quote("x") + ")")) + "}")
  {
    var req := BodyFieldExample;
    var r := Options(req, DefaultOptions);
    assert Get(r, "body") == Some(FromJson(Json.Object(ExampleParams)));
    BodyEntryHoldsValue(r, true);
    ExampleParamsLit(true);
    var lit := Lit(Record(r), true);
    Text.ContainsInfix("const options = ", lit, ";");
    Text.ContainsWithin(AsWrittenOptionsLine(req, DefaultOptions).text, lit, Lit(FromJson(Json.Object(ExampleParams)), true));
  }

  /** Corrected, the same request wraps the parameter object as it stands. */
  lemma ConvertKeepsField()
    ensures Text.Contains(OptionsLine(BodyFieldExample, DefaultOptions).text,
                          "body" + ": " + ("new URLSearchParams(" + ("{" + ("body" + ": " + Quote("x")) + "}") + ")"))
  {
    UrlEncodedParamsWrapped(BodyFieldExample, DefaultOptions);
    ExampleParamsLit(false);
  }
}

=== FILE: js_literal.dfy ===
/** The JavaScript values the two `fetch` targets build their options record
    from, and the object literal `stringifyObject` prints for them. The
    `stringify-object` package is not part of this model; it is modelled by
    a one-line literal: single-quoted strings with `\`, `'`, line feed and
    carriage return escaped, keys bare when they are identifiers and quoted
    otherwise, entries separated by `, `. Its `transform` hook is modelled
    by the one use the targets make of it: wrapping every property called
    `body` (at any depth, as the hook is called for every property). */
module JsLiteral {
  import opened Wrappers
  import opened OrderedObject
  import Json
  import Text

  datatype JsVal =
    | Undefined
    | Str(s: string)
    | Code(text: string)
    | List(items: seq<JsVal>)
    | Record(fields: seq<(string, JsVal)>)

  /** A parsed JSON value as the JavaScript value it is. */
  function FromJson(v: Json.Value): JsVal
    decreases v
  {
    match v
    case Null => Code("null")
    case Bool(b) => Code(if b then "true" else "false")
    case Number(n) => Code(Text.IntToString(n))
    case String(s) => Str(s)
    case Array(items) => List(seq(|items|, i requires 0 <= i < |items| => FromJson(items[i])))
    case Object(fields) => Record(seq(|fields|, i requires 0 <= i < |fields| => (fields[i].0, FromJson(fields[i].1))))
  }

  /** A string-valued object, such as a header map, as a record. */
  function FromStrings(o: Obj<string>): (r: JsVal)
    ensures r.Record? && |r.fields| == |o|
    ensures forall i :: 0 <= i < |o| ==> r.fields[i] == (o[i].0, Str(o[i].1))
  {
    Record(seq(|o|, i requires 0 <= i < |o| => (o[i].0, Str(o[i].1))))
  }

  function EscapeChar(c: char): string {
    if c == '\\' then "\\\\"
    else if c == '\'' then "\\'"
    else if c == '\n' then "\\n"
    else if c == '\r' then "\\r"
    else [c]
  }

  function Escape(s: string): string {
    if |s| == 0 then "" else EscapeChar(s[0]) + Escape(s[1..])
  }

  /** A single-quoted string literal. */
  function Quote(s: string): string {
    "'" + Escape(s) + "'"
  }

  function Prepend(c: char, rest: Option<string>): Option<string> {
    match rest
    case None => None
    case Some(t) => Some([c] + t)
  }

  /** The inverse of `Escape`, or None for text `Escape` cannot produce. */
  function Unescape(s: string): Option<string>
    decreases |s|
  {
    if |s| == 0 then Some("")
    else if s[0] == '\'' || s[0] == '\n' || s[0] == '\r' then None
    else if s[0] != '\\' then Prepend(s[0], Unescape(s[1..]))
    else if |s| < 2 then None
    else if s[1] == '\\' then Prepend('\\', Unescape(s[2..]))
    else if s[1] == '\'' then Prepend('\'', Unescape(s[2..]))
    else if s[1] == 'n' then Prepend('\n', Unescape(s[2..]))
    else if s[1] == 'r' then Prepend('\r', Unescape(s[2..]))
    else None
  }

  /** Reads a single-quoted string literal. */
  function Unquote(q: string): Option<string> {
    if |q| >= 2 && q[0] == '\'' && q[|q| - 1] == '\'' then Unescape(q[1..|q| - 1]) else None
  }

  lemma UnescapeChar(c: char, rest: string)
    ensures Unescape(EscapeChar(c) + rest) == Prepend(c, Unescape(rest))
  {
    var s := EscapeChar(c) + rest;
    if |EscapeChar(c)| == 2 {
      assert s[2..] == rest;
    } else {
      assert s[1..] == rest;
    }
  }

  lemma {:induction false} EscapeRoundTrip(s: string)
    ensures Unescape(Escape(s)) == Some(s)
  {
    if |s| > 0 {
      UnescapeChar(s[0], Escape(s[1..]));
      EscapeRoundTrip(s[1..]);
      assert s == [s[0]] + s[1..];
    }
  }

  predicate Plain(c: char) {
    c != '\\' && c != '\'' && c != '\n' && c != '\r'
  }

  /** A string without characters to escape is quoted as it stands. */
  lemma {:induction false} EscapePlain(s: string)
    requires forall i :: 0 <= i < |s| ==> Plain(s[i])
    ensures Escape(s) == s
  {
    if |s| > 0 {
      EscapePlain(s[1..]);
      assert s == [s[0]] + s[1..];
    }
  }

  /** A string literal reads back as the string it was made from. */
  lemma QuoteRoundTrip(s: string)
    ensures Unquote(Quote(s)) == Some(s)
  {
    var q := Quote(s);
    assert q[1..|q| - 1] == Escape(s);
    EscapeRoundTrip(s);
  }

  predicate IdentifierStart(c: char) {
    ('a' <= c <= 'z') || ('A' <= c <= 'Z') || c == '$' || c == '_'
  }

  predicate IdentifierPart(c: char) {
    IdentifierStart(c) || ('0' <= c <= '9')
  }

  /** A key that may stand bare in an object literal. */
  predicate IsIdentifier(k: string) {
    |k| > 0 && IdentifierStart(k[0]) && forall i :: 1 <= i < |k| ==> IdentifierPart(k[i])
  }

  function Key(k: string): string {
    if IsIdentifier(k) then k else Quote(k)
  }

  /** What the `transform` hook makes of a printed property. */
  function Transform(k: string, printed: string, wrapBody: bool): string {
    if wrapBody && k == "body" then "new URLSearchParams(" + printed + ")" else printed
  }

  /** `stringifyObject(v, …)` on one line; `wrapBody` says whether the
      `URLSearchParams` transform is in force. */
  function Lit(v: JsVal, wrapBody: bool): string
    decreases v
  {
    match v
    case Undefined => "undefined"
    case Str(s) => Quote(s)
    case Code(t) => t
    case List(items) =>
      "[" + Text.Join(seq(|items|, i requires 0 <= i < |items| => Lit(items[i], wrapBody)), ", ") + "]"
    case Record(fields) =>
      "{" + Text.Join(seq(|fields|, i requires 0 <= i < |fields| =>
                            Key(fields[i].0) + ": " + Transform(fields[i].0, Lit(fields[i].1, wrapBody), wrapBody)), ", ") + "}"
  }

  /** The printed entry of one property of a record. */
  function EntryText(k: string, v: JsVal, wrapBody: bool): string {
    Key(k) + ": " + Transform(k, Lit(v, wrapBody), wrapBody)
  }

  /** The printed entries of a record, in order. */
  function EntryTexts(fields: seq<(string, JsVal)>, wrapBody: bool): (r: seq<string>)
    ensures |r| == |fields|
  {
    if |fields| == 0 then []
    else [EntryText(fields[0].0, fields[0].1, wrapBody)] + EntryTexts(fields[1..], wrapBody)
  }

  /** The `i`th printed entry is the entry of the `i`th property. */
  lemma {:induction false} EntryTextAt(fields: seq<(string, JsVal)>, i: nat, wrapBody: bool)
    requires i < |fields|
    ensures EntryTexts(fields, wrapBody)[i] == EntryText(fields[i].0, fields[i].1, wrapBody)
    decreases i
  {
    if i > 0 {
      EntryTextAt(fields[1..], i - 1, wrapBody);
    }
  }

  /** A record prints as its entries in order, each once. */
  lemma RecordEntries(fields: seq<(string, JsVal)>, wrapBody: bool)
    ensures Lit(Record(fields), wrapBody) == "{" + Text.Join(EntryTexts(fields, wrapBody), ", ") + "}"
  {
    var printed := seq(|fields|, i requires 0 <= i < |fields| =>
                         Key(fields[i].0) + ": " + Transform(fields[i].0, Lit(fields[i].1, wrapBody), wrapBody));
    forall i | 0 <= i < |fields|
      ensures printed[i] == EntryTexts(fields, wrapBody)[i]
    {
      EntryTextAt(fields, i, wrapBody);
    }
    assert printed == EntryTexts(fields, wrapBody);
  }

  /** Without the hook, a printed entry holds its printed value. */
  lemma EntryHoldsValue(k: string, v: JsVal, wrapBody: bool)
    ensures !wrapBody ==> Text.Contains(EntryText(k, v, wrapBody), Lit(v, wrapBody))
  {
    Text.ContainsInfix(Key(k) + ": ", Lit(v, wrapBody), "");
    assert !wrapBody ==> EntryText(k, v, wrapBody) == Key(k) + ": " + Lit(v, wrapBody) + "";
  }

  /** The entries of a concatenation are the entries of its parts. */
  lemma {:induction false} EntryTextsConcat(a: seq<(string, JsVal)>, b: seq<(string, JsVal)>, wrapBody: bool)
    ensures EntryTexts(a + b, wrapBody) == EntryTexts(a, wrapBody) + EntryTexts(b, wrapBody)
    decreases |a|
  {
    if |a| == 0 {
      assert a + b == b;
    } else {
      assert (a + b)[1..] == a[1..] + b;
      EntryTextsConcat(a[1..], b, wrapBody);
    }
  }

  /** The entries of a record split around one of its properties. */
  lemma EntryTextsAround(a: seq<(string, JsVal)>, k: string, v: JsVal, b: seq<(string, JsVal)>, wrapBody: bool)
    ensures EntryTexts(a + [(k, v)] + b, wrapBody) == EntryTexts(a, wrapBody) + [EntryText(k, v, wrapBody)] + EntryTexts(b, wrapBody)
  {
    var one := [(k, v)];
    EntryTextsConcat(a + one, b, wrapBody);
    EntryTextsConcat(a, one, wrapBody);
    assert one[1..] == [];
    assert EntryTexts(one, wrapBody) == [EntryText(k, v, wrapBody)] + EntryTexts([], wrapBody);
  }

  /** A record printed around one of its properties: the entries before it,
      the property's entry, and the entries after it. */
  lemma RecordAround(a: seq<(string, JsVal)>, k: string, v: JsVal, b: seq<(string, JsVal)>, wrapBody: bool)
    requires |a| > 0
    ensures Lit(Record(a + [(k, v)] + b), wrapBody) ==
              "{" + Text.Join(EntryTexts(a, wrapBody), ", ") + ", " + EntryText(k, v, wrapBody)
                + (if |b| == 0 then "" else ", " + Text.Join(EntryTexts(b, wrapBody), ", ")) + "}"
  {
    var ea, x, eb := EntryTexts(a, wrapBody), EntryText(k, v, wrapBody), EntryTexts(b, wrapBody);
    var tail := if |b| == 0 then "" else ", " + Text.Join(eb, ", ");
    RecordEntries(a + [(k, v)] + b, wrapBody);
    EntryTextsAround(a, k, v, b, wrapBody);
    Text.JoinAround(ea, x, eb, ", ");
    Text.Regroup("{", Text.Join(ea, ", "), ", ", x, tail, "}");
  }

  /** A record printed with the `transform` hook applied to its own
      properties only: nested values are printed without it. */
  function TopLit(fields: seq<(string, JsVal)>, wrapBody: bool): string {
    "{" + Text.Join(seq(|fields|, i requires 0 <= i < |fields| =>
                          Key(fields[i].0) + ": " + Transform(fields[i].0, Lit(fields[i].1, false), wrapBody)), ", ") + "}"
  }

  /** Without the hook in force, the two printers agree. */
  lemma TopLitWithoutHook(fields: seq<(string, JsVal)>)
    ensures TopLit(fields, false) == Lit(Record(fields), false)
  {
  }

  /** Each property of a record occurs in its printed form, its value
      printed without the hook and wrapped when it is the body. */
  lemma TopLitHoldsEntry(fields: seq<(string, JsVal)>, wrapBody: bool, i: nat)
    requires i < |fields|
    ensures Text.Contains(TopLit(fields, wrapBody),
                          Key(fields[i].0) + ": " + Transform(fields[i].0, Lit(fields[i].1, false), wrapBody))
  {
    var entries := seq(|fields|, j requires 0 <= j < |fields| =>
                         Key(fields[j].0) + ": " + Transform(fields[j].0, Lit(fields[j].1, false), wrapBody));
    Text.JoinContainsPart(entries, ", ", i);
    Text.ContainsInfix("{", Text.Join(entries, ", "), "}");
    Text.ContainsWithin(TopLit(fields, wrapBody), Text.Join(entries, ", "), entries[i]);
  }

  /** Each property of a record occurs in its printed form. */
  lemma LitHoldsEntry(fields: seq<(string, JsVal)>, wrapBody: bool, i: nat)
    requires i < |fields|
    ensures Text.Contains(Lit(Record(fields), wrapBody), EntryText(fields[i].0, fields[i].1, wrapBody))
  {
    var entries := EntryTexts(fields, wrapBody);
    RecordEntries(fields, wrapBody);
    EntryTextAt(fields, i, wrapBody);
    Text.JoinContainsPart(entries, ", ", i);
    Text.ContainsInfix("{", Text.Join(entries, ", "), "}");
    Text.ContainsWithin(Lit(Record(fields), wrapBody), Text.Join(entries, ", "), entries[i]);
  }
}

=== FILE: json.dfy ===
/** JSON values and `JSON.stringify`, as far as the converters use it: to
    quote a string (section 7 of RFC 8259) and to print the parsed body of an
    `application/json` request. The stringifier itself is not part of this
    model; `Quote` follows the escaping rules of ECMAScript's
    `JSON.stringify` for strings and comes with its inverse `Unquote`. */
module Json {
  import opened Wrappers
  import Text
  import opened OrderedObject

  /** A JSON value, as `JSON.parse` produces it (numbers restricted to
      integers). */
  datatype Value =
    | Null
    | Bool(b: bool)
    | Number(n: int)
    | String(s: string)
    | Array(items: seq<Value>)
    | Object(fields: Obj<Value>)

  /** JavaScript truthiness of a parsed value, as tested by `if (v)`. */
  predicate Truthy(v: Value) {
    match v
    case Null => false
    case Bool(b) => b
    case Number(n) => n != 0
    case String(s) => s != ""
    case _ => true
  }

  /** The escape sequence `JSON.stringify` writes for one character. */
  function EscapeChar(c: char): string {
    if c == '"' then "\\\""
    else if c == '\\' then "\\\\"
    else if c == '\n' then "\\n"
    else if c == '\r' then "\\r"
    else if c == '\t' then "\\t"
    else if c as int == 8 then "\\b"
    else if c as int == 12 then "\\f"
    else if (c as int) < 0x20 then "\\u00" + [Text.HexDigit(c as int / 16, false), Text.HexDigit(c as int % 16, false)]
    else [c]
  }

  function Escape(s: string): string {
    if |s| == 0 then "" else EscapeChar(s[0]) + Escape(s[1..])
  }

  /** `JSON.stringify(s)` for a string `s`. */
  function Quote(s: string): string {
    "\"" + Escape(s) + "\""
  }

  function Prepend(c: char, rest: Option<string>): Option<string> {
    match rest
    case None => None
    case Some(t) => Some([c] + t)
  }

  /** Decodes the escape sequence at the start of `s`: the character it
      stands for and its length. */
  function EscapeAt(s: string): (r: Option<(char, nat)>)
    requires |s| >= 1 && s[0] == '\\'
    ensures r.Some? ==> 2 <= r.value.1 <= |s|
  {
    if |s| < 2 then None
    else if s[1] == '"' then Some(('"', 2))
    else if s[1] == '\\' then Some(('\\', 2))
    else if s[1] == '/' then Some(('/', 2))
    else if s[1] == 'b' then Some((8 as char, 2))
    else if s[1] == 'f' then Some((12 as char, 2))
    else if s[1] == 'n' then Some(('\n', 2))
    else if s[1] == 'r' then Some(('\r', 2))
    else if s[1] == 't' then Some(('\t', 2))
    else if s[1] == 'u' && |s| >= 6 then
      match (Text.HexValue(s[2]), Text.HexValue(s[3]), Text.HexValue(s[4]), Text.HexValue(s[5]))
      case (Some(a), Some(b), Some(c), Some(d)) =>
        var v := ((a * 16 + b) * 16 + c) * 16 + d;
        if 0xD800 <= v < 0xE000 then None else Some((v as char, 6))
      case _ => None
    else None
  }

  /** The inverse of `Escape`: the string a JSON string body denotes, or
      None when the body is malformed. */
  function Unescape(s: string): Option<string>
    decreases |s|
  {
    if |s| == 0 then Some("")
    else if s[0] == '"' || (s[0] as int) < 0x20 then None
    else if s[0] != '\\' then Prepend(s[0], Unescape(s[1..]))
    else
      match EscapeAt(s)
      case None => None
      case Some((c, n)) => Prepend(c, Unescape(s[n..]))
  }

  /** Parses a JSON string literal. */
  function Unquote(q: string): Option<string> {
    if |q| >= 2 && q[0] == '"' && q[|q| - 1] == '"' then Unescape(q[1..|q| - 1]) else None
  }

  /** A control character without a short escape reads back from its
      `\u00XX` form. */
  lemma UnescapeControl(c: char, rest: string)
    requires (c as int) < 0x20 && c != '\n' && c != '\r' && c != '\t' && c as int != 8 && c as int != 12
    ensures Unescape(EscapeChar(c) + rest) == Prepend(c, Unescape(rest))
  {
    var hi, lo := Text.HexDigit(c as int / 16, false), Text.HexDigit(c as int % 16, false);
    var s := EscapeChar(c) + rest;
    assert EscapeChar(c) == "\\u00" + [hi, lo];
    Text.HexValueOfDigit(c as int / 16, false);
    Text.HexValueOfDigit(c as int % 16, false);
    assert s[0] == '\\' && s[1] == 'u' && s[2] == '0' && s[3] == '0' && s[4] == hi && s[5] == lo;
    assert EscapeAt(s) == Some((c, 6));
    assert s[6..] == rest;
  }

  lemma UnescapeChar(c: char, rest: string)
    ensures Unescape(EscapeChar(c) + rest) == Prepend(c, Unescape(rest))
  {
    var s := EscapeChar(c) + rest;
    if (c as int) < 0x20 && c != '\n' && c != '\r' && c != '\t' && c as int != 8 && c as int != 12 {
      UnescapeControl(c, rest);
    } else if |EscapeChar(c)| == 2 {
      assert s[2..] == rest;
    } else {
      assert s[1..] == rest;
    }
  }

  /** No escape sequence holds a control character. */
  lemma EscapeCharPrintable(c: char)
    ensures forall i :: 0 <= i < |EscapeChar(c)| ==> EscapeChar(c)[i] as int >= 0x20
  {
    if (c as int) < 0x20 && c != '\n' && c != '\r' && c != '\t' && c as int != 8 && c as int != 12 {
      var e := EscapeChar(c);
      assert e == "\\u00" + [Text.HexDigit(c as int / 16, false), Text.HexDigit(c as int % 16, false)];
      Text.HexValueOfDigit(c as int / 16, false);
      Text.HexValueOfDigit(c as int % 16, false);
    }
  }

  /** Escaping loses nothing: unescaping gives the original string back;
      and, as section 7 of RFC 8259 requires, no control character is left
      unescaped. */
  lemma {:induction false} EscapeRoundTrip(s: string)
    ensures Unescape(Escape(s)) == Some(s)
    ensures forall i :: 0 <= i < |Escape(s)| ==> Escape(s)[i] as int >= 0x20
  {
    EscapePrintable(s);
    if |s| > 0 {
      UnescapeChar(s[0], Escape(s[1..]));
      EscapeRoundTrip(s[1..]);
      assert s == [s[0]] + s[1..];
    }
  }

  lemma {:induction false} EscapePrintable(s: string)
    ensures forall i :: 0 <= i < |Escape(s)| ==> Escape(s)[i] as int >= 0x20
  {
    if |s| > 0 {
      EscapeCharPrintable(s[0]);
      EscapePrintable(s[1..]);
      var e, rest := EscapeChar(s[0]), Escape(s[1..]);
      assert forall i :: 0 <= i < |e + rest| ==> (e + rest)[i] == if i < |e| then e[i] else rest[i - |e|];
    }
  }

  /** `JSON.stringify` of a string is a literal that parses back to it, and
      holds no raw control character. */
  lemma QuoteRoundTrip(s: string)
    ensures Unquote(Quote(s)) == Some(s)
    ensures forall i :: 0 <= i < |Quote(s)| ==> Quote(s)[i] as int >= 0x20
  {
    var q := Quote(s);
    assert q[1..|q| - 1] == Escape(s);
    EscapeRoundTrip(s);
    assert forall i :: 1 <= i < |q| - 1 ==> q[i] == Escape(s)[i - 1];
  }

  /** `JSON.stringify(v)` for a parsed value (no spaces). */
  function Stringify(v: Value): string
    decreases v
  {
    match v
    case Null => "null"
    case Bool(b) => if b then "true" else "false"
    case Number(n) => Text.IntToString(n)
    case String(s) => Quote(s)
    case Array(items) =>
      "[" + Text.Join(seq(|items|, i requires 0 <= i < |items| => Stringify(items[i])), ",") + "]"
    case Object(fields) =>
      "{" + Text.Join(seq(|fields|, i requires 0 <= i < |fields| =>
                            Quote(fields[i].0) + ":" + Stringify(fields[i].1)), ",") + "}"
  }
}

=== FILE: node_fetch.dfy ===
/** The Node.js `node-fetch` target: an options record (`method`, then the
    headers, the body and the cookies), the statements that build a
    `URLSearchParams` or `FormData` body, the `require` lines those need,
    and the `fetch(url, options)` promise chain. */
module NodeFetch {
  import opened Wrappers
  import opened OrderedObject
  import opened Har
  import opened CodeBuilder
  import opened JsLiteral
  import Json
  import Headers
  import Cookies
  import Text

  predicate IsMultipartWithParams(pd: PostData) {
    pd.mimeType == MultipartMime && pd.params.Some?
  }

  /** The request's header object after the `multipart/form-data` branch,
      which drops the content type so that `form-data` can set its own
      boundary. */
  function HeadersAfterBody(req: Request): (h: Obj<string>)
    requires DistinctKeys(req.headersObj)
    ensures DistinctKeys(h)
    ensures !IsMultipartWithParams(req.postData) ==> h == req.headersObj
    ensures IsMultipartWithParams(req.postData) && Headers.Unique(req.headersObj, "content-type") ==>
              forall i :: 0 <= i < |h| ==> !Headers.SameName(h[i].0, "content-type")
    ensures forall e :: e in req.headersObj && !Headers.SameName(e.0, "content-type") ==> e in h
    ensures forall k :: !Headers.SameName(k, "content-type") ==> Get(h, k) == Get(req.headersObj, k)
    ensures |req.headersObj| == 0 ==> |h| == 0
  {
    if IsMultipartWithParams(req.postData) then Headers.Remove(req.headersObj, "content-type") else req.headersObj
  }

  /** The object `reqOpts.headers` refers to at the end: the header object
      with the cookies merged in as a `cookie` header. */
  function FinalHeaders(req: Request): (h: Obj<string>)
    requires DistinctKeys(req.headersObj)
    ensures DistinctKeys(h)
    ensures |req.cookies| > 0 ==> Get(h, "cookie") == Some(Cookies.Header(req.cookies))
    ensures |req.cookies| == 0 ==> h == HeadersAfterBody(req)
    ensures forall k :: k != "cookie" ==> Get(h, k) == Get(HeadersAfterBody(req), k)
    ensures |h| == 0 <==> |req.cookies| == 0 && |HeadersAfterBody(req)| == 0
  {
    var h := HeadersAfterBody(req);
    if |req.cookies| > 0 then Set(h, "cookie", Cookies.Header(req.cookies)) else h
  }

  /** The `body` property the switch on the MIME type sets, if any; `marker`
      is what the URL-encoded branch stores. */
  function BodyValue(pd: PostData, marker: JsVal): Option<JsVal> {
    if pd.mimeType == UrlEncodedMime then Some(marker)
    else if pd.mimeType == JsonMime then
      if pd.jsonObj.Some? && Json.Truthy(pd.jsonObj.value) then Some(Str(Json.Stringify(pd.jsonObj.value))) else None
    else if pd.mimeType == MultipartMime then None
    else if Truthy(pd.text) then Some(Str(pd.text.value))
    else None
  }

  function Entry(k: string, v: Option<JsVal>): Obj<JsVal> {
    if v.Some? then [(k, v.value)] else []
  }

  /** The record with the headers before the body. */
  function EarlyProps(m: JsVal, headers: JsVal, body: Option<JsVal>): (r: Obj<JsVal>)
    ensures DistinctKeys(r)
    ensures |r| > 0 && r[0] == ("method", m)
    ensures Get(r, "headers") == Some(headers)
    ensures Get(r, "body") == body
    ensures forall i :: 0 <= i < |r| ==> r[i].0 == "method" || r[i].0 == "headers" || r[i].0 == "body"
    ensures body.Some? ==> IndexOf(r, "headers").value < IndexOf(r, "body").value
  {
    var r := [("method", m), ("headers", headers)] + Entry("body", body);
    IndexOfIs(r, "headers", 1);
    assert body.Some? ==> IndexOf(r, "body") == Some(2) by {
      if body.Some? {
        IndexOfIs(r, "body", 2);
      }
    }
    r
  }

  /** The record with the headers, if any, after the body. */
  function LateProps(m: JsVal, body: Option<JsVal>, late: Option<JsVal>): (r: Obj<JsVal>)
    ensures DistinctKeys(r)
    ensures |r| > 0 && r[0] == ("method", m)
    ensures Get(r, "headers") == late
    ensures Get(r, "body") == body
    ensures forall i :: 0 <= i < |r| ==> r[i].0 == "method" || r[i].0 == "headers" || r[i].0 == "body"
    ensures late.Some? && body.Some? ==> IndexOf(r, "body").value < IndexOf(r, "headers").value
  {
    var r := [("method", m)] + Entry("body", body) + Entry("headers", late);
    var hi := 1 + |Entry("body", body)|;
    assert late.Some? ==> IndexOf(r, "headers") == Some(hi) by {
      if late.Some? {
        IndexOfIs(r, "headers", hi);
      }
    }
    assert body.Some? ==> IndexOf(r, "body") == Some(1) by {
      if body.Some? {
        IndexOfIs(r, "body", 1);
      }
    }
    r
  }

  /** An options record of `method`, the headers placed either before
      (`early`) or after (`late`) the body, and the body. */
  function Props(m: JsVal, early: Option<JsVal>, body: Option<JsVal>, late: Option<JsVal>): (r: Obj<JsVal>)
    requires early.None? || late.None?
    ensures DistinctKeys(r)
    ensures |r| > 0 && r[0] == ("method", m)
    ensures Get(r, "headers") == if early.Some? then early else late
    ensures Get(r, "body") == body
    ensures forall i :: 0 <= i < |r| ==> r[i].0 == "method" || r[i].0 == "headers" || r[i].0 == "body"
    ensures early.Some? && body.Some? ==> IndexOf(r, "headers").value < IndexOf(r, "body").value
    ensures late.Some? && body.Some? ==> IndexOf(r, "body").value < IndexOf(r, "headers").value
  {
    if early.Some? then EarlyProps(m, early.value, body) else LateProps(m, body, late)
  }

  /** `reqOpts` as it is printed. */
  function Options(req: Request, marker: JsVal): (r: Obj<JsVal>)
    requires DistinctKeys(req.headersObj)
    ensures DistinctKeys(r)
    ensures |r| > 0 && r[0] == ("method", Str(req.httpMethod))
    ensures HasKey(r, "headers") <==> |req.cookies| > 0 || |HeadersAfterBody(req)| > 0
    ensures HasKey(r, "headers") ==> Get(r, "headers") == Some(FromStrings(FinalHeaders(req)))
    ensures Get(r, "body") == BodyValue(req.postData, marker)
    ensures forall i :: 0 <= i < |r| ==> r[i].0 == "method" || r[i].0 == "headers" || r[i].0 == "body"
    ensures HasKey(r, "headers") && HasKey(r, "body") ==>
              (IndexOf(r, "headers").value < IndexOf(r, "body").value <==> |req.headersObj| > 0)
  {
    Props(Str(req.httpMethod), EarlyHeaders(req), BodyValue(req.postData, marker), LateHeaders(req))
  }

  /** The headers record placed before the body: the request had headers of
      its own and some are sent. */
  function EarlyHeaders(req: Request): Option<JsVal>
    requires DistinctKeys(req.headersObj)
  {
    var h := FinalHeaders(req);
    if |req.headersObj| > 0 && |h| > 0 then Some(FromStrings(h)) else None
  }

  /** The headers record placed after the body: only cookies are sent. */
  function LateHeaders(req: Request): Option<JsVal>
    requires DistinctKeys(req.headersObj)
  {
    var h := FinalHeaders(req);
    if |req.headersObj| == 0 && |req.cookies| > 0 then Some(FromStrings(h)) else None
  }

  /** What the generated `options.body` is, by MIME type. */
  lemma BodyOfRequest(req: Request, marker: JsVal)
    requires DistinctKeys(req.headersObj)
    ensures var pd, r := req.postData, Options(req, marker);
            && (pd.mimeType == UrlEncodedMime ==> Get(r, "body") == Some(marker))
            && (pd.mimeType == JsonMime ==>
                  (HasKey(r, "body") <==> pd.jsonObj.Some? && Json.Truthy(pd.jsonObj.value))
                  && (HasKey(r, "body") ==> Get(r, "body") == Some(Str(Json.Stringify(pd.jsonObj.value)))))
            && (pd.mimeType == MultipartMime ==> !HasKey(r, "body"))
            && (pd.mimeType != UrlEncodedMime && pd.mimeType != JsonMime && pd.mimeType != MultipartMime ==>
                  (HasKey(r, "body") <==> Truthy(pd.text))
                  && (HasKey(r, "body") ==> Get(r, "body") == Some(Str(pd.text.value))))
  {
  }

  /** The headers the snippet sends: every cookie in one `cookie` header,
      every other header of the request unchanged except a multipart body's
      content type, which is left for `form-data` to set. */
  lemma SentHeaders(req: Request, marker: JsVal, k: string)
    requires DistinctKeys(req.headersObj)
    requires HasKey(Options(req, marker), "headers")
    ensures var h := FinalHeaders(req);
            && Get(Options(req, marker), "headers") == Some(FromStrings(h))
            && (|req.cookies| > 0 ==> Get(h, "cookie") == Some(Cookies.Header(req.cookies)))
            && (k != "cookie" && !Headers.SameName(k, "content-type") ==> Get(h, k) == Get(req.headersObj, k))
            && (k != "cookie" && !IsMultipartWithParams(req.postData) ==> Get(h, k) == Get(req.headersObj, k))
  {
  }

  /** Only the URL-encoded branch stores the marker: the other branches
      build the same record whatever it is. */
  lemma MarkerOnlyInUrlEncoded(req: Request, m1: JsVal, m2: JsVal)
    requires DistinctKeys(req.headersObj)
    requires req.postData.mimeType != UrlEncodedMime
    ensures Options(req, m1) == Options(req, m2)
    ensures Lines(req, m1) == Lines(req, m2)
  {
    assert BodyValue(req.postData, m1) == BodyValue(req.postData, m2);
  }

  /** A record with a body: the method, any early headers, the body, and
      any late headers, in that order. */
  lemma PropsAround(m: JsVal, early: Option<JsVal>, body: JsVal, late: Option<JsVal>)
    requires early.None? || late.None?
    ensures Props(m, early, Some(body), late) ==
              ([("method", m)] + Entry("headers", early)) + [("body", body)] + Entry("headers", late)
  {
  }

  /** In a URL-encoded request's record the body sits after the method and
      any early headers; everything but its value is the same whatever the
      marker. */
  lemma BodySlot(req: Request, m1: JsVal, m2: JsVal) returns (a: Obj<JsVal>, b: Obj<JsVal>)
    requires DistinctKeys(req.headersObj)
    requires req.postData.mimeType == UrlEncodedMime
    ensures |a| > 0
    ensures Options(req, m1) == a + [("body", m1)] + b
    ensures Options(req, m2) == a + [("body", m2)] + b
  {
    var early, late := EarlyHeaders(req), LateHeaders(req);
    var m := Str(req.httpMethod);
    assert Options(req, m1) == Props(m, early, Some(m1), late);
    assert Options(req, m2) == Props(m, early, Some(m2), late);
    PropsAround(m, early, m1, late);
    PropsAround(m, early, m2, late);
    a, b := [("method", m)] + Entry("headers", early), Entry("headers", late);
  }

  /** The options statement up to the body's value. */
  function OptionsHead(a: Obj<JsVal>): string {
    "const options = " + ("{" + Text.Join(EntryTexts(a, false), ", ") + ", ") + ("body" + ": ")
  }

  /** The options statement after the body's value. */
  function OptionsTail(b: Obj<JsVal>): string {
    (if |b| == 0 then "" else ", " + Text.Join(EntryTexts(b, false), ", ")) + "}" + ";"
  }

  lemma OptionsHeadEnds(a: Obj<JsVal>)
    ensures |OptionsHead(a)| > 0 && OptionsHead(a)[|OptionsHead(a)| - 1] == ' '
  {
    var front := "const options = " + ("{" + Text.Join(EntryTexts(a, false), ", ") + ", ");
    assert OptionsHead(a) == front + ("body" + ": ");
  }

  lemma BodyEntryText(v: JsVal)
    ensures EntryText("body", v, false) == "body" + ": " + Lit(v, false)
  {
    BodyKey();
  }

  /** The options statement around the body's value. */
  lemma OptionsLineAround(a: Obj<JsVal>, v: JsVal, b: Obj<JsVal>)
    requires |a| > 0
    ensures OptionsLine(a + [("body", v)] + b).text == OptionsHead(a) + Lit(v, false) + OptionsTail(b)
  {
    var tail := if |b| == 0 then "" else ", " + Text.Join(EntryTexts(b, false), ", ");
    RecordAround(a, "body", v, b, false);
    BodyEntryText(v);
    Text.RegroupEntry("const options = ", "{" + Text.Join(EntryTexts(a, false), ", ") + ", ", "body" + ": ",
                      Lit(v, false), tail, "}", ";");
  }

  /** The lines before the options statement. */
  function BeforeOptions(req: Request): seq<Line> {
    FrameBefore(Requires(req.postData), BodyLines(req.postData), req.fullUrl)
  }

  /** The lines after the options statement. */
  function AfterOptions(req: Request): seq<Line> {
    FrameAfter(IsMultipartWithParams(req.postData))
  }

  /** The rendered snippet around the body's value. */
  lemma RenderAroundBody(req: Request, m: JsVal, unit: string, a: Obj<JsVal>, b: Obj<JsVal>)
    requires DistinctKeys(req.headersObj)
    requires |a| > 0 && Options(req, m) == a + [("body", m)] + b
    ensures Render(Lines(req, m), unit) ==
              (Render(BeforeOptions(req), unit) + "\n" + OptionsHead(a)) + Lit(m, false)
                + (OptionsTail(b) + "\n" + Render(AfterOptions(req), unit))
  {
    var pre, line, post := BeforeOptions(req), OptionsLine(Options(req, m)), AfterOptions(req);
    var lines := pre + [line] + post;
    assert Lines(req, m) == lines;
    Middle(pre, [line], post);
    RenderAround(lines, |pre|, unit);
    OptionsLineAround(a, m, b);
    Text.RegroupLine(Render(pre, unit) + "\n", OptionsHead(a), Lit(m, false), OptionsTail(b), "\n", Render(post, unit));
  }

  lemma MarkerHasNoSpace()
    ensures forall k :: 0 <= k < |Marker| ==> Marker[k] != ' '
  {
  }

  /** Unquoting the first `'name'` of the snippet that stores the quoted
      name gives the snippet that refers to the variable `name`, when that
      snippet nowhere holds `'name'`. */
  lemma UnquoteName(req: Request, unit: string, name: string)
    requires DistinctKeys(req.headersObj)
    requires req.postData.mimeType == UrlEncodedMime
    requires forall k :: 0 <= k < |name| ==> Plain(name[k]) && name[k] != ' '
    requires !Text.Contains(Render(Lines(req, Code(name)), unit), "'" + name + "'")
    ensures Text.ReplaceFirst(Render(Lines(req, Str(name)), unit), "'" + name + "'", name) == Render(Lines(req, Code(name)), unit)
  {
    var q := "'" + name + "'";
    EscapePlain(name);
    assert Lit(Str(name), false) == q;
    forall k | 0 <= k < |q|
      ensures q[k] != ' '
    {
      if 0 < k < |q| - 1 {
        assert q[k] == name[k - 1];
      }
    }
    ReplaceBodyValue(req, unit, Str(name), Code(name), q, name);
  }

  /** A URL-encoded snippet as written is the corrected one whenever the
      corrected one nowhere holds the quoted name `'encodedParams'`: the
      unquoting then finds the body's literal first. */
  lemma AsWrittenAgreesUrlEncoded(req: Request, unit: string)
    requires DistinctKeys(req.headersObj)
    requires req.postData.mimeType == UrlEncodedMime
    requires !Text.Contains(Render(Convert(req), unit), "'" + Marker + "'")
    ensures AsWritten(req, unit) == Render(Convert(req), unit)
    ensures AsWrittenOutput(req, unit) == CorrectedOutput(req, unit)
  {
    MarkerPlain();
    MarkerHasNoSpace();
    UnquoteName(req, unit, Marker);
  }

  /** Replacing the first occurrence of one printed body value `p` by
      another `r` turns the snippet with the first into the snippet with the
      second, when the second nowhere holds `p` and `p` has no space. */
  lemma ReplaceBodyValue(req: Request, unit: string, m1: JsVal, m2: JsVal, p: string, r: string)
    requires DistinctKeys(req.headersObj)
    requires req.postData.mimeType == UrlEncodedMime
    requires Lit(m1, false) == p && Lit(m2, false) == r
    requires forall k :: 0 <= k < |p| ==> p[k] != ' '
    requires !Text.Contains(Render(Lines(req, m2), unit), p)
    ensures Text.ReplaceFirst(Render(Lines(req, m1), unit), p, r) == Render(Lines(req, m2), unit)
  {
    var x, y := SplitAtBody(req, unit, m1, m2);
    Text.ReplaceBetween(x, p, y, r);
  }

  /** A URL-encoded snippet rendered around the body's value, the same on
      both sides whatever the value. */
  lemma SplitAtBody(req: Request, unit: string, m1: JsVal, m2: JsVal) returns (x: string, y: string)
    requires DistinctKeys(req.headersObj)
    requires req.postData.mimeType == UrlEncodedMime
    ensures Render(Lines(req, m1), unit) == x + Lit(m1, false) + y
    ensures Render(Lines(req, m2), unit) == x + Lit(m2, false) + y
    ensures |x| > 0 && x[|x| - 1] == ' '
  {
    var a, b := BodySlot(req, m1, m2);
    x := Render(BeforeOptions(req), unit) + "\n" + OptionsHead(a);
    y := OptionsTail(b) + "\n" + Render(AfterOptions(req), unit);
    RenderAroundBody(req, m1, unit, a, b);
    RenderAroundBody(req, m2, unit, a, b);
    OptionsHeadEnds(a);
    Text.LastOfConcat(Render(BeforeOptions(req), unit) + "\n", OptionsHead(a));
  }

  /** Outside the URL-encoded branch the as-written snippet is the corrected
      one exactly when the corrected one nowhere holds `'encodedParams'`. */
  lemma AsWrittenAgreesElsewhere(req: Request, unit: string)
    requires DistinctKeys(req.headersObj)
    requires req.postData.mimeType != UrlEncodedMime
    ensures AsWritten(req, unit) == Render(Convert(req), unit) <==>
              !Text.Contains(Render(Convert(req), unit), "'" + Marker + "'")
    ensures AsWrittenOutput(req, unit) == CorrectedOutput(req, unit) <==>
              !Text.Contains(Render(Convert(req), unit), "'" + Marker + "'")
  {
    var text, q := Render(Convert(req), unit), "'" + Marker + "'";
    MarkerOnlyInUrlEncoded(req, Str(Marker), Code(Marker));
    Text.ReplaceFirstUnchanged(text, q, Marker);
    if Text.Contains(text, q) {
      Text.ReplaceFirstLength(text, q, Marker);
    }
  }

  /** A header sent with the value `encodedParams` is printed as the quoted
      name in the options line. */
  lemma HeaderHoldsQuotedMarker(req: Request, k: string)
    requires DistinctKeys(req.headersObj)
    requires Get(FinalHeaders(req), k) == Some(Marker)
    ensures Text.Contains(OptionsLine(Options(req, Code(Marker))).text, "'" + Marker + "'")
  {
    var h := FinalHeaders(req);
    var r := Options(req, Code(Marker));
    var hv := FromStrings(h);
    assert HasKey(r, "headers");
    var ih :| 0 <= ih < |r| && r[ih] == ("headers", hv);
    var jk :| 0 <= jk < |h| && h[jk] == (k, Marker);
    HeaderRecordHoldsQuotedMarker(h, jk);
    RecordHoldsEntry(r, ih);
    EntryHoldsValue("headers", hv, false);
    Text.ContainsWithin(EntryText("headers", hv, false), Lit(hv, false), "'" + Marker + "'");
    Text.ContainsWithin(OptionsLine(r).text, EntryText("headers", hv, false), "'" + Marker + "'");
  }

  /** A header record printing a header of value `encodedParams` holds the
      quoted name. */
  lemma HeaderRecordHoldsQuotedMarker(h: Obj<string>, jk: nat)
    requires jk < |h| && h[jk].1 == Marker
    ensures Text.Contains(Lit(FromStrings(h), false), "'" + Marker + "'")
  {
    var fs := FromStrings(h).fields;
    assert fs[jk] == (h[jk].0, Str(Marker));
    LitHoldsEntry(fs, false, jk);
    EntryHoldsValue(h[jk].0, Str(Marker), false);
    QuotedMarker();
    Text.ContainsWithin(Lit(FromStrings(h), false), EntryText(h[jk].0, Str(Marker), false), "'" + Marker + "'");
  }

  /** Outside the URL-encoded branch, a request header whose value is
      `encodedParams` is unquoted in the as-written snippet: it then prints
      the variable's name where the header's string belongs. */
  lemma HeaderValueUnquoted(req: Request, k: string, unit: string)
    requires DistinctKeys(req.headersObj)
    requires req.postData.mimeType != UrlEncodedMime
    requires k != "cookie" && !Headers.SameName(k, "content-type")
    requires Get(req.headersObj, k) == Some(Marker)
    ensures AsWritten(req, unit) != Render(Convert(req), unit)
    ensures AsWrittenOutput(req, unit) != CorrectedOutput(req, unit)
  {
    assert Get(FinalHeaders(req), k) == Some(Marker);
    SnippetHoldsQuotedMarker(req, unit);
    AsWrittenAgreesElsewhere(req, unit);
  }

  /** The corrected snippet holds the quoted name when a header sent has
      the value `encodedParams`. */
  lemma SnippetHoldsQuotedMarker(req: Request, unit: string)
    requires DistinctKeys(req.headersObj)
    requires exists k :: Get(FinalHeaders(req), k) == Some(Marker)
    ensures Text.Contains(Render(Convert(req), unit), "'" + Marker + "'")
  {
    var k :| Get(FinalHeaders(req), k) == Some(Marker);
    var lines := Convert(req);
    var n := |Requires(req.postData)| + 1 + |BodyLines(req.postData)|;
    HeaderHoldsQuotedMarker(req, k);
    RenderContainsLine(lines, n + 2, unit);
    Text.ContainsWithin(Render(lines, unit), lines[n + 2].text, "'" + Marker + "'");
  }

  /** The name of the `URLSearchParams` variable. */
  const Marker := "encodedParams"

  const FetchRequire := Line(0, "const fetch = require('node-fetch');")
  const FsRequire := Line(0, "const fs = require('fs');")
  const FormDataRequire := Line(0, "const FormData = require('form-data');")
  const UrlSearchParamsRequire := Line(0, "const { URLSearchParams } = require('url');")

  /** `encodedParams.set(name, value)` for one urlencoded parameter. */
  function SetLine(p: Param): Line {
    Line(0, "encodedParams.set(" + "'" + p.name + "'" + ", '" + Template(p.value) + "');")
  }

  /** A multipart parameter produces a line when it is a file, or when it
      has neither a file name nor a content type. */
  predicate Emits(p: Param) {
    Truthy(p.fileName) || !Truthy(p.contentType)
  }

  function AppendLine(p: Param): Line {
    if Truthy(p.fileName) then
      Line(0, "formData.append('" + p.name + "', fs.createReadStream('" + p.fileName.value + "'));")
    else
      Line(0, "formData.append('" + p.name + "', '" + Template(p.value) + "');")
  }

  /** How many parameters of `ps` produce a line. */
  function EmitCount(ps: seq<Param>): nat
    decreases |ps|
  {
    if |ps| == 0 then 0 else (if Emits(ps[0]) then 1 else 0) + EmitCount(ps[1..])
  }

  /** The `formData.append` lines, one per emitting parameter, in order. */
  function AppendLines(ps: seq<Param>): (r: seq<Line>)
    ensures |r| == EmitCount(ps) <= |ps|
    ensures forall p :: p in ps && Emits(p) ==> AppendLine(p) in r
    ensures forall l :: l in r ==> exists p :: p in ps && Emits(p) && l == AppendLine(p)
    decreases |ps|
  {
    if |ps| == 0 then []
    else
      var rest := AppendLines(ps[1..]);
      assert forall p :: p in ps ==> p == ps[0] || p in ps[1..];
      assert forall p :: p in ps[1..] ==> p in ps;
      (if Emits(ps[0]) then [AppendLine(ps[0])] else []) + rest
  }

  /** The lines of a concatenation are the lines of its parts. */
  lemma {:induction false} AppendLinesConcat(a: seq<Param>, b: seq<Param>)
    ensures AppendLines(a + b) == AppendLines(a) + AppendLines(b)
    decreases |a|
  {
    if |a| > 0 {
      var head := if Emits(a[0]) then [AppendLine(a[0])] else [];
      assert (a + b)[0] == a[0];
      assert (a + b)[1..] == a[1..] + b;
      AppendLinesConcat(a[1..], b);
      assert AppendLines(a + b) == head + AppendLines(a[1..] + b);
      assert AppendLines(a) == head + AppendLines(a[1..]);
    } else {
      assert a + b == b;
    }
  }

  /** The line of an emitting parameter comes right after the lines of the
      parameters before it: one line each, in list order. */
  lemma AppendLineAt(ps: seq<Param>, i: nat)
    requires i < |ps| && Emits(ps[i])
    ensures EmitCount(ps[..i]) < |AppendLines(ps)|
    ensures AppendLines(ps)[EmitCount(ps[..i])] == AppendLine(ps[i])
  {
    assert ps == ps[..i] + [ps[i]] + ps[i + 1..];
    AppendLinesConcat(ps[..i] + [ps[i]], ps[i + 1..]);
    AppendLinesConcat(ps[..i], [ps[i]]);
    assert AppendLines([ps[i]]) == [AppendLine(ps[i])];
  }

  /** A parameter with a content type but no file name is dropped, wherever
      it stands in the list. */
  lemma ContentTypeOnlyDropped(a: seq<Param>, p: Param, b: seq<Param>)
    requires !Truthy(p.fileName) && Truthy(p.contentType)
    ensures AppendLines(a + [p] + b) == AppendLines(a) + AppendLines(b)
  {
    AppendLinesConcat(a + [p], b);
    AppendLinesConcat(a, [p]);
    assert AppendLines([p]) == [];
  }

  /** `includeFS`: some parameter of a multipart body is a file. */
  predicate IncludeFs(pd: PostData) {
    IsMultipartWithParams(pd) && exists i :: 0 <= i < |pd.params.value| && Truthy(pd.params.value[i].fileName)
  }

  lemma StreamedIfFile(ps: seq<Param>, i: nat)
    requires i < |ps| && Truthy(ps[i].fileName)
    ensures ps[i] in ps && AppendLine(ps[i]) in AppendLines(ps)
  {
    assert Emits(ps[i]);
  }

  /** `fs` is required exactly when a `formData.append` line streams a file. */
  lemma FsRequiredIffStreamed(pd: PostData)
    requires IsMultipartWithParams(pd)
    ensures IncludeFs(pd) <==>
              exists p :: p in pd.params.value && Truthy(p.fileName) && AppendLine(p) in AppendLines(pd.params.value)
  {
    var ps := pd.params.value;
    if IncludeFs(pd) {
      var i :| 0 <= i < |ps| && Truthy(ps[i].fileName);
      StreamedIfFile(ps, i);
    }
    forall p | p in ps && Truthy(p.fileName)
      ensures IncludeFs(pd)
    {
      var i :| 0 <= i < |ps| && ps[i] == p;
      assert Truthy(ps[i].fileName);
    }
  }

  /** The statements that build the body, before the options record. */
  function BodyLines(pd: PostData): seq<Line> {
    if pd.mimeType == UrlEncodedMime then
      var ps := if pd.params.Some? then pd.params.value else [];
      [Line(0, "const encodedParams = new URLSearchParams();"), Blank]
        + seq(|ps|, i requires 0 <= i < |ps| => SetLine(ps[i]))
    else if IsMultipartWithParams(pd) then
      [Line(0, "const formData = new FormData();"), Blank] + AppendLines(pd.params.value)
    else []
  }

  /** The `require` lines `unshift` places before everything else. */
  function Requires(pd: PostData): (r: seq<Line>)
    ensures (FsRequire in r) <==> IncludeFs(pd)
    ensures (FormDataRequire in r) <==> IsMultipartWithParams(pd)
    ensures (UrlSearchParamsRequire in r) <==> pd.mimeType == UrlEncodedMime
    ensures |r| > 0 && IncludeFs(pd) ==> r[0] == FsRequire
    ensures |r| == (if IncludeFs(pd) then 1 else 0)
                   + (if pd.mimeType == UrlEncodedMime || IsMultipartWithParams(pd) then 1 else 0)
    ensures forall l :: l in r ==> l == FsRequire || l == FormDataRequire || l == UrlSearchParamsRequire
  {
    (if IncludeFs(pd) then [FsRequire] else [])
      + (if pd.mimeType == UrlEncodedMime then [UrlSearchParamsRequire]
         else if IsMultipartWithParams(pd) then [FormDataRequire]
         else [])
  }

  const FetchChain := [Line(0, "fetch(url, options)"),
                       Line(1, ".then(res => res.json())"),
                       Line(1, ".then(json => console.log(json))"),
                       Line(1, ".catch(err => console.error('error:' + err));")]

  function OptionsLine(opts: Obj<JsVal>): Line {
    Line(0, "const options = " + Lit(Record(opts), false) + ";")
  }

  /** The snippet around its `require` lines, body statements and options. */
  function Frame(pre: seq<Line>, body: seq<Line>, url: string, options: Line, formBody: bool): (lines: seq<Line>)
    ensures var n := |pre| + 1 + |body|;
            && |lines| == n + 4 + (if formBody then 2 else 0) + 4
            && lines[..|pre|] == pre
            && lines[|pre|] == FetchRequire
            && lines[|pre| + 1..n] == body
            && lines[n] == Blank
            && lines[n + 1] == Line(0, "const url = '" + url + "';")
            && lines[n + 2] == options
            && lines[n + 3] == Blank
            && (formBody ==> lines[n + 4] == Line(0, "options.body = formData;") && lines[n + 5] == Blank)
            && lines[|lines| - 4..] == FetchChain
  {
    FrameBefore(pre, body, url) + [options] + FrameAfter(formBody)
  }

  /** The lines before the options statement. */
  function FrameBefore(pre: seq<Line>, body: seq<Line>, url: string): seq<Line> {
    pre + [FetchRequire] + body + [Blank, Line(0, "const url = '" + url + "';")]
  }

  /** The lines after the options statement. */
  function FrameAfter(formBody: bool): seq<Line> {
    [Blank] + (if formBody then [Line(0, "options.body = formData;"), Blank] else []) + FetchChain
  }

  /** The snippet's lines, with `marker` as the URL-encoded body. */
  function Lines(req: Request, marker: JsVal): (lines: seq<Line>)
    requires DistinctKeys(req.headersObj)
    ensures var pre, n := Requires(req.postData), |Requires(req.postData)| + 1 + |BodyLines(req.postData)|;
            && |lines| == n + 4 + (if IsMultipartWithParams(req.postData) then 2 else 0) + 4
            && lines[..|pre|] == pre
            && lines[|pre|] == FetchRequire
            && lines[|pre| + 1..n] == BodyLines(req.postData)
            && lines[n + 1] == Line(0, "const url = '" + req.fullUrl + "';")
            && lines[n + 2] == OptionsLine(Options(req, marker))
            && (IsMultipartWithParams(req.postData) ==> lines[n + 4] == Line(0, "options.body = formData;"))
            && lines[|lines| - 4..] == FetchChain
  {
    Frame(Requires(req.postData), BodyLines(req.postData), req.fullUrl, OptionsLine(Options(req, marker)),
          IsMultipartWithParams(req.postData))
  }

  /** `fetch.convert` with the body variable referred to by name. */
  function Convert(req: Request): (lines: seq<Line>)
    requires DistinctKeys(req.headersObj)
    ensures var pre, n := Requires(req.postData), |Requires(req.postData)| + 1 + |BodyLines(req.postData)|;
            && |lines| == n + 4 + (if IsMultipartWithParams(req.postData) then 2 else 0) + 4
            && lines[..|pre|] == pre
            && lines[|pre|] == FetchRequire
            && lines[|pre| + 1..n] == BodyLines(req.postData)
            && lines[n + 1] == Line(0, "const url = '" + req.fullUrl + "';")
            && lines[n + 2] == OptionsLine(Options(req, Code(Marker)))
            && (IsMultipartWithParams(req.postData) ==> lines[n + 4] == Line(0, "options.body = formData;"))
            && lines[|lines| - 4..] == FetchChain
  {
    Lines(req, Code(Marker))
  }

  /** `fetch.convert` as written, up to its first `replace`: the URL-encoded
      body is stored as the string `'encodedParams'` and the first
      occurrence of that literal in the whole snippet is then unquoted.
      `AsWrittenOutput` applies the second `replace` as well. */
  function AsWritten(req: Request, unit: string): string
    requires DistinctKeys(req.headersObj)
  {
    Text.ReplaceFirst(Render(Lines(req, Str(Marker)), unit), "'" + Marker + "'", Marker)
  }

  /** The second `replace` of the joined snippet: the leftmost text
      `"fs.createReadStream(\"…\")"`, its `…` running as far along the line
      as it can, is turned into the call `fs.createReadStream("…")`. */
  function UnquoteStream(s: string): (r: string)
    ensures !Text.Contains(s, StreamOpen) ==> r == s
    ensures (forall i, j :: !Text.GroupMatch(s, StreamOpen, StreamClose, i, j)) ==> r == s
    ensures (exists i, j :: Text.GroupMatch(s, StreamOpen, StreamClose, i, j)) ==> |r| == |s| - 4
    ensures |r| == |s| || |r| == |s| - 4
  {
    Text.ReplaceGroup(s, StreamOpen, StreamClose, CallOpen, CallClose)
  }

  const StreamOpen := "\"fs.createReadStream(\\\""
  const StreamClose := "\\\")\""
  const CallOpen := "fs.createReadStream(\""
  const CallClose := "\")"

  /** A stream string with a one-line file name becomes the call. */
  lemma StreamCallUnquoted(name: string)
    requires |name| > 0 && forall k :: 0 <= k < |name| ==> !Text.IsLineTerminator(name[k])
    ensures UnquoteStream(StreamOpen + name + StreamClose) == CallOpen + name + CallClose
  {
    Text.ReplaceGroupWhole(StreamOpen, name, StreamClose, CallOpen, CallClose);
  }

  /** The text `fetch.convert` returns as written: the joined snippet after
      both replaces. */
  function AsWrittenOutput(req: Request, unit: string): string
    requires DistinctKeys(req.headersObj)
  {
    UnquoteStream(AsWritten(req, unit))
  }

  /** The text the corrected `fetch.convert` returns: the snippet that
      refers to the body variable by name, after the second replace. */
  function CorrectedOutput(req: Request, unit: string): string
    requires DistinctKeys(req.headersObj)
  {
    UnquoteStream(Render(Convert(req), unit))
  }

  /** The printed body entry of the corrected options. */
  lemma VariableEntry()
    ensures EntryText("body", Code(Marker), false) == "body" + ": " + Marker
  {
    assert IsIdentifier("body");
  }

  /** An entry of a record occurs in its printed form. */
  lemma RecordHoldsEntry(r: Obj<JsVal>, i: nat)
    requires i < |r|
    ensures Text.Contains(OptionsLine(r).text, EntryText(r[i].0, r[i].1, false))
  {
    var lit := Lit(Record(r), false);
    LitHoldsEntry(r, false, i);
    Text.ContainsInfix("const options = ", lit, ";");
    Text.ContainsWithin(OptionsLine(r).text, lit, EntryText(r[i].0, r[i].1, false));
  }

  /** The corrected snippet passes the `URLSearchParams` variable itself as
      the body of every URL-encoded request. */
  lemma UrlEncodedBodyIsVariable(req: Request)
    requires DistinctKeys(req.headersObj)
    requires req.postData.mimeType == UrlEncodedMime
    ensures Text.Contains(OptionsLine(Options(req, Code(Marker))).text, "body" + ": " + Marker)
  {
    var r := Options(req, Code(Marker));
    var i := IndexOf(r, "body").value;
    assert r[i] == ("body", Code(Marker));
    RecordHoldsEntry(r, i);
    VariableEntry();
  }

  /** A URL-encoded request whose only parameter is called `encodedParams`. */
  const EncodedParamsExample := Request(
    "POST", "http://mockbin.com/har", "http://mockbin.com/har", "HTTP/1.1", None, [], [], [], [],
    PostData(UrlEncodedMime, None, Some([ExampleParam]), None, None))

  lemma ExampleSetLine()
    ensures Text.Contains(SetLine(ExampleParam).text, "'" + Marker + "'")
  {
    var t := SetLine(ExampleParam).text;
    assert t == "encodedParams.set(" + ("'" + Marker + "'") + (", '" + "1" + "');");
    Text.ContainsInfix("encodedParams.set(", "'" + Marker + "'", ", '" + "1" + "');");
  }

  lemma MarkerPlain()
    ensures forall i :: 0 <= i < |Marker| ==> Plain(Marker[i])
  {
  }

  lemma QuotedMarker()
    ensures Quote(Marker) == "'" + Marker + "'"
  {
    MarkerPlain();
    EscapePlain(Marker);
  }

  lemma BodyKey()
    ensures Key("body") == "body"
  {
    assert IsIdentifier("body");
  }

  lemma QuotedMarkerEntry()
    ensures EntryText("body", Str(Marker), false) == "body" + ": " + ("'" + Marker + "'")
  {
    QuotedMarker();
    BodyKey();
    assert EntryText("body", Str(Marker), false) == Key("body") + ": " + Quote(Marker);
  }

  /** When a line before line `j` already holds the pattern, replacing its
      first occurrence in the rendered snippet leaves line `j`'s text whole. */
  lemma ReplaceSparesLater(lines: seq<Line>, i: nat, j: nat, unit: string, pat: string, rep: string, target: string)
    requires i < j < |lines|
    requires lines[i].indent == 0 && lines[j].indent == 0
    requires Text.Contains(lines[i].text, pat)
    requires Text.Contains(lines[j].text, target)
    ensures Text.Contains(Text.ReplaceFirst(Render(lines, unit), pat, rep), target)
  {
    RenderSplit(lines, i, j, unit);
    var a, b := Render(lines[..i + 1], unit), "\n" + Render(lines[i + 1..], unit);
    Text.ContainsWithin(a, lines[i].text, pat);
    Text.ContainsWithin(b, lines[j].text, target);
    Text.ReplaceSparesSuffix(a, b, pat, rep, target);
  }

  const ExampleParam := Param(Marker, Some("1"), None, None)

  lemma ExampleRequires()
    ensures Requires(EncodedParamsExample.postData) == [UrlSearchParamsRequire]
  {
    assert !IncludeFs(EncodedParamsExample.postData);
  }

  lemma ExampleBody()
    ensures var body := BodyLines(EncodedParamsExample.postData);
            |body| == 3 && body[2] == SetLine(ExampleParam)
  {
  }

  lemma ExampleLines()
    ensures var lines := Lines(EncodedParamsExample, Str(Marker));
            && |lines| > 7
            && lines[4] == SetLine(ExampleParam)
            && lines[7] == OptionsLine(Options(EncodedParamsExample, Str(Marker)))
  {
    ExampleRequires();
    ExampleBody();
    var lines := Lines(EncodedParamsExample, Str(Marker));
    assert lines[4] == lines[2..5][2];
  }

  lemma ExampleOptions()
    ensures Text.Contains(OptionsLine(Options(EncodedParamsExample, Str(Marker))).text, "body" + ": " + ("'" + Marker + "'"))
  {
    var r := Options(EncodedParamsExample, Str(Marker));
    var i := IndexOf(r, "body").value;
    assert r[i] == ("body", Str(Marker));
    RecordHoldsEntry(r, i);
    QuotedMarkerEntry();
  }

  /** The as-written snippet for `EncodedParamsExample` sends the string
      `'encodedParams'` as the body: the unquoting replaced the parameter
      name in the `set` call instead, which comes first. */
  lemma AsWrittenSendsLiteral(unit: string)
    ensures Text.Contains(AsWritten(EncodedParamsExample, unit), "body" + ": " + ("'" + Marker + "'"))
  {
    ExampleLines();
    ExampleSetLine();
    ExampleOptions();
    ReplaceSparesLater(Lines(EncodedParamsExample, Str(Marker)), 4, 7, unit, "'" + Marker + "'", Marker,
                       "body" + ": " + ("'" + Marker + "'"));
  }
}

=== FILE: ordered_object.dfy ===
/** A JavaScript object with string keys, as the converters use it: an
    ordered list of entries, kept in insertion order (the order that
    `Object.keys` and `for…in` report). Assigning to a key that is already
    present replaces its value in place; assigning a new key appends it;
    `delete` removes the entry. */
module OrderedObject {
  import opened Wrappers

  type Obj<V> = seq<(string, V)>

  /** `Object.keys(o)`. */
  function Keys<V>(o: Obj<V>): (ks: seq<string>)
    ensures |ks| == |o|
    ensures forall i :: 0 <= i < |o| ==> ks[i] == o[i].0
  {
    seq(|o|, i requires 0 <= i < |o| => o[i].0)
  }

  predicate HasKey<V>(o: Obj<V>, k: string) {
    exists i | 0 <= i < |o| :: o[i].0 == k
  }

  /** The invariant of every JavaScript object: no key twice. */
  predicate DistinctKeys<V>(o: Obj<V>) {
    forall i, j :: 0 <= i < j < |o| ==> o[i].0 != o[j].0
  }

  /** The position of the first entry at or after `from` whose key is `k`. */
  function IndexFrom<V>(o: Obj<V>, k: string, from: nat): (r: Option<nat>)
    decreases |o| - from
    ensures r.Some? ==> from <= r.value < |o| && o[r.value].0 == k
    ensures r.Some? ==> forall j :: from <= j < r.value ==> o[j].0 != k
    ensures r.None? ==> forall j :: from <= j < |o| ==> o[j].0 != k
  {
    if from >= |o| then None
    else if o[from].0 == k then Some(from)
    else IndexFrom(o, k, from + 1)
  }

  /** The position of the entry for `k`, if there is one. */
  function IndexOf<V>(o: Obj<V>, k: string): (r: Option<nat>)
    ensures r.Some? <==> HasKey(o, k)
    ensures r.Some? ==> r.value < |o| && o[r.value].0 == k
    ensures r.Some? ==> forall j :: 0 <= j < r.value ==> o[j].0 != k
  {
    IndexFrom(o, k, 0)
  }

  /** The first entry with key `k` is the one at `i`. */
  lemma IndexOfIs<V>(o: Obj<V>, k: string, i: nat)
    requires i < |o| && o[i].0 == k
    requires forall j :: 0 <= j < i ==> o[j].0 != k
    ensures IndexOf(o, k) == Some(i)
  {
  }

  /** Two objects with the same keys at the same positions find every key
      at the same position. */
  lemma SameKeyPositions<V>(a: Obj<V>, b: Obj<V>, k: string)
    requires |a| == |b|
    requires forall j :: 0 <= j < |a| ==> a[j].0 == b[j].0
    ensures IndexOf(a, k) == IndexOf(b, k)
  {
    if IndexOf(a, k).Some? {
      IndexOfIs(b, k, IndexOf(a, k).value);
    } else if IndexOf(b, k).Some? {
      IndexOfIs(a, k, IndexOf(b, k).value);
    }
  }

  /** Appending an entry with another key does not move any key. */
  lemma AppendKeepsPositions<V>(o: Obj<V>, e: (string, V), k: string)
    requires e.0 != k
    ensures IndexOf(o + [e], k) == IndexOf(o, k)
  {
    if IndexOf(o, k).Some? {
      IndexOfIs(o + [e], k, IndexOf(o, k).value);
    } else {
      assert !HasKey(o + [e], k);
    }
  }

  /** `o[k]`, with None for a missing key. */
  function Get<V>(o: Obj<V>, k: string): (r: Option<V>)
    ensures r.Some? <==> HasKey(o, k)
    ensures r.Some? ==> (k, r.value) in o
  {
    match IndexOf(o, k)
    case None => None
    case Some(i) => Some(o[i].1)
  }

  /** In an object, each entry is what its key looks up. */
  lemma GetEntry<V>(o: Obj<V>, i: nat)
    requires DistinctKeys(o)
    requires i < |o|
    ensures Get(o, o[i].0) == Some(o[i].1)
  {
    IndexOfIs(o, o[i].0, i);
  }

  /** The assignment `o[k] = v` to a key that is already present or is
      not an array index (see `Assign` for the general case). */
  function Set<V>(o: Obj<V>, k: string, v: V): (r: Obj<V>)
    ensures Get(r, k) == Some(v)
    ensures forall k' :: k' != k ==> Get(r, k') == Get(o, k')
    ensures forall k' :: HasKey(r, k') <==> k' == k || HasKey(o, k')
    ensures HasKey(o, k) ==> Keys(r) == Keys(o)
    ensures !HasKey(o, k) ==> r == o + [(k, v)]
    ensures DistinctKeys(o) ==> DistinctKeys(r)
  {
    match IndexOf(o, k)
    case None =>
      var r := o + [(k, v)];
      IndexOfIs(r, k, |o|);
      assert forall k' :: HasKey(r, k') <==> k' == k || HasKey(o, k') by {
        forall k' ensures HasKey(r, k') <==> k' == k || HasKey(o, k') {
          if HasKey(o, k') {
            var j :| 0 <= j < |o| && o[j].0 == k';
            assert r[j].0 == k';
          }
          if HasKey(r, k') && k' != k {
            var j :| 0 <= j < |r| && r[j].0 == k';
            assert o[j].0 == k';
          }
        }
      }
      assert forall k' :: k' != k ==> Get(r, k') == Get(o, k') by {
        forall k' | k' != k ensures Get(r, k') == Get(o, k') {
          AppendKeepsPositions(o, (k, v), k');
        }
      }
      r
    case Some(i) =>
      var r := o[i := (k, v)];
      assert forall k' :: IndexOf(r, k') == IndexOf(o, k') by {
        forall k' ensures IndexOf(r, k') == IndexOf(o, k') {
          SameKeyPositions(r, o, k');
        }
      }
      assert forall k' :: HasKey(r, k') <==> HasKey(o, k') by {
        forall k' ensures HasKey(r, k') <==> HasKey(o, k') {
          assert IndexOf(r, k') == IndexOf(o, k');
        }
      }
      r
  }

  /** Removing the entry at `i` leaves every other key's value in place. */
  lemma RemoveAtKeepsOthers<V>(o: Obj<V>, i: nat, k: string)
    requires i < |o| && o[i].0 != k
    ensures Get(o[..i] + o[i + 1..], k) == Get(o, k)
  {
    var r := o[..i] + o[i + 1..];
    assert forall j :: 0 <= j < |r| ==> r[j] == if j < i then o[j] else o[j + 1];
    var b := IndexOf(o, k);
    if b.Some? {
      IndexOfIs(r, k, if b.value < i then b.value else b.value - 1);
    } else {
      assert !HasKey(r, k);
    }
  }

  /** The statement `delete o[k]`: the entry for `k` leaves, the others
      keep their order. */
  function Delete<V>(o: Obj<V>, k: string): (r: Obj<V>)
    requires DistinctKeys(o)
    ensures !HasKey(r, k)
    ensures forall k' :: k' != k ==> Get(r, k') == Get(o, k')
    ensures !HasKey(o, k) ==> r == o
    ensures HasKey(o, k) ==> exists i | 0 <= i < |o| :: o[i].0 == k && r == o[..i] + o[i + 1..]
    ensures DistinctKeys(r)
  {
    match IndexOf(o, k)
    case None => o
    case Some(i) =>
      var r := o[..i] + o[i + 1..];
      assert forall j :: 0 <= j < |r| ==> r[j] == if j < i then o[j] else o[j + 1];
      assert forall k' :: k' != k ==> Get(r, k') == Get(o, k') by {
        forall k' | k' != k ensures Get(r, k') == Get(o, k') {
          RemoveAtKeepsOthers(o, i, k');
        }
      }
      r
  }

  /** The value of a digit character, 0 for any other character. */
  function DigitValue(c: char): nat {
    if '0' <= c <= '9' then c as int - '0' as int else 0
  }

  predicate AllDigits(k: string) {
    forall i :: 0 <= i < |k| ==> '0' <= k[i] <= '9'
  }

  /** The number a string of decimal digits denotes. */
  function DecimalValue(k: string): nat
    decreases |k|
  {
    if |k| == 0 then 0 else 10 * DecimalValue(k[..|k| - 1]) + DigitValue(k[|k| - 1])
  }

  function Pow10(n: nat): nat {
    if n == 0 then 1 else 10 * Pow10(n - 1)
  }

  /** A key JavaScript treats as an array index: the canonical decimal
      form of an integer below 2^32 - 1 (section 6.1.7 of ECMA-262). */
  predicate IsIndexKey(k: string) {
    |k| > 0 && AllDigits(k) && (|k| > 1 ==> k[0] != '0') && DecimalValue(k) < 0xFFFF_FFFF
  }

  /** An `n`-digit decimal is below `10^n`, and at least `10^(n-1)` when it
      has no leading zero. */
  lemma {:induction false} DecimalBounds(k: string)
    requires AllDigits(k)
    decreases |k|
    ensures DecimalValue(k) < Pow10(|k|)
    ensures |k| > 0 && k[0] != '0' ==> Pow10(|k| - 1) <= DecimalValue(k)
  {
    if |k| > 0 {
      var init := k[..|k| - 1];
      DecimalBounds(init);
      assert DecimalValue(k) == 10 * DecimalValue(init) + DigitValue(k[|k| - 1]);
      if |init| > 0 {
        assert init[0] == k[0];
      }
    }
  }

  /** Two digit strings of one length with one value are the same. */
  lemma {:induction false} DecimalSameLength(a: string, b: string)
    requires AllDigits(a) && AllDigits(b) && |a| == |b|
    requires DecimalValue(a) == DecimalValue(b)
    decreases |a|
    ensures a == b
  {
    if |a| > 0 {
      var n := |a| - 1;
      var da, db := DigitValue(a[n]), DigitValue(b[n]);
      assert da == DecimalValue(a) % 10 && db == DecimalValue(b) % 10;
      assert DecimalValue(a[..n]) == DecimalValue(a) / 10 == DecimalValue(b[..n]);
      DecimalSameLength(a[..n], b[..n]);
      assert a[n] == b[n];
      assert a == a[..n] + [a[n]] && b == b[..n] + [b[n]];
    }
  }

  /** An array index has one spelling: two index keys of equal value are
      the same key. */
  lemma DecimalInjective(a: string, b: string)
    requires IsIndexKey(a) && IsIndexKey(b)
    requires DecimalValue(a) == DecimalValue(b)
    ensures a == b
  {
    DecimalBounds(a);
    DecimalBounds(b);
    if |a| < |b| {
      PowMonotone(|a|, |b| - 1);
    } else if |b| < |a| {
      PowMonotone(|b|, |a| - 1);
    }
    DecimalSameLength(a, b);
  }

  lemma {:induction false} PowMonotone(m: nat, n: nat)
    requires m <= n
    decreases n
    ensures Pow10(m) <= Pow10(n)
  {
    if m < n {
      PowMonotone(m, n - 1);
    }
  }

  /** The order in which JavaScript lists an ordinary object's keys: every
      array index first, in ascending numeric order, then the other keys
      (section 10.1.11.1 of ECMA-262). */
  predicate JsOrdered<V>(o: Obj<V>) {
    forall i, j :: 0 <= i < j < |o| && IsIndexKey(o[j].0) ==>
      IsIndexKey(o[i].0) && DecimalValue(o[i].0) < DecimalValue(o[j].0)
  }

  /** The keys of `ks` that are not array indices, in order. */
  function NonIndex(ks: seq<string>): (r: seq<string>)
    decreases |ks|
  {
    if |ks| == 0 then []
    else NonIndex(ks[..|ks| - 1]) + (if IsIndexKey(ks[|ks| - 1]) then [] else [ks[|ks| - 1]])
  }

  lemma {:induction false} NonIndexConcat(a: seq<string>, b: seq<string>)
    decreases |b|
    ensures NonIndex(a + b) == NonIndex(a) + NonIndex(b)
  {
    if |b| == 0 {
      assert a + b == a;
    } else {
      var n := |b| - 1;
      var last := if IsIndexKey(b[n]) then [] else [b[n]];
      NonIndexConcat(a, b[..n]);
      assert (a + b)[..|a + b| - 1] == a + b[..n];
      assert NonIndex(a + b) == NonIndex(a + b[..n]) + last;
      assert NonIndex(b) == NonIndex(b[..n]) + last;
    }
  }

  /** The first position at or after `from` where an array index of value
      `n` belongs: past every index key of no greater value. */
  function IndexSlot<V>(o: Obj<V>, n: nat, from: nat): (i: nat)
    requires from <= |o|
    decreases |o| - from
    ensures from <= i <= |o|
    ensures forall j :: from <= j < i ==> IsIndexKey(o[j].0) && DecimalValue(o[j].0) <= n
    ensures i < |o| ==> !IsIndexKey(o[i].0) || DecimalValue(o[i].0) > n
  {
    if from == |o| || !IsIndexKey(o[from].0) || DecimalValue(o[from].0) > n then from
    else IndexSlot(o, n, from + 1)
  }

  /** Inserting an entry of another key moves no other key's value. */
  lemma InsertKeepsOthers<V>(o: Obj<V>, i: nat, e: (string, V), k: string)
    requires i <= |o| && e.0 != k
    ensures Get(o[..i] + [e] + o[i..], k) == Get(o, k)
  {
    var r := o[..i] + [e] + o[i..];
    assert r[..i] + r[i + 1..] == o;
    RemoveAtKeepsOthers(r, i, k);
  }

  /** The assignment `o[k] = v` to an ordinary JavaScript object: an
      existing key keeps its place, a new array index goes in its numeric
      place among the index keys, and any other new key goes last. */
  function Assign<V>(o: Obj<V>, k: string, v: V): (r: Obj<V>)
    ensures Get(r, k) == Some(v)
    ensures forall k' :: k' != k ==> Get(r, k') == Get(o, k')
    ensures forall k' :: HasKey(r, k') <==> k' == k || HasKey(o, k')
    ensures HasKey(o, k) ==> Keys(r) == Keys(o)
    ensures !HasKey(o, k) ==> exists i | 0 <= i <= |o| :: r == o[..i] + [(k, v)] + o[i..]
    ensures DistinctKeys(o) ==> DistinctKeys(r)
    ensures DistinctKeys(o) && JsOrdered(o) ==> JsOrdered(r)
    ensures NonIndex(Keys(r)) == NonIndex(Keys(o)) + (if HasKey(o, k) || IsIndexKey(k) then [] else [k])
  {
    if HasKey(o, k) || !IsIndexKey(k) then
      SetFacts(o, k, v);
      Set(o, k, v)
    else
      var i := IndexSlot(o, DecimalValue(k), 0);
      var r := o[..i] + [(k, v)] + o[i..];
      InsertFacts(o, i, k, v);
      r
  }

  /** The facts `Assign` states of a plain `Set`. */
  lemma SetFacts<V>(o: Obj<V>, k: string, v: V)
    requires HasKey(o, k) || !IsIndexKey(k)
    ensures var r := Set(o, k, v);
      && (!HasKey(o, k) ==> exists i | 0 <= i <= |o| :: r == o[..i] + [(k, v)] + o[i..])
      && (DistinctKeys(o) && JsOrdered(o) ==> JsOrdered(r))
      && NonIndex(Keys(r)) == NonIndex(Keys(o)) + (if HasKey(o, k) then [] else [k])
  {
    if !HasKey(o, k) {
      SetAppends(o, k, v);
    } else {
      SameKeysOrdered(o, Set(o, k, v));
    }
  }

  /** A new key that is not an array index goes last. */
  lemma SetAppends<V>(o: Obj<V>, k: string, v: V)
    requires !HasKey(o, k) && !IsIndexKey(k)
    ensures var r := Set(o, k, v);
      && r == o[..|o|] + [(k, v)] + o[|o|..]
      && (JsOrdered(o) ==> JsOrdered(r))
      && NonIndex(Keys(r)) == NonIndex(Keys(o)) + [k]
  {
    var r := o + [(k, v)];
    AppendKeys(o, (k, v));
    NonIndexLast(Keys(o), k);
    assert r == o[..|o|] + [(k, v)] + o[|o|..];
  }

  lemma AppendKeys<V>(o: Obj<V>, e: (string, V))
    ensures Keys(o + [e]) == Keys(o) + [e.0]
  {
  }

  /** A key that is not an array index is kept at the end. */
  lemma NonIndexLast(ks: seq<string>, k: string)
    requires !IsIndexKey(k)
    ensures NonIndex(ks + [k]) == NonIndex(ks) + [k]
  {
    assert (ks + [k])[..|ks|] == ks;
  }

  /** An array index is dropped in the middle. */
  lemma NonIndexDropsIndex(a: seq<string>, k: string, b: seq<string>)
    requires IsIndexKey(k)
    ensures NonIndex(a + [k] + b) == NonIndex(a + b)
  {
    assert (a + [k])[..|a|] == a;
    assert NonIndex(a + [k]) == NonIndex(a);
    NonIndexConcat(a + [k], b);
    NonIndexConcat(a, b);
  }

  /** Objects with the same keys in the same order are ordered alike. */
  lemma SameKeysOrdered<V>(o: Obj<V>, r: Obj<V>)
    requires Keys(r) == Keys(o)
    ensures JsOrdered(o) ==> JsOrdered(r)
  {
    assert forall j :: 0 <= j < |r| ==> r[j].0 == Keys(r)[j] == o[j].0;
  }

  /** The facts `Assign` states of inserting a new array index at its slot. */
  lemma InsertFacts<V>(o: Obj<V>, i: nat, k: string, v: V)
    requires !HasKey(o, k) && IsIndexKey(k)
    requires i == IndexSlot(o, DecimalValue(k), 0)
    ensures var r := o[..i] + [(k, v)] + o[i..];
      && Get(r, k) == Some(v)
      && (forall k' :: k' != k ==> Get(r, k') == Get(o, k'))
      && (forall k' :: HasKey(r, k') <==> k' == k || HasKey(o, k'))
      && (DistinctKeys(o) ==> DistinctKeys(r))
      && (DistinctKeys(o) && JsOrdered(o) ==> JsOrdered(r))
      && NonIndex(Keys(r)) == NonIndex(Keys(o))
  {
    InsertLookups(o, i, k, v);
    if DistinctKeys(o) && JsOrdered(o) {
      InsertOrdered(o, i, k, v);
    }
    InsertNonIndex(o, i, k, v);
  }

  lemma InsertLookups<V>(o: Obj<V>, i: nat, k: string, v: V)
    requires !HasKey(o, k) && i <= |o|
    ensures var r := o[..i] + [(k, v)] + o[i..];
      && Get(r, k) == Some(v)
      && (forall k' :: k' != k ==> Get(r, k') == Get(o, k'))
      && (forall k' :: HasKey(r, k') <==> k' == k || HasKey(o, k'))
      && (DistinctKeys(o) ==> DistinctKeys(r))
  {
    var r := o[..i] + [(k, v)] + o[i..];
    assert forall j :: 0 <= j < |r| ==> r[j] == if j < i then o[j] else if j == i then (k, v) else o[j - 1];
    IndexOfIs(r, k, i);
    forall k' | k' != k
      ensures Get(r, k') == Get(o, k')
    {
      InsertKeepsOthers(o, i, (k, v), k');
    }
    forall k' ensures HasKey(r, k') <==> k' == k || HasKey(o, k') {
      assert Get(r, k').Some? <==> HasKey(r, k');
    }
  }

  lemma InsertOrdered<V>(o: Obj<V>, i: nat, k: string, v: V)
    requires !HasKey(o, k) && IsIndexKey(k)
    requires DistinctKeys(o) && JsOrdered(o)
    requires i == IndexSlot(o, DecimalValue(k), 0)
    ensures JsOrdered(o[..i] + [(k, v)] + o[i..])
  {
    var r := o[..i] + [(k, v)] + o[i..];
    assert forall j :: 0 <= j < |r| ==> r[j] == if j < i then o[j] else if j == i then (k, v) else o[j - 1];
    forall a, b | 0 <= a < b < |r| && IsIndexKey(r[b].0)
      ensures IsIndexKey(r[a].0) && DecimalValue(r[a].0) < DecimalValue(r[b].0)
    {
      if b == i {
        assert o[a].0 != k;
        if DecimalValue(o[a].0) == DecimalValue(k) {
          DecimalInjective(o[a].0, k);
        }
      } else if a == i {
        assert IsIndexKey(o[i].0);
      }
    }
  }

  lemma InsertNonIndex<V>(o: Obj<V>, i: nat, k: string, v: V)
    requires IsIndexKey(k) && i <= |o|
    ensures NonIndex(Keys(o[..i] + [(k, v)] + o[i..])) == NonIndex(Keys(o))
  {
    var ks := Keys(o);
    InsertKeys(o, i, (k, v));
    NonIndexDropsIndex(ks[..i], k, ks[i..]);
    assert ks[..i] + ks[i..] == ks;
  }

  lemma InsertKeys<V>(o: Obj<V>, i: nat, e: (string, V))
    requires i <= |o|
    ensures Keys(o[..i] + [e] + o[i..]) == Keys(o)[..i] + [e.0] + Keys(o)[i..]
  {
  }

  /** An object whose keys are two array indices lists them in numeric
      order. */
  lemma OrderedPair<V>(o: Obj<V>, a: string, b: string)
    requires DistinctKeys(o) && JsOrdered(o)
    requires IsIndexKey(a) && IsIndexKey(b) && DecimalValue(a) < DecimalValue(b)
    requires forall k :: HasKey(o, k) <==> k == a || k == b
    ensures Keys(o) == [a, b]
  {
    assert HasKey(o, a) && HasKey(o, b);
    var ia :| 0 <= ia < |o| && o[ia].0 == a;
    var ib :| 0 <= ib < |o| && o[ib].0 == b;
    forall i | 0 <= i < |o|
      ensures o[i].0 == a || o[i].0 == b
    {
      assert HasKey(o, o[i].0);
    }
    if ib < ia {
      assert false;
    }
    var first, second, last := o[0].0, o[1].0, o[|o| - 1].0;
    assert first == a || first == b;
    assert second == a || second == b;
    assert last == a || last == b;
  }


}

=== FILE: php_curl.dfy ===
/** The PHP ext-curl target: optional PHP tags, `curl_init`, one
    `curl_setopt_array` call whose array lists the curl options that have a
    value, the cookie string and the sorted header lines, then the
    `curl_exec`/`curl_error` epilogue. Lines are modelled at their
    indentation level: option lines at level 1, header lines at level 2. */
module PhpCurl {
  import opened Wrappers
  import opened OrderedObject
  import opened Har
  import opened CodeBuilder
  import Json
  import Text
  import Sorting
  import Cookies

  /** A numeric option as the caller's object spread leaves it: absent (the
      default stays), or present with a number or with `null`/`undefined`. */
  datatype Setting = Default | Given(value: Option<int>)

  /** The converter's options after `{ defaults, ...options }`. The option
      interface declares `nameErrors`, but the code reads `namedErrors`: only
      the flag the code reads is modelled. An absent or `undefined` flag is
      false, as its default is. */
  datatype CurlOptions = CurlOptions(
    closingTag: bool,
    maxRedirects: Setting,
    namedErrors: bool,
    noTags: bool,
    shortTags: bool,
    timeout: Setting)

  const DefaultOptions := CurlOptions(false, Default, false, false, false, Default)

  /** The value an option ends up with after the spread. */
  function Resolve(s: Setting, default: int): (r: Option<int>)
    ensures s == Default ==> r == Some(default)
    ensures s.Given? ==> r == s.value
  {
    match s
    case Default => Some(default)
    case Given(v) => v
  }

  /** The JavaScript values the option table holds. */
  datatype JsValue = Str(s: string) | Num(n: int)

  /** One row of the option table; `None` is `null` or `undefined`. */
  datatype CurlOpt = CurlOpt(escape: bool, name: string, value: Option<JsValue>)

  /** `JSON.stringify(value)` for an escaped option. */
  function Escaped(v: JsValue): string {
    match v
    case Str(s) => Json.Quote(s)
    case Num(n) => Text.IntToString(n)
  }

  /** `${value}` for an unescaped option. */
  function Raw(v: JsValue): string {
    match v
    case Str(s) => s
    case Num(n) => Text.IntToString(n)
  }

  /** The array entry of an option with a value. */
  function OptText(name: string, escape: bool, v: JsValue): string {
    name + " => " + (if escape then Escaped(v) else Raw(v)) + ","
  }

  /** The text of the entry for `o`, were it emitted. */
  function EntryOf(o: CurlOpt): Line
    requires o.value.Some?
  {
    Line(1, OptText(o.name, o.escape, o.value.value))
  }

  /** `CURLOPT_HTTP_VERSION`: 1.0 for `HTTP/1.0`, 1.1 for anything else. */
  function HttpVersion(httpVersion: string): (r: string)
    ensures r == "CURL_HTTP_VERSION_1_0" || r == "CURL_HTTP_VERSION_1_1"
    ensures r == "CURL_HTTP_VERSION_1_0" <==> httpVersion == "HTTP/1.0"
  {
    if httpVersion == "HTTP/1.0" then "CURL_HTTP_VERSION_1_0" else "CURL_HTTP_VERSION_1_1"
  }

  function SomeStr(s: Option<string>): Option<JsValue> {
    match s
    case None => None
    case Some(x) => Some(Str(x))
  }

  function SomeNum(n: Option<int>): Option<JsValue> {
    match n
    case None => None
    case Some(x) => Some(Num(x))
  }

  /** The nine candidate options, in their fixed order. */
  function Table(req: Request, o: CurlOptions): (t: seq<CurlOpt>)
    ensures |t| == |RowNames|
    ensures forall i :: 0 <= i < |t| ==> t[i].name == RowNames[i]
    ensures t[4].value.Some? <==> Resolve(o.maxRedirects, 10).Some?
    ensures t[5].value.Some? <==> Resolve(o.timeout, 30).Some?
  {
    [ CurlOpt(true, "CURLOPT_PORT", SomeStr(req.port)),
      CurlOpt(true, "CURLOPT_URL", Some(Str(req.fullUrl))),
      CurlOpt(false, "CURLOPT_RETURNTRANSFER", Some(Str("true"))),
      CurlOpt(true, "CURLOPT_ENCODING", Some(Str(""))),
      CurlOpt(false, MaxRedirsName, SomeNum(Resolve(o.maxRedirects, 10))),
      CurlOpt(false, TimeoutName, SomeNum(Resolve(o.timeout, 30))),
      CurlOpt(false, "CURLOPT_HTTP_VERSION", Some(Str(HttpVersion(req.httpVersion)))),
      CurlOpt(true, "CURLOPT_CUSTOMREQUEST", Some(Str(req.httpMethod))),
      CurlOpt(true, "CURLOPT_POSTFIELDS", SomeStr(req.postData.text)) ]
  }

  /** No two rows share a name, and no name holds a space, so an entry's
      text tells which row it came from. */
  predicate Distinguishable(t: seq<CurlOpt>) {
    && (forall i, j :: 0 <= i < j < |t| ==> t[i].name != t[j].name)
    && (forall i :: 0 <= i < |t| ==> ' ' !in t[i].name)
  }

  /** The line is the array entry of the option called `name`. */
  predicate Names(l: Line, name: string) {
    |name| + 4 <= |l.text| && l.text[..|name| + 4] == name + " => "
  }

  /** A line naming an option starts with the name's first character. */
  lemma NamesFirstChar(l: Line, name: string)
    requires |name| > 0
    ensures Names(l, name) ==> l.text[0] == name[0]
  {
    if Names(l, name) {
      assert l.text[0] == (name + " => ")[0];
    }
  }

  /** A line names at most one space-free option. */
  lemma NamesUnique(l: Line, a: string, b: string)
    requires ' ' !in a && ' ' !in b
    ensures Names(l, a) && Names(l, b) ==> a == b
  {
    var t := l.text;
    if Names(l, a) && Names(l, b) {
      assert t[|a|] == ' ' && t[|b|] == ' ';
      assert forall k :: 0 <= k < |b| ==> t[k] == b[k] && b[k] in b;
      assert forall k :: 0 <= k < |a| ==> t[k] == a[k] && a[k] in a;
      assert a == t[..|a|] == b;
    }
  }

  lemma EntryNamesItself(o: CurlOpt)
    requires o.value.Some?
    ensures Names(EntryOf(o), o.name)
  {
    assert EntryOf(o).text[..|o.name| + 4] == o.name + " => ";
  }

  /** How many options of `t` have a value. */
  function Present(t: seq<CurlOpt>): nat
    decreases |t|
  {
    if |t| == 0 then 0 else Present(t[..|t| - 1]) + (if t[|t| - 1].value.Some? then 1 else 0)
  }

  /** The `forEach` that pushes an entry for every option whose value is
      neither `null` nor `undefined`, keeping the table's order. */
  function Entries(t: seq<CurlOpt>): (r: seq<Line>)
    ensures |r| == Present(t) <= |t|
    ensures forall i :: 0 <= i < |t| && t[i].value.Some? ==> EntryOf(t[i]) in r
    ensures forall l :: l in r ==> exists i | 0 <= i < |t| :: t[i].value.Some? && l == EntryOf(t[i])
  {
    if |t| == 0 then []
    else
      var init := t[..|t| - 1];
      var last := t[|t| - 1];
      var r := Entries(init);
      assert forall i :: 0 <= i < |init| ==> init[i] == t[i];
      if last.value.Some? then r + [EntryOf(last)] else r
  }

  /** The entries of a concatenation are the entries of its parts. */
  lemma {:induction false} EntriesConcat(a: seq<CurlOpt>, b: seq<CurlOpt>)
    ensures Entries(a + b) == Entries(a) + Entries(b)
    ensures Present(a + b) == Present(a) + Present(b)
    decreases |b|
  {
    if |b| == 0 {
      assert a + b == a;
    } else {
      var last := b[|b| - 1];
      assert (a + b)[..|a + b| - 1] == a + b[..|b| - 1];
      assert (a + b)[|a + b| - 1] == last;
      EntriesConcat(a, b[..|b| - 1]);
    }
  }

  /** The entry of an option with a value comes right after the entries of
      the options before it: one entry each, in table order. */
  lemma EntryAt(t: seq<CurlOpt>, i: nat)
    requires i < |t| && t[i].value.Some?
    ensures Present(t[..i]) < |Entries(t)|
    ensures Entries(t)[Present(t[..i])] == EntryOf(t[i])
  {
    assert t == t[..i] + [t[i]] + t[i + 1..];
    EntriesConcat(t[..i] + [t[i]], t[i + 1..]);
    EntriesConcat(t[..i], [t[i]]);
    assert Entries([t[i]]) == Entries([]) + [EntryOf(t[i])] by {
      assert [t[i]][..0] == [];
    }
  }

  /** Entries keep the table's order: an option with a value is placed
      before every later option. */
  lemma EntriesInOrder(t: seq<CurlOpt>, i: nat, j: nat)
    requires i < j <= |t| && t[i].value.Some?
    ensures Present(t[..i]) < Present(t[..j])
  {
    assert t[..j] == t[..i] + [t[i]] + t[i + 1..j];
    EntriesConcat(t[..i] + [t[i]], t[i + 1..j]);
    EntriesConcat(t[..i], [t[i]]);
    assert Present([t[i]]) == 1 by {
      assert [t[i]][..0] == [];
    }
  }

  /** An option gets an entry exactly when it has a value. */
  lemma EntryIffValue(t: seq<CurlOpt>, i: nat)
    requires Distinguishable(t)
    requires i < |t|
    ensures t[i].value.Some? <==> exists l | l in Entries(t) :: Names(l, t[i].name)
  {
    if t[i].value.Some? {
      EntryNamesItself(t[i]);
    } else {
      forall l | l in Entries(t) ensures !Names(l, t[i].name) {
        var j :| 0 <= j < |t| && t[j].value.Some? && l == EntryOf(t[j]);
        assert i != j;
        assert t[j].name != t[i].name by {
          if i < j { } else { }
        }
        EntryNamesItself(t[j]);
        NamesUnique(l, t[j].name, t[i].name);
      }
    }
  }

  /** Only the rows' own names are named by their entries. */
  lemma EntriesNameRows(t: seq<CurlOpt>, l: Line, name: string)
    requires Distinguishable(t)
    requires ' ' !in name
    requires forall i :: 0 <= i < |t| ==> t[i].name != name
    ensures l in Entries(t) ==> !Names(l, name)
  {
    if l in Entries(t) {
      var j :| 0 <= j < |t| && t[j].value.Some? && l == EntryOf(t[j]);
      EntryNamesItself(t[j]);
      NamesUnique(l, t[j].name, name);
    }
  }

  const CookieName := "CURLOPT_COOKIE"
  const MaxRedirsName := "CURLOPT_MAXREDIRS"
  const TimeoutName := "CURLOPT_TIMEOUT"
  const HeaderName := "CURLOPT_HTTPHEADER"

  /** The names of the table's rows. */
  const RowNames: seq<string> := ["CURLOPT_PORT", "CURLOPT_URL", "CURLOPT_RETURNTRANSFER", "CURLOPT_ENCODING",
    MaxRedirsName, TimeoutName, "CURLOPT_HTTP_VERSION", "CURLOPT_CUSTOMREQUEST", "CURLOPT_POSTFIELDS"]

  lemma RowNamesDistinct()
    ensures forall i, j :: 0 <= i < j < |RowNames| ==> RowNames[i] != RowNames[j]
    ensures forall i :: 0 <= i < |RowNames| ==> ' ' !in RowNames[i] && RowNames[i][0] == 'C'
    ensures forall i :: 0 <= i < |RowNames| ==> RowNames[i] != CookieName && RowNames[i] != HeaderName
  {
  }

  /** The table lists distinguishable options. */
  lemma TableDistinguishable(req: Request, o: CurlOptions)
    ensures Distinguishable(Table(req, o))
  {
    RowNamesDistinct();
  }

  /** The `CURLOPT_COOKIE` entry, present only for a non-empty cookie list. */
  function CookieLines(cookies: seq<Cookie>): (r: seq<Line>)
    ensures |r| <= 1
    ensures |r| == 1 <==> |cookies| > 0
    ensures |r| == 1 ==> Names(r[0], CookieName)
  {
    if |cookies| > 0 then
      var l := Line(1, CookieName + " => \"" + Cookies.Header(cookies) + "\",");
      assert l.text[..|CookieName| + 4] == CookieName + " => ";
      [l]
    else []
  }

  /** `Object.keys(headersObj).sort()`. */
  function SortedKeys(h: Obj<string>): (ks: seq<string>)
    ensures Sorting.Sorted(ks)
    ensures multiset(ks) == multiset(Keys(h))
    ensures |ks| == |h|
  {
    var ks := Sorting.Sort(Keys(h));
    assert |ks| == |multiset(ks)| == |multiset(Keys(h))| == |h|;
    ks
  }

  /** `"${key}: ${headersObj[key]}"`. */
  function HeaderText(h: Obj<string>, k: string): string {
    "\"" + k + ": " + Template(Get(h, k)) + "\""
  }

  /** The header texts in sorted key order. */
  function HeaderTexts(h: Obj<string>): (t: seq<string>)
    ensures |t| == |h|
    ensures forall i :: 0 <= i < |h| ==> t[i] == HeaderText(h, SortedKeys(h)[i])
  {
    var ks := SortedKeys(h);
    seq(|ks|, i requires 0 <= i < |ks| => HeaderText(h, ks[i]))
  }

  /** The `CURLOPT_HTTPHEADER` array: nothing without headers, otherwise the
      opening entry, one line per header in ascending key order with a comma
      after all but the last, and the closing bracket. */
  function HeaderBlock(h: Obj<string>): (r: seq<Line>)
    ensures |h| == 0 ==> r == []
    ensures |h| > 0 ==>
              && |r| == |h| + 2
              && r[0] == Line(1, HeaderName + " => [")
              && r[|r| - 1] == Line(1, "],")
              && (forall i :: 1 <= i < |h| ==> r[i] == Line(2, HeaderText(h, SortedKeys(h)[i - 1]) + ","))
              && r[|h|] == Line(2, HeaderText(h, SortedKeys(h)[|h| - 1]))
  {
    if |h| == 0 then []
    else
      var texts := HeaderTexts(h);
      var r := Block(Line(1, HeaderName + " => ["), texts, 2, [Line(1, "],")]);
      assert r[|r| - 1] == r[|h| + 1..][0];
      r
  }

  /** Every header of the object has its place in the sorted order, and its
      line there shows its own value. */
  lemma HeaderLinePerEntry(h: Obj<string>, j: nat)
    requires DistinctKeys(h)
    requires j < |h|
    ensures exists i | 0 <= i < |h| :: SortedKeys(h)[i] == h[j].0 &&
              HeaderText(h, SortedKeys(h)[i]) == "\"" + h[j].0 + ": " + h[j].1 + "\""
  {
    var ks := SortedKeys(h);
    assert Keys(h)[j] == h[j].0;
    assert h[j].0 in multiset(Keys(h));
    assert h[j].0 in multiset(ks);
    var k :| 0 <= k < |ks| && ks[k] == h[j].0;
    GetEntry(h, j);
  }

  /** Conversely every line of the block is a header of the object. */
  lemma SortedKeysAreKeys(h: Obj<string>, i: nat)
    requires i < |h|
    ensures HasKey(h, SortedKeys(h)[i])
  {
    var ks := SortedKeys(h);
    assert ks[i] in multiset(Keys(h));
    var j :| 0 <= j < |h| && Keys(h)[j] == ks[i];
    assert h[j].0 == ks[i];
  }

  lemma OpeningNamesHeader(name: string)
    requires ' ' !in name
    ensures Names(Line(1, HeaderName + " => ["), name) <==> name == HeaderName
  {
    var l := Line(1, HeaderName + " => [");
    assert l.text[..|HeaderName| + 4] == HeaderName + " => ";
    NamesUnique(l, HeaderName, name);
  }

  /** The lines of the header block after the opening one do not start
      with a `C`. */
  lemma BlockTail(h: Obj<string>, i: nat)
    requires 0 < i < |HeaderBlock(h)|
    ensures |HeaderBlock(h)[i].text| > 0 && HeaderBlock(h)[i].text[0] != 'C'
  {
    var r := HeaderBlock(h);
    if i <= |h| - 1 {
      assert r[i] == Line(2, HeaderText(h, SortedKeys(h)[i - 1]) + ",");
    } else if i == |h| {
      assert r[i] == Line(2, HeaderText(h, SortedKeys(h)[|h| - 1]));
    } else {
      assert r[i] == Line(1, "],");
    }
  }

  /** Within the header block only the opening line names an option, and it
      names `CURLOPT_HTTPHEADER`. */
  lemma BlockNames(h: Obj<string>, l: Line, name: string)
    requires ' ' !in name && |name| > 0 && name[0] == 'C'
    requires l in HeaderBlock(h)
    ensures Names(l, name) <==> name == HeaderName && l == HeaderBlock(h)[0]
  {
    var r := HeaderBlock(h);
    var i :| 0 <= i < |r| && r[i] == l;
    OpeningNamesHeader(name);
    if i > 0 {
      BlockTail(h, i);
      assert r[0].text[0] == 'C';
      NamesFirstChar(l, name);
    }
  }

  /** The cookie entry names `CURLOPT_COOKIE` and nothing else. */
  lemma CookieNames(cookies: seq<Cookie>, l: Line, name: string)
    requires ' ' !in name
    requires l in CookieLines(cookies)
    ensures Names(l, name) <==> name == CookieName
  {
    assert l.text[..|CookieName| + 4] == CookieName + " => ";
    NamesUnique(l, CookieName, name);
  }

  /** The entries of the `curl_setopt_array` call. */
  function OptionLines(req: Request, o: CurlOptions): seq<Line> {
    Entries(Table(req, o)) + CookieLines(req.cookies) + HeaderBlock(req.headersObj)
  }

  /** Some line of `ls` is the entry of the option `name`. */
  predicate Sets(ls: seq<Line>, name: string) {
    exists l | l in ls :: Names(l, name)
  }

  lemma SetsConcat(a: seq<Line>, b: seq<Line>, c: seq<Line>, name: string)
    ensures Sets(a + b + c, name) <==> Sets(a, name) || Sets(b, name) || Sets(c, name)
  {
    if Sets(a + b + c, name) {
      var l :| l in a + b + c && Names(l, name);
    }
    if Sets(a, name) { var l :| l in a && Names(l, name); assert l in a + b + c; }
    if Sets(b, name) { var l :| l in b && Names(l, name); assert l in a + b + c; }
    if Sets(c, name) { var l :| l in c && Names(l, name); assert l in a + b + c; }
  }

  /** The entries set only their own rows' options. */
  lemma EntriesSet(t: seq<CurlOpt>, name: string)
    requires Distinguishable(t) && ' ' !in name
    requires forall i :: 0 <= i < |t| ==> t[i].name != name
    ensures !Sets(Entries(t), name)
  {
    forall l | l in Entries(t) ensures !Names(l, name) {
      EntriesNameRows(t, l, name);
    }
  }

  /** The cookie line sets `CURLOPT_COOKIE` and only that, when present. */
  lemma CookieLinesSet(cookies: seq<Cookie>, name: string)
    requires ' ' !in name
    ensures Sets(CookieLines(cookies), name) <==> name == CookieName && |cookies| > 0
  {
    forall l | l in CookieLines(cookies) ensures Names(l, name) <==> name == CookieName {
      CookieNames(cookies, l, name);
    }
    if |cookies| > 0 {
      assert CookieLines(cookies)[0] in CookieLines(cookies);
    }
  }

  /** The header block sets `CURLOPT_HTTPHEADER` and only that, when
      present. */
  lemma BlockSet(h: Obj<string>, name: string)
    requires ' ' !in name && |name| > 0 && name[0] == 'C'
    ensures Sets(HeaderBlock(h), name) <==> name == HeaderName && |h| > 0
  {
    var b := HeaderBlock(h);
    forall l | l in b ensures Names(l, name) <==> name == HeaderName && l == b[0] {
      BlockNames(h, l, name);
    }
    if |h| > 0 && name == HeaderName {
      OpeningNamesHeader(name);
      assert b[0] in b;
    }
  }

  lemma RowSetIn(t: seq<CurlOpt>, cookies: seq<Cookie>, h: Obj<string>, i: nat)
    requires Distinguishable(t)
    requires i < |t| && |t[i].name| > 0 && t[i].name[0] == 'C'
    requires t[i].name != CookieName && t[i].name != HeaderName
    ensures t[i].value.Some? <==> Sets(Entries(t) + CookieLines(cookies) + HeaderBlock(h), t[i].name)
  {
    EntryIffValue(t, i);
    CookieLinesSet(cookies, t[i].name);
    BlockSet(h, t[i].name);
    SetsConcat(Entries(t), CookieLines(cookies), HeaderBlock(h), t[i].name);
  }

  /** A row of the table is set exactly when its value is neither `null`
      nor `undefined`. */
  lemma RowSet(req: Request, o: CurlOptions, i: nat)
    requires i < |RowNames|
    ensures Table(req, o)[i].value.Some? <==> Sets(OptionLines(req, o), RowNames[i])
  {
    RowNamesDistinct();
    TableDistinguishable(req, o);
    RowSetIn(Table(req, o), req.cookies, req.headersObj, i);
  }

  /** `CURLOPT_COOKIE` is set exactly when there are cookies. */
  lemma CookieSet(req: Request, o: CurlOptions)
    ensures Sets(OptionLines(req, o), CookieName) <==> |req.cookies| > 0
  {
    var t := Table(req, o);
    RowNamesDistinct();
    TableDistinguishable(req, o);
    EntriesSet(t, CookieName);
    CookieLinesSet(req.cookies, CookieName);
    BlockSet(req.headersObj, CookieName);
    SetsConcat(Entries(t), CookieLines(req.cookies), HeaderBlock(req.headersObj), CookieName);
  }

  /** `CURLOPT_HTTPHEADER` is set exactly when there are headers. */
  lemma HeaderSet(req: Request, o: CurlOptions)
    ensures Sets(OptionLines(req, o), HeaderName) <==> |req.headersObj| > 0
  {
    var t := Table(req, o);
    RowNamesDistinct();
    TableDistinguishable(req, o);
    EntriesSet(t, HeaderName);
    CookieLinesSet(req.cookies, HeaderName);
    BlockSet(req.headersObj, HeaderName);
    SetsConcat(Entries(t), CookieLines(req.cookies), HeaderBlock(req.headersObj), HeaderName);
  }

  /** The opening PHP tag and the blank after it, unless `noTags`. */
  function Tags(o: CurlOptions): seq<Line> {
    if o.noTags then [] else [Line(0, if o.shortTags then "<?" else "<?php"), Blank]
  }

  /** What `if ($err)` echoes: the constant's name with `namedErrors`, the
      message otherwise. */
  function ErrorLine(o: CurlOptions): Line {
    if o.namedErrors then Line(1, "echo array_flip(get_defined_constants(true)[\"curl\"])[$err];")
    else Line(1, "echo \"cURL Error #:\" . $err;")
  }

  /** The closing `?>`, only with tags and `closingTag`. */
  function Closing(o: CurlOptions): seq<Line> {
    if !o.noTags && o.closingTag then [Blank, Line(0, "?>")] else []
  }

  /** The fixed script around the array entries `opts`. */
  function Frame(o: CurlOptions, opts: seq<Line>): (lines: seq<Line>)
    ensures var k := if o.noTags then 0 else 2;
            var n := |opts|;
            && |lines| == k + n + 15 + (if !o.noTags && o.closingTag then 2 else 0)
            && (!o.noTags && !o.shortTags <==> lines[0] == Line(0, "<?php"))
            && (!o.noTags && o.shortTags <==> lines[0] == Line(0, "<?"))
            && (o.noTags ==> lines[0] == Line(0, "$curl = curl_init();"))
            && lines[k + 2] == Line(0, "curl_setopt_array($curl, [")
            && lines[k + 3..k + 3 + n] == opts
            && lines[k + 3 + n] == Line(0, "]);")
            && lines[k + 3 + n + 8] == ErrorLine(o)
            && (!o.noTags && o.closingTag <==> lines[|lines| - 1] == Line(0, "?>"))
            && (!(!o.noTags && o.closingTag) ==> lines[|lines| - 1] == Line(0, "}"))
  {
    var head := [Line(0, "$curl = curl_init();"), Blank, Line(0, "curl_setopt_array($curl, [")];
    var tail := [Line(0, "]);"), Blank, Line(0, "$response = curl_exec($curl);"), Line(0, "$err = curl_error($curl);"),
                 Blank, Line(0, "curl_close($curl);"), Blank, Line(0, "if ($err) {"), ErrorLine(o),
                 Line(0, "} else {"), Line(1, "echo $response;"), Line(0, "}")];
    var pre, post := Tags(o) + head, tail + Closing(o);
    var lines := pre + opts + post;
    Middle(pre, opts, post);
    assert lines[|pre| + |opts|] == post[0];
    assert lines[|pre| + |opts| + 8] == post[8];
    lines
  }

  /** `curl.convert`. */
  function Convert(req: Request, o: CurlOptions): (lines: seq<Line>)
    ensures var k := if o.noTags then 0 else 2;
            var n := |OptionLines(req, o)|;
            && |lines| == k + n + 15 + (if !o.noTags && o.closingTag then 2 else 0)
            && (!o.noTags && !o.shortTags <==> lines[0] == Line(0, "<?php"))
            && (!o.noTags && o.shortTags <==> lines[0] == Line(0, "<?"))
            && (o.noTags ==> lines[0] == Line(0, "$curl = curl_init();"))
            && lines[k + 2] == Line(0, "curl_setopt_array($curl, [")
            && lines[k + 3..k + 3 + n] == OptionLines(req, o)
            && lines[k + 3 + n] == Line(0, "]);")
            && lines[k + 3 + n + 8] == ErrorLine(o)
            && (!o.noTags && o.closingTag <==> lines[|lines| - 1] == Line(0, "?>"))
            && (!(!o.noTags && o.closingTag) ==> lines[|lines| - 1] == Line(0, "}"))
  {
    Frame(o, OptionLines(req, o))
  }

  lemma InConcat(a: seq<Line>, b: seq<Line>, c: seq<Line>, x: Line)
    ensures x in a ==> x in a + b + c
    ensures x in b ==> x in a + b + c
  {
  }

  lemma RowEntry(req: Request, o: CurlOptions, i: nat)
    requires i < |RowNames| && Table(req, o)[i].value.Some?
    ensures EntryOf(Table(req, o)[i]) in OptionLines(req, o)
  {
    var t := Table(req, o);
    assert EntryOf(t[i]) in Entries(t);
    InConcat(Entries(t), CookieLines(req.cookies), HeaderBlock(req.headersObj), EntryOf(t[i]));
  }

  /** `CURLOPT_MAXREDIRS` carries the caller's number, 10 when the caller
      gave none, and is left out when the caller gave `null` or
      `undefined`; likewise `CURLOPT_TIMEOUT` with 30. */
  lemma Limits(req: Request, o: CurlOptions)
    ensures o.maxRedirects == Default ==> Line(1, MaxRedirsName + " => " + "10" + ",") in OptionLines(req, o)
    ensures o.maxRedirects.Given? && o.maxRedirects.value.Some? ==>
              Line(1, MaxRedirsName + " => " + Text.IntToString(o.maxRedirects.value.value) + ",") in OptionLines(req, o)
    ensures o.maxRedirects == Given(None) ==> !Sets(OptionLines(req, o), MaxRedirsName)
    ensures o.timeout == Default ==> Line(1, TimeoutName + " => " + "30" + ",") in OptionLines(req, o)
    ensures o.timeout.Given? && o.timeout.value.Some? ==>
              Line(1, TimeoutName + " => " + Text.IntToString(o.timeout.value.value) + ",") in OptionLines(req, o)
    ensures o.timeout == Given(None) ==> !Sets(OptionLines(req, o), TimeoutName)
  {
    MaxRedirsRow(req, o);
    TimeoutRow(req, o);
  }

  lemma MaxRedirsRow(req: Request, o: CurlOptions)
    ensures o.maxRedirects == Default ==> Line(1, MaxRedirsName + " => " + "10" + ",") in OptionLines(req, o)
    ensures o.maxRedirects.Given? && o.maxRedirects.value.Some? ==>
              Line(1, MaxRedirsName + " => " + Text.IntToString(o.maxRedirects.value.value) + ",") in OptionLines(req, o)
    ensures o.maxRedirects == Given(None) ==> !Sets(OptionLines(req, o), MaxRedirsName)
  {
    DefaultTexts();
    NumberRow(req, o, 4, MaxRedirsName, o.maxRedirects, 10);
  }

  lemma TimeoutRow(req: Request, o: CurlOptions)
    ensures o.timeout == Default ==> Line(1, TimeoutName + " => " + "30" + ",") in OptionLines(req, o)
    ensures o.timeout.Given? && o.timeout.value.Some? ==>
              Line(1, TimeoutName + " => " + Text.IntToString(o.timeout.value.value) + ",") in OptionLines(req, o)
    ensures o.timeout == Given(None) ==> !Sets(OptionLines(req, o), TimeoutName)
  {
    DefaultTexts();
    NumberRow(req, o, 5, TimeoutName, o.timeout, 30);
  }

  /** A numeric row: its entry carries the caller's number, the default
      when the caller gave none, and there is no entry when the caller gave
      `null` or `undefined`. */
  lemma NumberRow(req: Request, o: CurlOptions, i: nat, name: string, setting: Setting, default: int)
    requires i == 4 || i == 5
    requires name == RowNames[i]
    requires i == 4 ==> setting == o.maxRedirects && default == 10
    requires i == 5 ==> setting == o.timeout && default == 30
    ensures setting == Default ==> Line(1, name + " => " + Text.IntToString(default) + ",") in OptionLines(req, o)
    ensures setting.Given? && setting.value.Some? ==>
              Line(1, name + " => " + Text.IntToString(setting.value.value) + ",") in OptionLines(req, o)
    ensures setting == Given(None) ==> !Sets(OptionLines(req, o), name)
  {
    var t := Table(req, o);
    assert t[i] == CurlOpt(false, name, SomeNum(Resolve(setting, default)));
    RowSet(req, o, i);
    if t[i].value.Some? { RowEntry(req, o, i); }
  }

  lemma DefaultTexts()
    ensures Text.IntToString(10) == "10" && Text.IntToString(30) == "30"
  {
  }

  lemma UrlEntry(req: Request, o: CurlOptions)
    ensures Line(1, "CURLOPT_URL" + " => " + Json.Quote(req.fullUrl) + ",") in OptionLines(req, o)
  {
    assert Table(req, o)[1] == CurlOpt(true, "CURLOPT_URL", Some(Str(req.fullUrl)));
    RowEntry(req, o, 1);
  }

  lemma VersionEntry(req: Request, o: CurlOptions)
    ensures Line(1, "CURLOPT_HTTP_VERSION" + " => " + HttpVersion(req.httpVersion) + ",") in OptionLines(req, o)
  {
    assert Table(req, o)[6] == CurlOpt(false, "CURLOPT_HTTP_VERSION", Some(Str(HttpVersion(req.httpVersion))));
    RowEntry(req, o, 6);
  }

  lemma MethodEntry(req: Request, o: CurlOptions)
    ensures Line(1, "CURLOPT_CUSTOMREQUEST" + " => " + Json.Quote(req.httpMethod) + ",") in OptionLines(req, o)
  {
    assert Table(req, o)[7] == CurlOpt(true, "CURLOPT_CUSTOMREQUEST", Some(Str(req.httpMethod)));
    RowEntry(req, o, 7);
  }

  /** The entries every snippet has: the URL and the method JSON-quoted,
      the HTTP version raw. */
  lemma RequestEntries(req: Request, o: CurlOptions)
    ensures Line(1, "CURLOPT_URL" + " => " + Json.Quote(req.fullUrl) + ",") in OptionLines(req, o)
    ensures Line(1, "CURLOPT_HTTP_VERSION" + " => " + HttpVersion(req.httpVersion) + ",") in OptionLines(req, o)
    ensures Line(1, "CURLOPT_CUSTOMREQUEST" + " => " + Json.Quote(req.httpMethod) + ",") in OptionLines(req, o)
  {
    UrlEntry(req, o);
    VersionEntry(req, o);
    MethodEntry(req, o);
  }

  /** The port and the body: JSON-quoted, and only when present. */
  lemma OptionalEntries(req: Request, o: CurlOptions)
    ensures req.port.Some? ==> Line(1, "CURLOPT_PORT" + " => " + Json.Quote(req.port.value) + ",") in OptionLines(req, o)
    ensures req.port.None? ==> !Sets(OptionLines(req, o), "CURLOPT_PORT")
    ensures req.postData.text.Some? ==>
              Line(1, "CURLOPT_POSTFIELDS" + " => " + Json.Quote(req.postData.text.value) + ",") in OptionLines(req, o)
    ensures req.postData.text.None? ==> !Sets(OptionLines(req, o), "CURLOPT_POSTFIELDS")
  {
    var t := Table(req, o);
    RowSet(req, o, 0);
    RowSet(req, o, 8);
    if t[0].value.Some? { RowEntry(req, o, 0); }
    if t[8].value.Some? { RowEntry(req, o, 8); }
  }

  /** With cookies, the `CURLOPT_COOKIE` entry holds the cookie string. */
  lemma CookieEntry(req: Request, o: CurlOptions)
    ensures |req.cookies| > 0 ==>
              Line(1, CookieName + " => \"" + Cookies.Header(req.cookies) + "\",") in OptionLines(req, o)
  {
    CookieEntryIn(Entries(Table(req, o)), req.cookies, HeaderBlock(req.headersObj));
  }

  lemma CookieEntryIn(e: seq<Line>, cookies: seq<Cookie>, b: seq<Line>)
    ensures |cookies| > 0 ==> Line(1, CookieName + " => \"" + Cookies.Header(cookies) + "\",") in e + CookieLines(cookies) + b
  {
    var c := CookieLines(cookies);
    if |cookies| > 0 {
      assert c[0] in c;
      InConcat(e, c, b, c[0]);
    }
  }
}

=== FILE: python_requests.dfy ===
/** The Python `requests` target: `import requests`, the URL, an optional
    query-string dict, the payload and files built from the body, the
    headers dict, then one `requests.<method>(…)` or
    `requests.request("<METHOD>", …)` call and `print(response.text)`. */
module PythonRequests {
  import opened Wrappers
  import opened OrderedObject
  import opened Har
  import opened CodeBuilder
  import Json
  import Headers
  import Text

  /** The methods `requests` offers a shortcut function for. */
  const BuiltInMethods: seq<string> := ["HEAD", "GET", "POST", "PUT", "PATCH", "DELETE", "OPTIONS"]

  /** Stand-in for `literalRepresentation`, whose source is not part of this
      model: a one-line Python literal of a parsed JSON value. */
  function Literal(v: Json.Value): string
    decreases v
  {
    match v
    case Null => "None"
    case Bool(b) => if b then "True" else "False"
    case Number(n) => Text.IntToString(n)
    case String(s) => Json.Quote(s)
    case Array(items) =>
      "[" + Text.Join(seq(|items|, i requires 0 <= i < |items| => Literal(items[i])), ", ") + "]"
    case Object(fields) =>
      "{" + Text.Join(seq(|fields|, i requires 0 <= i < |fields| =>
                            Json.Quote(fields[i].0) + ": " + Literal(fields[i].1)), ", ") + "}"
  }

  /** The value a file parameter contributes to the `files` dict. */
  function OpenFile(fileName: string): Json.Value {
    Json.String("open('" + fileName + "', 'rb')")
  }

  /** The value a plain parameter contributes to the `payload` dict; an
      undefined value becomes `None`. */
  function FieldValue(value: Option<string>): Json.Value {
    match value
    case Some(s) => Json.String(s)
    case None => Json.Null
  }

  /** What the multipart `forEach` accumulates. */
  datatype Parts = Parts(files: Obj<Json.Value>, payload: Obj<Json.Value>, hasFiles: bool, hasPayload: bool)

  predicate IsFile(p: Param) {
    Truthy(p.fileName)
  }

  /** Some parameter of `ps` is (or is not, as `file` says) a file. */
  predicate AnyOfKind(ps: seq<Param>, file: bool) {
    exists i | 0 <= i < |ps| :: IsFile(ps[i]) == file
  }

  /** Some parameter of `ps` named `k` is (or is not) a file. */
  predicate NamedOfKind(ps: seq<Param>, k: string, file: bool) {
    exists i | 0 <= i < |ps| :: ps[i].name == k && IsFile(ps[i]) == file
  }

  lemma LastParam(ps: seq<Param>)
    requires |ps| > 0
    ensures forall file :: AnyOfKind(ps, file) <==> AnyOfKind(ps[..|ps| - 1], file) || IsFile(ps[|ps| - 1]) == file
    ensures forall k, file :: NamedOfKind(ps, k, file) <==>
              NamedOfKind(ps[..|ps| - 1], k, file) || (ps[|ps| - 1].name == k && IsFile(ps[|ps| - 1]) == file)
  {
    var init := ps[..|ps| - 1];
    assert forall i :: 0 <= i < |init| ==> init[i] == ps[i];
  }

  /** The last parameter of `ps` named `k` that is (or is not) a file. */
  function LastNamed(ps: seq<Param>, k: string, file: bool): (r: Option<Param>)
    decreases |ps|
    ensures r.Some? <==> NamedOfKind(ps, k, file)
    ensures r.Some? ==> exists i | 0 <= i < |ps| :: ps[i] == r.value && r.value.name == k && IsFile(r.value) == file &&
                          forall j :: i < j < |ps| ==> !(ps[j].name == k && IsFile(ps[j]) == file)
  {
    if |ps| == 0 then None
    else
      var last := ps[|ps| - 1];
      LastParam(ps);
      if last.name == k && IsFile(last) == file then Some(last)
      else
        var r := LastNamed(ps[..|ps| - 1], k, file);
        assert forall i :: 0 <= i < |ps| - 1 ==> ps[..|ps| - 1][i] == ps[i];
        r
  }

  /** The position of the first parameter of `ps` named `k` that is (or is
      not) a file, and `|ps|` when there is none. */
  function FirstNamed(ps: seq<Param>, k: string, file: bool): (r: nat)
    decreases |ps|
    ensures r <= |ps|
    ensures r < |ps| <==> NamedOfKind(ps, k, file)
    ensures r < |ps| ==> ps[r].name == k && IsFile(ps[r]) == file
    ensures forall j :: 0 <= j < r && j < |ps| ==> !(ps[j].name == k && IsFile(ps[j]) == file)
  {
    if |ps| == 0 then 0
    else
      var n := |ps| - 1;
      var q := FirstNamed(ps[..n], k, file);
      LastParam(ps);
      assert forall j :: 0 <= j < n ==> ps[..n][j] == ps[j];
      if q < n then q
      else if ps[n].name == k && IsFile(ps[n]) == file then n
      else |ps|
  }

  /** The names of `ps`'s parameters of one kind that are not array
      indices, each once, in the order they first appear. */
  function NewNames(ps: seq<Param>, file: bool): (r: seq<string>)
    decreases |ps|
    ensures forall k :: k in r <==> NamedOfKind(ps, k, file) && !IsIndexKey(k)
    ensures forall a, b :: 0 <= a < b < |r| ==> FirstNamed(ps, r[a], file) < FirstNamed(ps, r[b], file)
  {
    if |ps| == 0 then []
    else
      var n := |ps| - 1;
      var p := ps[n];
      var r := NewNames(ps[..n], file);
      LastParam(ps);
      if IsFile(p) == file && !IsIndexKey(p.name) && !NamedOfKind(ps[..n], p.name, file) then
        assert FirstNamed(ps, p.name, file) == n;
        r + [p.name]
      else r
  }

  /** The `files` entry a file parameter leaves: `open('<fileName>', 'rb')`. */
  function FileEntry(p: Option<Param>): Option<Json.Value> {
    match p
    case None => None
    case Some(q) => Some(OpenFile(Template(q.fileName)))
  }

  /** The `payload` entry a plain parameter leaves: its value. */
  function FieldEntry(p: Option<Param>): Option<Json.Value> {
    match p
    case None => None
    case Some(q) => Some(FieldValue(q.value))
  }

  /** The multipart `forEach` over the parameters: a parameter with a file
      name goes to `files`, any other to `payload`, and of several with the
      same name the last one wins; the flags record whether either received
      anything. Both are plain JavaScript objects, so they list names that
      are array indices first, in numeric order, and the other names in
      the order they first appear. */
  function SplitParams(ps: seq<Param>): (r: Parts)
    decreases |ps|
    ensures DistinctKeys(r.files) && DistinctKeys(r.payload)
    ensures r.hasFiles <==> AnyOfKind(ps, true)
    ensures r.hasPayload <==> AnyOfKind(ps, false)
    ensures forall k :: HasKey(r.files, k) <==> NamedOfKind(ps, k, true)
    ensures forall k :: HasKey(r.payload, k) <==> NamedOfKind(ps, k, false)
    ensures forall k :: Get(r.files, k) == FileEntry(LastNamed(ps, k, true))
    ensures forall k :: Get(r.payload, k) == FieldEntry(LastNamed(ps, k, false))
    ensures JsOrdered(r.files) && JsOrdered(r.payload)
    ensures NonIndex(Keys(r.files)) == NewNames(ps, true)
    ensures NonIndex(Keys(r.payload)) == NewNames(ps, false)
  {
    if |ps| == 0 then Parts([], [], false, false)
    else
      var r := SplitParams(ps[..|ps| - 1]);
      var p := ps[|ps| - 1];
      LastParam(ps);
      if IsFile(p) then
        var v := OpenFile(p.fileName.value);
        AssignedKeys(ps, r.files, true, v);
        AssignedValues(ps, r.files, true, v);
        AssignedNames(ps, r.files, true, v);
        KindKept(ps, false);
        r.(files := Assign(r.files, p.name, v), hasFiles := true)
      else
        var v := FieldValue(p.value);
        AssignedKeys(ps, r.payload, false, v);
        AssignedValues(ps, r.payload, false, v);
        AssignedNames(ps, r.payload, false, v);
        KindKept(ps, true);
        r.(payload := Assign(r.payload, p.name, v), hasPayload := true)
  }

  /** The entry a parameter leaves in the dict of its kind. */
  function KindEntry(p: Option<Param>, file: bool): Option<Json.Value> {
    if file then FileEntry(p) else FieldEntry(p)
  }

  /** Assigning the last parameter of the dict's kind adds its name to the
      keys. */
  lemma AssignedKeys(ps: seq<Param>, o: Obj<Json.Value>, file: bool, v: Json.Value)
    requires |ps| > 0 && IsFile(ps[|ps| - 1]) == file
    requires forall k :: HasKey(o, k) <==> NamedOfKind(ps[..|ps| - 1], k, file)
    ensures forall k :: HasKey(Assign(o, ps[|ps| - 1].name, v), k) <==> NamedOfKind(ps, k, file)
  {
    LastParam(ps);
  }

  /** Assigning the last parameter of the dict's kind makes its name look
      up that parameter's entry, and every other name its old one. */
  lemma AssignedValues(ps: seq<Param>, o: Obj<Json.Value>, file: bool, v: Json.Value)
    requires |ps| > 0 && IsFile(ps[|ps| - 1]) == file
    requires v == if file then OpenFile(ps[|ps| - 1].fileName.value) else FieldValue(ps[|ps| - 1].value)
    requires forall k :: Get(o, k) == KindEntry(LastNamed(ps[..|ps| - 1], k, file), file)
    ensures forall k :: Get(Assign(o, ps[|ps| - 1].name, v), k) == KindEntry(LastNamed(ps, k, file), file)
  {
    var n := |ps| - 1;
    var p := ps[n];
    assert LastNamed(ps, p.name, file) == Some(p);
    forall k | k != p.name
      ensures LastNamed(ps, k, file) == LastNamed(ps[..n], k, file)
    {
    }
  }

  /** Assigning the last parameter of the dict's kind appends its name to
      the keys that are not array indices exactly when it is new and not an
      index. */
  lemma AssignedNames(ps: seq<Param>, o: Obj<Json.Value>, file: bool, v: Json.Value)
    requires |ps| > 0 && IsFile(ps[|ps| - 1]) == file
    requires forall k :: HasKey(o, k) <==> NamedOfKind(ps[..|ps| - 1], k, file)
    requires NonIndex(Keys(o)) == NewNames(ps[..|ps| - 1], file)
    ensures NonIndex(Keys(Assign(o, ps[|ps| - 1].name, v))) == NewNames(ps, file)
  {
  }

  /** The last parameter, of the other kind, leaves the dict alone. */
  lemma KindKept(ps: seq<Param>, file: bool)
    requires |ps| > 0 && IsFile(ps[|ps| - 1]) != file
    ensures forall k :: NamedOfKind(ps, k, file) <==> NamedOfKind(ps[..|ps| - 1], k, file)
    ensures forall k :: LastNamed(ps, k, file) == LastNamed(ps[..|ps| - 1], k, file)
    ensures NewNames(ps, file) == NewNames(ps[..|ps| - 1], file)
  {
    LastParam(ps);
  }

  /** Fields named `2` and then `1` are listed as `1`, `2`: array-index
      names come in numeric order, not in the order they were assigned. */
  lemma IndexNamesSorted()
    ensures Keys(SplitParams([Param("2", Some("a"), None, None), Param("1", Some("b"), None, None)]).payload) == ["1", "2"]
  {
    assert DecimalValue("2") == 2 && IsIndexKey("2");
    assert DecimalValue("1") == 1 && IsIndexKey("1");
    TwoIndexFields([Param("2", Some("a"), None, None), Param("1", Some("b"), None, None)]);
  }

  /** Two fields with array-index names are listed in numeric order. */
  lemma TwoIndexFields(ps: seq<Param>)
    requires |ps| == 2 && !IsFile(ps[0]) && !IsFile(ps[1])
    requires IsIndexKey(ps[0].name) && IsIndexKey(ps[1].name)
    requires DecimalValue(ps[1].name) < DecimalValue(ps[0].name)
    ensures Keys(SplitParams(ps).payload) == [ps[1].name, ps[0].name]
  {
    var r := SplitParams(ps);
    FieldNamesOfTwo(ps);
    OrderedPair(r.payload, ps[1].name, ps[0].name);
  }

  lemma FieldNamesOfTwo(ps: seq<Param>)
    requires |ps| == 2 && !IsFile(ps[0]) && !IsFile(ps[1])
    ensures forall k :: NamedOfKind(ps, k, false) <==> k == ps[1].name || k == ps[0].name
  {
    forall k | k == ps[0].name || k == ps[1].name
      ensures NamedOfKind(ps, k, false)
    {
      assert ps[if k == ps[0].name then 0 else 1].name == k;
    }
  }

  /** The outcome of the payload `switch`: the lines it pushed, its flags and
      the headers left after it. */
  datatype Payload = Payload(lines: seq<Line>, hasPayload: bool, jsonPayload: bool, hasFiles: bool, headers: Obj<string>)

  function PayloadLine(literal: string): Line {
    Line(0, "payload = " + literal)
  }

  /** The `switch (postData.mimeType)`. */
  function BuildPayload(pd: PostData, headers: Obj<string>): (p: Payload)
    requires DistinctKeys(headers)
    ensures DistinctKeys(p.headers)
    ensures p.jsonPayload <==> pd.mimeType == JsonMime && pd.jsonObj.Some? && Json.Truthy(pd.jsonObj.value)
    ensures p.jsonPayload ==> p.hasPayload && p.lines == [PayloadLine(Literal(pd.jsonObj.value))]
    ensures p.hasFiles <==> pd.mimeType == MultipartMime && pd.params.Some? && AnyOfKind(pd.params.value, true)
    ensures p.hasFiles ==> p.headers == Headers.Remove(headers, "content-type")
    ensures !p.hasFiles ==> p.headers == headers
    ensures pd.mimeType == MultipartMime && pd.params.Some? && !p.hasFiles && pd.text.Some? ==>
              p.hasPayload && p.lines == [PayloadLine(Json.Quote(pd.text.value))]
    ensures pd.mimeType != JsonMime && pd.mimeType != MultipartMime ==>
              (p.hasPayload <==> (pd.mimeType == UrlEncodedMime && pd.paramsObj.Some?) || pd.text.Some?)
  {
    if pd.mimeType == JsonMime then
      if pd.jsonObj.Some? && Json.Truthy(pd.jsonObj.value) then
        Payload([PayloadLine(Literal(pd.jsonObj.value))], true, true, false, headers)
      else
        Payload([], false, false, false, headers)
    else if pd.mimeType == MultipartMime then
      if pd.params.None? then Payload([], false, false, false, headers)
      else
        var parts := SplitParams(pd.params.value);
        if parts.hasFiles then
          // requests sets the multipart boundary itself only when files are sent
          var lines := [Line(0, "files = " + Literal(Json.Object(parts.files)))]
            + (if parts.hasPayload then [PayloadLine(Literal(Json.Object(parts.payload)))] else []);
          Payload(lines, parts.hasPayload, false, true, Headers.Remove(headers, "content-type"))
        else if pd.text.Some? then
          Payload([PayloadLine(Json.Quote(pd.text.value))], true, false, false, headers)
        else
          Payload([], parts.hasPayload, false, false, headers)
    else if pd.mimeType == UrlEncodedMime && pd.paramsObj.Some? then
      Payload([PayloadLine(Literal(Json.Object(pd.paramsObj.value)))], true, false, false, headers)
    else if pd.text.Some? then
      Payload([PayloadLine(Json.Quote(pd.text.value))], true, false, false, headers)
    else
      Payload([], false, false, false, headers)
  }

  /** One `"name": "value"` entry of the headers dict. */
  function HeaderEntry(e: (string, string)): string {
    "\"" + e.0 + "\": \"" + e.1 + "\""
  }

  /** The headers dict: nothing (a blank line when a payload or files
      precede the call), one inline entry, or one entry per line with a
      comma after every entry but the last. */
  function HeaderBlock(headers: Obj<string>, hasBody: bool): (r: seq<Line>)
    ensures |headers| == 0 ==> r == (if hasBody then [Blank] else [])
    ensures |headers| == 1 ==> r == [Line(0, "headers = {" + HeaderEntry(headers[0]) + "}"), Blank]
    ensures |headers| > 1 ==>
              && |r| == |headers| + 3
              && r[0] == Line(0, "headers = {")
              && (forall i :: 1 <= i < |headers| ==> r[i] == Line(1, HeaderEntry(headers[i - 1]) + ","))
              && r[|headers|] == Line(1, HeaderEntry(headers[|headers| - 1]))
              && r[|headers| + 1] == Line(0, "}")
              && r[|headers| + 2] == Blank
  {
    if |headers| == 0 then
      if hasBody then [Blank] else []
    else if |headers| == 1 then
      [Line(0, "headers = {" + HeaderEntry(headers[0]) + "}"), Blank]
    else
      var entries := seq(|headers|, i requires 0 <= i < |headers| => HeaderEntry(headers[i]));
      var r := Block(Line(0, "headers = {"), entries, 1, [Line(0, "}"), Blank]);
      assert r[|headers| + 1..][0] == r[|headers| + 1] && r[|headers| + 1..][1] == r[|headers| + 2];
      r
  }

  /** The keyword arguments the call may carry. */
  datatype Arg = Data(json: bool) | Files | HeadersArg | Params

  /** The fixed position of each argument kind. */
  function Rank(a: Arg): nat {
    match a
    case Data(_) => 0
    case Files => 1
    case HeadersArg => 2
    case Params => 3
  }

  function ArgText(a: Arg): string {
    match a
    case Data(json) => if json then "json=payload" else "data=payload"
    case Files => "files=files"
    case HeadersArg => "headers=headers"
    case Params => "params=querystring"
  }

  /** The arguments appended to the call: the payload (as `json=` exactly
      when it is a JSON payload), files, headers when any remain, and the
      query string when there is one — always in that order. */
  /** Whether the call carries argument `a`. */
  predicate Wanted(p: Payload, headerCount: nat, hasQuery: bool, a: Arg) {
    match a
    case Data(json) => p.hasPayload && json == p.jsonPayload
    case Files => p.hasFiles
    case HeadersArg => headerCount > 0
    case Params => hasQuery
  }

  function CallArgs(p: Payload, headerCount: nat, hasQuery: bool): (args: seq<Arg>)
    ensures forall i, j :: 0 <= i < j < |args| ==> Rank(args[i]) < Rank(args[j])
    ensures forall a :: a in args <==> Wanted(p, headerCount, hasQuery, a)
  {
    ArgsRanked(p, headerCount, hasQuery);
    ArgsMembers(p, headerCount, hasQuery);
    ArgList4(p, headerCount, hasQuery)
  }

  function Opt(present: bool, a: Arg): seq<Arg> {
    if present then [a] else []
  }

  /** The argument kinds in their fixed order, each when present. */
  function ArgList4(p: Payload, headerCount: nat, hasQuery: bool): seq<Arg> {
    Opt(p.hasPayload, Data(p.jsonPayload)) + Opt(p.hasFiles, Files) + Opt(headerCount > 0, HeadersArg) + Opt(hasQuery, Params)
  }

  lemma ArgsMembers(p: Payload, headerCount: nat, hasQuery: bool)
    ensures forall a :: a in ArgList4(p, headerCount, hasQuery) <==> Wanted(p, headerCount, hasQuery, a)
  {
  }

  /** Arguments in strictly increasing rank, each below `n`. */
  predicate RankedBelow(args: seq<Arg>, n: nat) {
    && (forall i, j :: 0 <= i < j < |args| ==> Rank(args[i]) < Rank(args[j]))
    && (forall i :: 0 <= i < |args| ==> Rank(args[i]) < n)
  }

  lemma AddRanked(args: seq<Arg>, a: Arg, present: bool)
    requires RankedBelow(args, Rank(a))
    ensures RankedBelow(args + Opt(present, a), Rank(a) + 1)
  {
  }

  lemma ArgsRanked(p: Payload, headerCount: nat, hasQuery: bool)
    ensures RankedBelow(ArgList4(p, headerCount, hasQuery), 4)
  {
    var a1 := Opt(p.hasPayload, Data(p.jsonPayload));
    AddRanked([], Data(p.jsonPayload), p.hasPayload);
    assert [] + a1 == a1;
    AddRanked(a1, Files, p.hasFiles);
    var a2 := a1 + Opt(p.hasFiles, Files);
    AddRanked(a2, HeadersArg, headerCount > 0);
    var a3 := a2 + Opt(headerCount > 0, HeadersArg);
    AddRanked(a3, Params, hasQuery);
  }

  /** The generic entry point, used for every method without a shortcut. */
  const GenericCall := "response = requests.request(\""

  /** The start of a shortcut call, before the function's name. */
  const Shortcut := "response = requests."

  /** The start of the call: the shortcut function for a built-in method,
      `requests.request` with the method spelled out otherwise. */
  function CallHead(httpMethod: string): string {
    if httpMethod in BuiltInMethods then Shortcut + Text.Lower(httpMethod) + "(url"
    else GenericCall + httpMethod + "\", url"
  }

  function ArgList(args: seq<Arg>): string {
    if |args| == 0 then "" else ", " + ArgText(args[0]) + ArgList(args[1..])
  }

  function CallLine(httpMethod: string, args: seq<Arg>): string {
    CallHead(httpMethod) + ArgList(args) + ")"
  }

  function QueryLines(queryObj: Obj<Json.Value>): seq<Line> {
    if |queryObj| > 0 then [Line(0, "querystring = " + Json.Stringify(Json.Object(queryObj))), Blank] else []
  }

  /** The arguments of the call `convert` emits for `req`. */
  function Arguments(req: Request): seq<Arg>
    requires WellFormed(req)
  {
    var p := BuildPayload(req.postData, req.allHeaders);
    CallArgs(p, |p.headers|, |req.queryObj| > 0)
  }

  /** The fixed frame of every snippet around the generated `body`: the
      import and the url first, the call and the print last. */
  function Frame(url: string, body: seq<Line>, call: string): (lines: seq<Line>)
    ensures |lines| == |body| + 7
    ensures lines[0] == Line(0, "import requests") && lines[1] == Blank
    ensures lines[2] == Line(0, "url = \"" + url + "\"") && lines[3] == Blank
    ensures lines[4..|lines| - 3] == body
    ensures lines[|lines| - 3] == Line(0, call)
    ensures lines[|lines| - 2] == Blank
    ensures lines[|lines| - 1] == Line(0, "print(response.text)")
  {
    var head := [Line(0, "import requests"), Blank, Line(0, "url = \"" + url + "\""), Blank];
    var tail := [Line(0, call), Blank, Line(0, "print(response.text)")];
    var lines := head + body + tail;
    assert lines[4..|lines| - 3] == body;
    lines
  }

  /** The lines between the url and the call: query string, payload, headers. */
  function Body(req: Request): seq<Line>
    requires WellFormed(req)
  {
    var p := BuildPayload(req.postData, req.allHeaders);
    QueryLines(req.queryObj) + p.lines + HeaderBlock(p.headers, p.hasPayload || p.hasFiles)
  }

  /** `requests.convert`. */
  function Convert(req: Request): (lines: seq<Line>)
    requires WellFormed(req)
    ensures |lines| == |Body(req)| + 7
    ensures lines[0] == Line(0, "import requests") && lines[1] == Blank
    ensures lines[2] == Line(0, "url = \"" + req.url + "\"") && lines[3] == Blank
    ensures lines[4..|lines| - 3] == Body(req)
    ensures lines[|lines| - 3] == Line(0, CallLine(req.httpMethod, Arguments(req)))
    ensures lines[|lines| - 2] == Blank
    ensures lines[|lines| - 1] == Line(0, "print(response.text)")
  {
    Frame(req.url, Body(req), CallLine(req.httpMethod, Arguments(req)))
  }

  /** The call's arguments in terms of the request: `json=payload` exactly
      for a truthy JSON body, `files=files` exactly for a multipart body with
      a file part, `params=querystring` exactly for a non-empty query.
      `headers=headers` needs some header, comes with any header other than
      the content type, and without files comes exactly when there are
      headers (with files, a lone content-type header is dropped). */
  lemma ArgumentsOfRequest(req: Request)
    requires WellFormed(req)
    ensures Data(true) in Arguments(req) <==>
              req.postData.mimeType == JsonMime && req.postData.jsonObj.Some? && Json.Truthy(req.postData.jsonObj.value)
    ensures Files in Arguments(req) <==>
              req.postData.mimeType == MultipartMime && req.postData.params.Some? && AnyOfKind(req.postData.params.value, true)
    ensures Params in Arguments(req) <==> |req.queryObj| > 0
    ensures HeadersArg in Arguments(req) ==> |req.allHeaders| > 0
    ensures (exists i | 0 <= i < |req.allHeaders| :: !Headers.SameName(req.allHeaders[i].0, "content-type")) ==>
              HeadersArg in Arguments(req)
    ensures !(Files in Arguments(req)) ==> (HeadersArg in Arguments(req) <==> |req.allHeaders| > 0)
    ensures forall i, j :: 0 <= i < j < |Arguments(req)| ==> Rank(Arguments(req)[i]) < Rank(Arguments(req)[j])
  {
    var p := BuildPayload(req.postData, req.allHeaders);
    assert Arguments(req) == CallArgs(p, |p.headers|, |req.queryObj| > 0);
    assert Wanted(p, |p.headers|, |req.queryObj| > 0, Data(true)) <==> p.hasPayload && p.jsonPayload;
    HeadersArgument(req);
  }

  /** The `headers=headers` facts of `ArgumentsOfRequest`. */
  lemma HeadersArgument(req: Request)
    requires WellFormed(req)
    ensures HeadersArg in Arguments(req) ==> |req.allHeaders| > 0
    ensures (exists i | 0 <= i < |req.allHeaders| :: !Headers.SameName(req.allHeaders[i].0, "content-type")) ==>
              HeadersArg in Arguments(req)
    ensures !(Files in Arguments(req)) ==> (HeadersArg in Arguments(req) <==> |req.allHeaders| > 0)
  {
    var p := BuildPayload(req.postData, req.allHeaders);
    assert Arguments(req) == CallArgs(p, |p.headers|, |req.queryObj| > 0);
    assert HeadersArg in Arguments(req) <==> |p.headers| > 0;
    assert |p.headers| <= |req.allHeaders|;
    if exists i | 0 <= i < |req.allHeaders| :: !Headers.SameName(req.allHeaders[i].0, "content-type") {
      var i :| 0 <= i < |req.allHeaders| && !Headers.SameName(req.allHeaders[i].0, "content-type");
      assert req.allHeaders[i] in p.headers;
    }
  }

  /** Each of the seven built-in methods calls its own shortcut function.
      The membership test is case-sensitive, so a lower-case `get` goes
      through `requests.request`. The generic entry point is used exactly for
      the methods outside the list. */
  lemma MethodDispatch(m: string)
    ensures CallHead("GET") == Shortcut + "get" + "(url"
    ensures CallHead("HEAD") == Shortcut + "head" + "(url"
    ensures CallHead("POST") == Shortcut + "post" + "(url"
    ensures CallHead("PUT") == Shortcut + "put" + "(url"
    ensures CallHead("PATCH") == Shortcut + "patch" + "(url"
    ensures CallHead("DELETE") == Shortcut + "delete" + "(url"
    ensures CallHead("OPTIONS") == Shortcut + "options" + "(url"
    ensures CallHead("get") == GenericCall + "get" + "\", url"
    ensures Text.OccursAt(CallHead(m), GenericCall, 0) <==> m !in BuiltInMethods
  {
    ShortcutHeads();
    if m in BuiltInMethods {
      ShortcutNotGeneric(m);
    } else {
      assert CallHead(m)[..|GenericCall|] == GenericCall;
    }
  }

  lemma ShortcutHeads()
    ensures CallHead("GET") == Shortcut + "get" + "(url"
    ensures CallHead("HEAD") == Shortcut + "head" + "(url"
    ensures CallHead("POST") == Shortcut + "post" + "(url"
    ensures CallHead("PUT") == Shortcut + "put" + "(url"
    ensures CallHead("PATCH") == Shortcut + "patch" + "(url"
    ensures CallHead("DELETE") == Shortcut + "delete" + "(url"
    ensures CallHead("OPTIONS") == Shortcut + "options" + "(url"
    ensures CallHead("get") == GenericCall + "get" + "\", url"
  {
    ShortcutsAreLower();
    assert BuiltInMethods[0] == "HEAD" && BuiltInMethods[1] == "GET" && BuiltInMethods[2] == "POST";
    assert BuiltInMethods[3] == "PUT" && BuiltInMethods[4] == "PATCH" && BuiltInMethods[5] == "DELETE";
    assert BuiltInMethods[6] == "OPTIONS";
    assert "get" !in BuiltInMethods;
  }

  lemma ShortcutsAreLower()
    ensures Text.Lower("GET") == "get" && Text.Lower("HEAD") == "head" && Text.Lower("POST") == "post"
    ensures Text.Lower("PUT") == "put" && Text.Lower("PATCH") == "patch"
    ensures Text.Lower("DELETE") == "delete" && Text.Lower("OPTIONS") == "options"
  {
  }

  /** A shortcut call does not start like the generic one: the character
      after `requests.` is the method's first letter, never an `r`. */
  lemma ShortcutNotGeneric(m: string)
    requires m in BuiltInMethods
    ensures !Text.OccursAt(CallHead(m), GenericCall, 0)
  {
    var t := CallHead(m);
    assert |m| > 0 && m[0] != 'R' && m[0] != 'r';
    assert t == Shortcut + Text.Lower(m) + "(url";
    assert t[20] == Text.LowerChar(m[0]) != 'r';
    if |t| >= |GenericCall| {
      assert t[..|GenericCall|][20] != GenericCall[20];
    }
  }

  /** The request of the `headers` fixture: a GET with three headers and no
      body. */
  const FixtureUrl := "http://mockbin.com/har"

  /** `response = requests.get(url, headers=headers)`. */
  const FixtureCall := "response = requests." + "get" + "(url" + (", " + "headers=headers") + ")"

  const HeadersFixture := Request(
    "GET", FixtureUrl, FixtureUrl, "HTTP/1.1", None,
    [], [("accept", "application/json"), ("x-foo", "Bar"), ("x-bar", "Foo")],
    [("accept", "application/json"), ("x-foo", "Bar"), ("x-bar", "Foo")], [],
    PostData("application/octet-stream", None, None, None, None))

  lemma LowerGet()
    ensures Text.Lower("GET") == "get"
  {
    var l := Text.Lower("GET");
    assert l[0] == 'g' && l[1] == 'e' && l[2] == 't';
  }

  lemma HeadersFixtureArguments()
    ensures WellFormed(HeadersFixture)
    ensures Arguments(HeadersFixture) == [HeadersArg]
  {
    var req := HeadersFixture;
    assert req.postData.mimeType != JsonMime && req.postData.mimeType != MultipartMime;
    assert req.postData.mimeType != UrlEncodedMime;
    var p := BuildPayload(req.postData, req.allHeaders);
    assert !p.hasPayload && !p.hasFiles && |p.headers| == 3;
  }

  lemma GetCallLine()
    ensures CallLine("GET", [HeadersArg]) == FixtureCall
  {
    assert "GET" in BuiltInMethods by {
      assert BuiltInMethods[1] == "GET";
    }
    LowerGet();
    assert ArgList([HeadersArg][1..]) == "";
  }

  lemma HeadersFixturePayload()
    ensures BuildPayload(HeadersFixture.postData, HeadersFixture.allHeaders) == Payload([], false, false, false, HeadersFixture.allHeaders)
  {
    var req := HeadersFixture;
    assert req.postData.mimeType != JsonMime && req.postData.mimeType != MultipartMime;
    assert req.postData.mimeType != UrlEncodedMime;
  }

  lemma HeadersFixtureBlock()
    ensures HeaderBlock(HeadersFixture.allHeaders, false) == HeadersFixtureBodyLines
  {
    var b := HeaderBlock(HeadersFixture.allHeaders, false);
    assert |b| == 6;
    assert forall i :: 0 <= i < 6 ==> b[i] == HeadersFixtureBodyLines[i];
  }

  lemma HeadersFixtureBody()
    ensures WellFormed(HeadersFixture)
    ensures Body(HeadersFixture) == HeadersFixtureBodyLines
  {
    HeadersFixturePayload();
    HeadersFixtureBlock();
    assert QueryLines(HeadersFixture.queryObj) == [];
  }

  /** The fixture's `headers` dict, one `"name": "value"` entry per line. */
  const HeadersFixtureBodyLines: seq<Line> := [
    Line(0, "headers = {"),
    Line(1, "\"" + "accept" + "\": \"" + "application/json" + "\"" + ","),
    Line(1, "\"" + "x-foo" + "\": \"" + "Bar" + "\"" + ","),
    Line(1, "\"" + "x-bar" + "\": \"" + "Foo" + "\""),
    Line(0, "}"), Blank]

  const HeadersFixtureHead: seq<Line> := [
    Line(0, "import requests"), Blank,
    Line(0, "url = \"" + FixtureUrl + "\""), Blank]

  const HeadersFixtureTail: seq<Line> := [
    Line(0, FixtureCall), Blank,
    Line(0, "print(response.text)")]

  /** The fixture `fixtures/headers.py`, line by line. */
  const HeadersFixtureOutput: seq<Line> := HeadersFixtureHead + HeadersFixtureBodyLines + HeadersFixtureTail

  lemma HeadersFixtureFrame()
    ensures Frame(FixtureUrl, HeadersFixtureBodyLines, FixtureCall)
            == HeadersFixtureOutput
  {
    var lines := Frame(FixtureUrl, HeadersFixtureBodyLines, FixtureCall);
    assert lines[..4] == HeadersFixtureHead;
    assert lines[10..] == HeadersFixtureTail;
    assert lines == lines[..4] + lines[4..10] + lines[10..];
  }

  /** `convert` on the fixture request yields the fixture's lines. */
  lemma HeadersFixtureLines()
    ensures WellFormed(HeadersFixture)
    ensures Convert(HeadersFixture) == HeadersFixtureOutput
  {
    HeadersFixtureArguments();
    GetCallLine();
    HeadersFixtureBody();
    HeadersFixtureFrame();
  }
}

=== FILE: restsharp.dfy ===
/** The C# RestSharp target: a whitelist check on the method, then a client,
    a request, one `AddHeader` per header, one `AddCookie` per cookie, the
    body as a request-body parameter, and the `Execute` call. */
module RestSharp {
  import opened Wrappers
  import opened OrderedObject
  import opened Har
  import opened CodeBuilder
  import Json
  import Headers
  import Text

  /** The methods RestSharp's `Method` enumeration offers. */
  const Supported: seq<string> := ["GET", "POST", "PUT", "DELETE", "PATCH", "HEAD", "OPTIONS"]

  predicate IsSupported(httpMethod: string) {
    Text.Upper(httpMethod) in Supported
  }

  /** Upper-casing ignores how the method was spelled. */
  lemma UpperIgnoresCase(s: string)
    ensures Text.Upper(Text.Lower(s)) == Text.Upper(s)
    ensures Text.Upper(Text.Upper(s)) == Text.Upper(s)
  {
  }

  /** The whitelist check is case-insensitive. */
  lemma SupportIgnoresCase(httpMethod: string)
    ensures IsSupported(Text.Lower(httpMethod)) <==> IsSupported(httpMethod)
    ensures IsSupported(Text.Upper(httpMethod)) <==> IsSupported(httpMethod)
  {
    UpperIgnoresCase(httpMethod);
  }

  const Unsupported := "Method not supported"
  const ExecuteLine := Line(0, "IRestResponse response = client.Execute(request);")

  function ClientLine(fullUrl: string): Line {
    Line(0, "var client = new RestClient(\"" + fullUrl + "\");")
  }

  /** The request, with the method upper-cased into the enumeration. */
  function RequestLine(httpMethod: string): Line {
    Line(0, "var request = new RestRequest(Method." + Text.Upper(httpMethod) + ");")
  }

  function AddHeader(name: string, value: string): string {
    "request.AddHeader(\"" + name + "\", \"" + value + "\");"
  }

  function AddCookie(c: Cookie): string {
    "request.AddCookie(\"" + c.name + "\", \"" + c.value + "\");"
  }

  /** One `AddHeader` per key of the header object, in key order, with the
      value `headersObj[key]`. */
  function HeaderLines(h: Obj<string>): (r: seq<Line>)
    ensures |r| == |h|
    ensures DistinctKeys(h) ==> forall i :: 0 <= i < |h| ==> r[i] == Line(0, AddHeader(h[i].0, h[i].1))
  {
    var r := seq(|h|, i requires 0 <= i < |h| => Line(0, AddHeader(h[i].0, Template(Get(h, h[i].0)))));
    assert DistinctKeys(h) ==> forall i :: 0 <= i < |h| ==> r[i] == Line(0, AddHeader(h[i].0, h[i].1)) by {
      if DistinctKeys(h) {
        forall i | 0 <= i < |h| ensures r[i] == Line(0, AddHeader(h[i].0, h[i].1)) {
          GetEntry(h, i);
        }
      }
    }
    r
  }

  function CookieLines(cookies: seq<Cookie>): (r: seq<Line>)
    ensures |r| == |cookies|
    ensures forall i :: 0 <= i < |cookies| ==> r[i] == Line(0, AddCookie(cookies[i]))
  {
    seq(|cookies|, i requires 0 <= i < |cookies| => Line(0, AddCookie(cookies[i])))
  }

  /** The C# call that adds the body as a request-body parameter. */
  function AddParameter(contentType: string, literal: string): string {
    ParameterHead(contentType) + literal + ParameterTail
  }

  function ParameterHead(contentType: string): string {
    "request.AddParameter(\"" + contentType + "\", "
  }

  const ParameterTail := ", ParameterType.RequestBody);"

  /** The body parameter: only for a non-empty body, named after the
      request's content type (`undefined` without one), with the body as a
      JSON string literal. */
  function BodyLines(req: Request): (r: seq<Line>)
    ensures |r| == (if Truthy(req.postData.text) then 1 else 0)
    ensures Truthy(req.postData.text) ==>
              r[0] == Line(0, AddParameter(Template(Headers.ValueOf(req.allHeaders, "content-type")),
                                           Json.Quote(req.postData.text.value)))
  {
    if Truthy(req.postData.text) then
      var header := Template(Headers.ValueOf(req.allHeaders, "content-type"));
      [Line(0, AddParameter(header, Json.Quote(req.postData.text.value)))]
    else []
  }

  /** The body line reads back: between the fixed start and end of the
      `AddParameter` call stands a JSON string literal that parses to the
      body text. */
  lemma BodyReadsBack(req: Request)
    requires Truthy(req.postData.text)
    ensures var head := ParameterHead(Template(Headers.ValueOf(req.allHeaders, "content-type")));
            var t := BodyLines(req)[0].text;
            && |head| + |ParameterTail| <= |t|
            && t[..|head|] == head
            && t[|t| - |ParameterTail|..] == ParameterTail
            && Json.Unquote(t[|head|..|t| - |ParameterTail|]) == Some(req.postData.text.value)
  {
    var head := ParameterHead(Template(Headers.ValueOf(req.allHeaders, "content-type")));
    var q := Json.Quote(req.postData.text.value);
    var t := BodyLines(req)[0].text;
    assert t == head + q + ParameterTail;
    assert t[|head|..|t| - |ParameterTail|] == q;
    Json.QuoteRoundTrip(req.postData.text.value);
  }

  function ParameterLine(req: Request): Line
    requires Truthy(req.postData.text)
  {
    BodyLines(req)[0]
  }

  /** The snippet for a supported method, around its header, cookie and body
      lines. */
  function Frame(fullUrl: string, httpMethod: string, hs: seq<Line>, cs: seq<Line>, body: seq<Line>): (lines: seq<Line>)
    ensures |lines| == |hs| + |cs| + |body| + 3
    ensures lines[0] == ClientLine(fullUrl)
    ensures lines[1] == RequestLine(httpMethod)
    ensures lines[2..2 + |hs|] == hs
    ensures lines[2 + |hs|..2 + |hs| + |cs|] == cs
    ensures lines[2 + |hs| + |cs|..|lines| - 1] == body
    ensures lines[|lines| - 1] == ExecuteLine
  {
    var head := [ClientLine(fullUrl), RequestLine(httpMethod)];
    var lines := head + hs + cs + body + [ExecuteLine];
    Middle(head, hs, cs + body + [ExecuteLine]);
    Middle(head + hs, cs, body + [ExecuteLine]);
    Middle(head + hs + cs, body, [ExecuteLine]);
    lines
  }

  /** The snippet for a supported method: the client and request, an
      `AddHeader` line per header in key order, an `AddCookie` line per
      cookie in list order, the body parameter exactly for a non-empty body,
      and `Execute` last. */
  function Snippet(req: Request): (lines: seq<Line>)
    ensures |lines| == |req.headersObj| + |req.cookies| + 3 + (if Truthy(req.postData.text) then 1 else 0)
    ensures lines[0] == ClientLine(req.fullUrl)
    ensures lines[1] == RequestLine(req.httpMethod)
    ensures lines[2..2 + |req.headersObj|] == HeaderLines(req.headersObj)
    ensures lines[2 + |req.headersObj|..2 + |req.headersObj| + |req.cookies|] == CookieLines(req.cookies)
    ensures Truthy(req.postData.text) ==> lines[|lines| - 2] == ParameterLine(req)
    ensures lines[|lines| - 1] == ExecuteLine
  {
    var hs, cs, body := HeaderLines(req.headersObj), CookieLines(req.cookies), BodyLines(req);
    var lines := Frame(req.fullUrl, req.httpMethod, hs, cs, body);
    assert Truthy(req.postData.text) ==> lines[|lines| - 2] == lines[2 + |hs| + |cs|..|lines| - 1][0];
    lines
  }

  /** `restsharp.convert`: exactly the refusal for a method outside the
      whitelist, the snippet otherwise. */
  function Convert(req: Request): (lines: seq<Line>)
    ensures !IsSupported(req.httpMethod) <==> lines == [Line(0, Unsupported)]
    ensures IsSupported(req.httpMethod) ==> |lines| >= 3 && lines[|lines| - 1] == ExecuteLine
  {
    if !IsSupported(req.httpMethod) then [Line(0, Unsupported)] else Snippet(req)
  }
}

=== FILE: sorting.dfy ===
/** The default `Array.prototype.sort()` on strings: ascending
    lexicographic order of character codes, a proper prefix first. */
module Sorting {

  /** `a` sorts no later than `b`. */
  predicate Below(a: string, b: string)
    decreases |a|
  {
    |a| == 0 || (|b| > 0 && (a[0] < b[0] || (a[0] == b[0] && Below(a[1..], b[1..]))))
  }

  lemma {:induction false} BelowTotal(a: string, b: string)
    ensures Below(a, b) || Below(b, a)
    decreases |a|
  {
    if |a| > 0 && |b| > 0 && a[0] == b[0] {
      BelowTotal(a[1..], b[1..]);
    }
  }

  lemma {:induction false} BelowTransitive(a: string, b: string, c: string)
    requires Below(a, b) && Below(b, c)
    ensures Below(a, c)
    decreases |a|
  {
    if |a| > 0 && a[0] == b[0] && b[0] == c[0] {
      BelowTransitive(a[1..], b[1..], c[1..]);
    }
  }

  lemma {:induction false} BelowAntisymmetric(a: string, b: string)
    requires Below(a, b) && Below(b, a)
    ensures a == b
    decreases |a|
  {
    if |a| > 0 {
      BelowAntisymmetric(a[1..], b[1..]);
      assert a == [a[0]] + a[1..];
      assert b == [b[0]] + b[1..];
    }
  }

  predicate Sorted(s: seq<string>) {
    forall i, j :: 0 <= i < j < |s| ==> Below(s[i], s[j])
  }

  lemma ConsSorted(x: string, s: seq<string>)
    requires Sorted(s)
    requires forall j :: 0 <= j < |s| ==> Below(x, s[j])
    ensures Sorted([x] + s)
  {
    var r := [x] + s;
    forall i, j | 0 <= i < j < |r| ensures Below(r[i], r[j]) {
      if i > 0 {
        assert r[i] == s[i - 1] && r[j] == s[j - 1];
      }
    }
  }

  lemma HeadBelowAll(x: string, s: seq<string>)
    requires Sorted(s) && |s| > 0 && Below(x, s[0])
    ensures forall j :: 0 <= j < |s| ==> Below(x, s[j])
  {
    forall j | 0 < j < |s| ensures Below(x, s[j]) {
      BelowTransitive(x, s[0], s[j]);
    }
  }

  /** Every element of `tail`, being `x` or an element after `s[0]`, sorts
      no earlier than `s[0]`. */
  lemma InsertLowerBound(x: string, s: seq<string>, tail: seq<string>)
    requires Sorted(s) && |s| > 0 && Below(s[0], x)
    requires multiset(tail) == multiset(s[1..]) + multiset{x}
    ensures forall j :: 0 <= j < |tail| ==> Below(s[0], tail[j])
  {
    forall j | 0 <= j < |tail| ensures Below(s[0], tail[j]) {
      var y := tail[j];
      assert y in multiset(tail);
      if y != x {
        assert y in multiset(s[1..]);
        var k :| 0 <= k < |s[1..]| && s[1..][k] == y;
        assert s[k + 1] == y;
      }
    }
  }

  /** Places `x` in front of the first element it sorts no later than. */
  function Insert(x: string, s: seq<string>): (r: seq<string>)
    requires Sorted(s)
    ensures Sorted(r)
    ensures multiset(r) == multiset(s) + multiset{x}
  {
    if |s| == 0 then [x]
    else if Below(x, s[0]) then
      HeadBelowAll(x, s);
      ConsSorted(x, s);
      [x] + s
    else
      var tail := Insert(x, s[1..]);
      BelowTotal(x, s[0]);
      InsertLowerBound(x, s, tail);
      ConsSorted(s[0], tail);
      assert s == [s[0]] + s[1..];
      [s[0]] + tail
  }

  /** Insertion sort: the ascending permutation of `s`. */
  function Sort(s: seq<string>): (r: seq<string>)
    ensures Sorted(r)
    ensures multiset(r) == multiset(s)
  {
    if |s| == 0 then []
    else
      assert s == s[..|s| - 1] + [s[|s| - 1]];
      Insert(s[|s| - 1], Sort(s[..|s| - 1]))
  }

  /** The first element of a sorted sequence sorts no later than any of its
      elements. */
  lemma FirstBelow(b: seq<string>, x: string)
    requires Sorted(b) && x in b
    ensures Below(b[0], x)
  {
    var i :| 0 <= i < |b| && b[i] == x;
    if i == 0 {
      BelowTotal(x, x);
    }
  }

  /** Two sorted sequences holding the same strings start alike. */
  lemma HeadsEqual(a: seq<string>, b: seq<string>)
    requires Sorted(a) && Sorted(b) && |a| > 0
    requires multiset(a) == multiset(b)
    ensures |b| > 0 && a[0] == b[0]
  {
    assert a[0] in multiset(b);
    assert b[0] in multiset(a);
    FirstBelow(b, a[0]);
    FirstBelow(a, b[0]);
    BelowAntisymmetric(a[0], b[0]);
  }

  lemma TailMultiset(a: seq<string>)
    requires |a| > 0
    ensures multiset(a[1..]) == multiset(a) - multiset{a[0]}
  {
    assert a == [a[0]] + a[1..];
  }

  /** Sorting is determined by the multiset of its input: two sorted
      sequences holding the same strings are equal. */
  lemma {:induction false} SortedUnique(a: seq<string>, b: seq<string>)
    requires Sorted(a) && Sorted(b)
    requires multiset(a) == multiset(b)
    ensures a == b
    decreases |a|
  {
    if |a| == 0 {
      assert |b| == |multiset(b)| == 0;
    } else {
      HeadsEqual(a, b);
      TailMultiset(a);
      TailMultiset(b);
      SortedUnique(a[1..], b[1..]);
      assert a == [a[0]] + a[1..];
      assert b == [b[0]] + b[1..];
    }
  }
}

=== FILE: text.dfy ===
/** String helpers shared by the converters: ASCII case mapping, joining,
    decimal rendering and first-occurrence replacement (the semantics of
    JavaScript's `String.prototype.replace` with a non-global pattern). */
module Text {
  import opened Wrappers

  function LowerChar(c: char): char {
    if 'A' <= c <= 'Z' then (c as int + 32) as char else c
  }

  function UpperChar(c: char): char {
    if 'a' <= c <= 'z' then (c as int - 32) as char else c
  }

  /** `toLowerCase`, restricted to the ASCII letters. */
  function Lower(s: string): string {
    seq(|s|, i requires 0 <= i < |s| => LowerChar(s[i]))
  }

  /** `toUpperCase`, restricted to the ASCII letters. */
  function Upper(s: string): string {
    seq(|s|, i requires 0 <= i < |s| => UpperChar(s[i]))
  }

  /** `parts.join(sep)`. */
  function Join(parts: seq<string>, sep: string): string
    decreases |parts|
  {
    if |parts| == 0 then ""
    else if |parts| == 1 then parts[0]
    else parts[0] + sep + Join(parts[1..], sep)
  }

  /** `s.repeat(n)`. */
  function Repeat(s: string, n: nat): string {
    if n == 0 then "" else s + Repeat(s, n - 1)
  }

  function Digit(d: nat): char
    requires d < 10
  {
    "0123456789"[d]
  }

  /** The hexadecimal digit for `d`, in upper or lower case. */
  function HexDigit(d: nat, upper: bool): char
    requires d < 16
  {
    if upper then "0123456789ABCDEF"[d] else "0123456789abcdef"[d]
  }

  /** The value of a hexadecimal digit of either case. */
  function HexValue(c: char): (r: Option<nat>)
    ensures r.Some? ==> r.value < 16
  {
    if '0' <= c <= '9' then Some(c as int - '0' as int)
    else if 'a' <= c <= 'f' then Some(c as int - 'a' as int + 10)
    else if 'A' <= c <= 'F' then Some(c as int - 'A' as int + 10)
    else None
  }

  lemma HexValueOfDigit(d: nat, upper: bool)
    requires d < 16
    ensures HexValue(HexDigit(d, upper)) == Some(d)
  {
  }

  function NatToString(n: nat): string
    decreases n
  {
    if n < 10 then [Digit(n)] else NatToString(n / 10) + [Digit(n % 10)]
  }

  /** `${n}` of an integral JavaScript number. */
  function IntToString(n: int): string {
    if n < 0 then "-" + NatToString(-n) else NatToString(n)
  }

  /** The pattern `p` occurs in `s` starting at index `i`. */
  predicate OccursAt(s: string, p: string, i: int) {
    0 <= i && i + |p| <= |s| && s[i..i + |p|] == p
  }

  predicate Contains(s: string, p: string) {
    exists i | 0 <= i <= |s| :: OccursAt(s, p, i)
  }

  /** The first index at or after `from` where `p` occurs in `s`. */
  function FindFrom(s: string, p: string, from: nat): (r: Option<nat>)
    decreases |s| - from
    ensures r.Some? ==> from <= r.value && OccursAt(s, p, r.value)
    ensures r.Some? ==> forall j :: from <= j < r.value ==> !OccursAt(s, p, j)
    ensures r.None? ==> forall j :: from <= j ==> !OccursAt(s, p, j)
  {
    if from + |p| > |s| then None
    else if s[from..from + |p|] == p then Some(from)
    else FindFrom(s, p, from + 1)
  }

  /** `s.replace(p, r)` with a literal, non-global pattern: only the first
      occurrence of `p` is replaced; without one `s` is returned unchanged. */
  function ReplaceFirst(s: string, p: string, r: string): string {
    match FindFrom(s, p, 0)
    case None => s
    case Some(i) => s[..i] + r + s[i + |p|..]
  }

  /** Replacing the first occurrence changes the length by the difference
      of the two texts. */
  lemma ReplaceFirstLength(s: string, p: string, r: string)
    requires Contains(s, p)
    ensures |ReplaceFirst(s, p, r)| == |s| - |p| + |r|
  {
    var k :| 0 <= k <= |s| && OccursAt(s, p, k);
    assert FindFrom(s, p, 0).Some?;
  }

  /** Replacing with a text of another length leaves a string unchanged
      exactly when the pattern does not occur in it. */
  lemma ReplaceFirstUnchanged(s: string, p: string, r: string)
    requires |p| != |r|
    ensures ReplaceFirst(s, p, r) == s <==> !Contains(s, p)
  {
    match FindFrom(s, p, 0)
    case None =>
    case Some(i) =>
      assert |ReplaceFirst(s, p, r)| == |s| - |p| + |r|;
      assert OccursAt(s, p, i);
  }

  /** When `p` occurs neither in `a` nor across its last character, the
      occurrence after `a` is the first one in `a + p + b`, and it is the one
      replaced. */
  lemma ReplaceAfter(a: string, p: string, b: string, r: string)
    requires |a| > 0 && forall k :: 0 <= k < |p| ==> p[k] != a[|a| - 1]
    requires !Contains(a, p)
    ensures ReplaceFirst(a + p + b, p, r) == a + r + b
  {
    var s := a + p + b;
    assert s == a + (p + b);
    assert s[|a|..|a| + |p|] == p;
    assert OccursAt(s, p, |a|);
    forall j | 0 <= j < |a|
      ensures !OccursAt(s, p, j)
    {
      if j + |p| <= |a| {
        OccursInPrefix(a, p + b, p, j);
      } else {
        assert s[j..j + |p|][|a| - 1 - j] == a[|a| - 1];
      }
    }
    FindFirst(s, p, |a|);
    assert s[..|a|] == a;
    assert s[|a| + |p|..] == b;
  }

  /** Replacing the first `p` in `a + p + b` gives `a + r + b` when the
      result nowhere holds `p` and `p` cannot begin inside `a`. */
  lemma ReplaceBetween(a: string, p: string, b: string, r: string)
    requires |a| > 0 && forall k :: 0 <= k < |p| ==> p[k] != a[|a| - 1]
    requires !Contains(a + r + b, p)
    ensures ReplaceFirst(a + p + b, p, r) == a + r + b
  {
    ContainsBefore(a, r, p);
    ContainsBefore(a + r, b, p);
    ReplaceAfter(a, p, b, r);
  }

  /** An occurrence that ends within `a` is the same in `a + b`. */
  lemma OccursInPrefix(a: string, b: string, p: string, j: int)
    requires 0 <= j && j + |p| <= |a|
    ensures OccursAt(a + b, p, j) <==> OccursAt(a, p, j)
  {
    assert (a + b)[j..j + |p|] == a[j..j + |p|];
  }

  /** The first occurrence is the one the search finds. */
  lemma FindFirst(s: string, p: string, i: nat)
    requires OccursAt(s, p, i)
    requires forall j :: 0 <= j < i ==> !OccursAt(s, p, j)
    ensures FindFrom(s, p, 0) == Some(i)
  {
  }

  /** When the pattern already occurs in a prefix, replacing the first
      occurrence leaves everything after that prefix untouched. */
  lemma ReplaceFirstInPrefix(a: string, b: string, p: string, r: string)
    requires Contains(a, p)
    ensures ReplaceFirst(a + b, p, r) == ReplaceFirst(a, p, r) + b
  {
    var k :| 0 <= k <= |a| && OccursAt(a, p, k);
    OccursInPrefix(a, b, p, k);
    var found := FindFrom(a + b, p, 0);
    assert found.Some?;
    var i := found.value;
    assert i <= k;
    OccursInPrefix(a, b, p, i);
    forall j | 0 <= j < i
      ensures !OccursAt(a, p, j)
    {
      OccursInPrefix(a, b, p, j);
    }
    FindFirst(a, p, i);
    SplitAround(a, b, i, i + |p|, r);
  }

  lemma SplitAround(a: string, b: string, i: nat, e: nat, r: string)
    requires i <= e <= |a|
    ensures (a + b)[..i] + r + (a + b)[e..] == a[..i] + r + a[e..] + b
  {
    assert (a + b)[..i] == a[..i];
    assert (a + b)[e..] == a[e..] + b;
  }

  /** `s.split(sep)` for a non-empty separator. */
  function Split(s: string, sep: string): (parts: seq<string>)
    requires |sep| > 0
    ensures |parts| > 0
    decreases |s|
  {
    match FindFrom(s, sep, 0)
    case None => [s]
    case Some(i) => [s[..i]] + Split(s[i + |sep|..], sep)
  }

  /** A string without the separator's first character holds no
      occurrence of the separator before the end of its own length. */
  lemma NoOccurrenceWithin(s: string, a: string, sep: string)
    requires |sep| > 0 && sep[0] !in a
    requires a <= s
    ensures forall j :: 0 <= j < |a| ==> !OccursAt(s, sep, j)
  {
    forall j | 0 <= j < |a| ensures !OccursAt(s, sep, j) {
      assert s[j] == a[j];
      assert a[j] in a;
      if j + |sep| <= |s| {
        assert s[j..j + |sep|][0] == s[j];
      }
    }
  }

  lemma SplitAfter(a: string, sep: string, rest: string)
    requires |sep| > 0 && sep[0] !in a
    ensures Split(a + sep + rest, sep) == [a] + Split(rest, sep)
  {
    var s := a + sep + rest;
    NoOccurrenceWithin(s, a, sep);
    assert s[|a|..|a| + |sep|] == sep;
    assert OccursAt(s, sep, |a|);
    assert FindFrom(s, sep, 0) == Some(|a|);
    assert s[..|a|] == a;
    assert s[|a| + |sep|..] == rest;
  }

  lemma SplitWhole(a: string, sep: string)
    requires |sep| > 0 && sep[0] !in a
    ensures Split(a, sep) == [a]
  {
    NoOccurrenceWithin(a, a, sep);
  }

  /** Splitting a join gives the parts back, when no part holds the first
      character of the separator. */
  lemma {:induction false} SplitJoin(parts: seq<string>, sep: string)
    requires |parts| > 0 && |sep| > 0
    requires forall p :: p in parts ==> sep[0] !in p
    ensures Split(Join(parts, sep), sep) == parts
    decreases |parts|
  {
    assert parts[0] in parts;
    if |parts| == 1 {
      SplitWhole(parts[0], sep);
    } else {
      SplitAfter(parts[0], sep, Join(parts[1..], sep));
      assert forall p :: p in parts[1..] ==> p in parts;
      SplitJoin(parts[1..], sep);
      assert parts == [parts[0]] + parts[1..];
    }
  }

  /** Every part of a join occurs in it. */
  lemma {:induction false} JoinContainsPart(parts: seq<string>, sep: string, i: nat)
    requires i < |parts|
    ensures Contains(Join(parts, sep), parts[i])
    decreases |parts|
  {
    var s := Join(parts, sep);
    if |parts| == 1 {
      assert OccursAt(s, parts[i], 0);
    } else if i == 0 {
      assert s[..|parts[0]|] == parts[0];
      assert OccursAt(s, parts[i], 0);
    } else {
      JoinContainsPart(parts[1..], sep, i - 1);
      var t := Join(parts[1..], sep);
      var k :| 0 <= k <= |t| && OccursAt(t, parts[i], k);
      var off := |parts[0] + sep|;
      assert s == parts[0] + sep + t;
      assert s[off + k..off + k + |parts[i]|] == t[k..k + |parts[i]|];
      assert OccursAt(s, parts[i], off + k);
    }
  }

  /** A join of two non-empty lists of parts is the two joins with the
      separator between. */
  lemma {:induction false} JoinConcat(a: seq<string>, b: seq<string>, sep: string)
    requires |a| > 0 && |b| > 0
    ensures Join(a + b, sep) == Join(a, sep) + sep + Join(b, sep)
    decreases |a|
  {
    if |a| == 1 {
      assert (a + b)[1..] == b;
    } else {
      assert (a + b)[1..] == a[1..] + b;
      JoinConcat(a[1..], b, sep);
    }
  }

  /** A join around one part: the parts before it, the part, and the
      parts after it, each with the separator between. */
  lemma JoinAround(a: seq<string>, x: string, b: seq<string>, sep: string)
    requires |a| > 0
    ensures Join(a + [x] + b, sep) == Join(a, sep) + sep + x + (if |b| == 0 then "" else sep + Join(b, sep))
  {
    var rest := [x] + b;
    assert a + [x] + b == a + rest;
    JoinConcat(a, rest, sep);
    if |b| == 0 {
      assert rest == [x];
    } else {
      assert rest[0] == x && rest[1..] == b;
      assert Join(rest, sep) == x + sep + Join(b, sep);
      Regroup4(Join(a, sep), sep, x, sep, Join(b, sep));
    }
  }

  lemma Regroup4(a: string, s: string, x: string, t: string, j: string)
    ensures a + s + (x + t + j) == a + s + x + (t + j)
  {
  }

  /** Concatenation regrouped around an infix of four parts. */
  lemma Regroup(o: string, a: string, s: string, x: string, t: string, c: string)
    ensures o + (a + s + x + t) + c == o + a + s + x + t + c
  {
  }

  /** The last character of a concatenation is that of its second part. */
  lemma LastOfConcat(a: string, b: string)
    requires |b| > 0
    ensures |a + b| > 0 && (a + b)[|a + b| - 1] == b[|b| - 1]
  {
  }

  /** Concatenation regrouped so that the last part `l` of an entry
      `k + l` stands alone. */
  lemma RegroupEntry(p: string, o: string, k: string, l: string, t: string, c: string, e: string)
    ensures p + (o + (k + l) + t + c) + e == (p + o + k) + l + (t + c + e)
  {
  }

  /** Concatenation regrouped so that the infix `l` of a line `h + l + t`
      stands alone. */
  lemma RegroupLine(a: string, h: string, l: string, t: string, n: string, b: string)
    ensures a + (h + l + t) + n + b == (a + h) + l + (t + n + b)
  {
  }

  /** Occurring in a part of a string means occurring in the string. */
  lemma ContainsWithin(s: string, t: string, p: string)
    requires Contains(t, p)
    requires Contains(s, t)
    ensures Contains(s, p)
  {
    var i :| 0 <= i <= |s| && OccursAt(s, t, i);
    var j :| 0 <= j <= |t| && OccursAt(t, p, j);
    assert s[i..i + |t|] == t;
    forall m | 0 <= m < |p|
      ensures s[i + j..i + j + |p|][m] == p[m]
    {
      assert s[i + j + m] == s[i..i + |t|][j + m];
      assert t[j + m] == t[j..j + |p|][m];
    }
    assert OccursAt(s, p, i + j);
  }

  /** A string holds each of its infixes. */
  lemma ContainsInfix(a: string, p: string, b: string)
    ensures Contains(a + p + b, p)
  {
    assert (a + p + b)[|a|..|a| + |p|] == p;
    assert OccursAt(a + p + b, p, |a|);
  }

  /** Replacing a first occurrence that lies in a prefix keeps whatever the
      rest of the string holds. */
  lemma ReplaceSparesSuffix(a: string, b: string, p: string, r: string, t: string)
    requires Contains(a, p)
    requires Contains(b, t)
    ensures Contains(ReplaceFirst(a + b, p, r), t)
  {
    ReplaceFirstInPrefix(a, b, p, r);
    var front := ReplaceFirst(a, p, r);
    assert ReplaceFirst(a + b, p, r) == front + b + "";
    ContainsInfix(front, b, "");
    ContainsWithin(front + b + "", b, t);
  }

  /** What occurs in a prefix occurs in the whole string. */
  lemma ContainsBefore(a: string, b: string, p: string)
    ensures Contains(a, p) ==> Contains(a + b, p)
  {
    if Contains(a, p) {
      var i :| 0 <= i <= |a| && OccursAt(a, p, i);
      OccursInPrefix(a, b, p, i);
    }
  }

  lemma ContainsAfter(a: string, s: string, t: string)
    requires Contains(s, t)
    ensures Contains(a + s, t)
  {
    ContainsInfix(a, s, "");
    assert a + s + "" == a + s;
    ContainsWithin(a + s, s, t);
  }

  /** What `.` matches in a JavaScript regular expression without the `s`
      flag: any character but a line terminator. */
  predicate IsLineTerminator(c: char) {
    c == '\n' || c == '\r' || c == '\U{2028}' || c == '\U{2029}'
  }

  /** The pattern `open(.+)close`, with `open` and `close` literal text,
      matches `s` from `i`, its group running up to `j`. */
  predicate GroupMatch(s: string, open: string, close: string, i: int, j: int) {
    && OccursAt(s, open, i)
    && i + |open| < j
    && OccursAt(s, close, j)
    && forall k :: i + |open| <= k < j ==> !IsLineTerminator(s[k])
  }

  /** The end of the line holding index `g`: the first line terminator at
      or after `g`, or the end of `s`. */
  function LineEnd(s: string, g: nat): (e: nat)
    requires g <= |s|
    decreases |s| - g
    ensures g <= e <= |s|
    ensures forall k :: g <= k < e ==> !IsLineTerminator(s[k])
    ensures e < |s| ==> IsLineTerminator(s[e])
  {
    if g == |s| || IsLineTerminator(s[g]) then g else LineEnd(s, g + 1)
  }

  /** The last index `k` with `lo <= k < hi` where `p` occurs in `s`. */
  function FindLast(s: string, p: string, lo: nat, hi: int): (r: Option<nat>)
    decreases hi - lo
    ensures r.Some? ==> lo <= r.value < hi && OccursAt(s, p, r.value)
    ensures r.Some? ==> forall k :: r.value < k < hi ==> !OccursAt(s, p, k)
    ensures r.None? ==> forall k :: lo <= k < hi ==> !OccursAt(s, p, k)
  {
    if hi <= lo then None
    else if OccursAt(s, p, hi - 1) then Some(hi - 1)
    else FindLast(s, p, lo, hi - 1)
  }

  /** The group of a match from `i` can end exactly at the occurrences of
      `close` after the group's first character and no later than the end
      of its line. */
  lemma GroupEnds(s: string, open: string, close: string, i: nat, j: int)
    requires OccursAt(s, open, i)
    ensures GroupMatch(s, open, close, i, j) <==>
              i + |open| + 1 <= j < LineEnd(s, i + |open|) + 1 && OccursAt(s, close, j)
  {
    var e := LineEnd(s, i + |open|);
    if GroupMatch(s, open, close, i, j) && j > e {
      assert false;
    }
  }

  /** The leftmost match at or after `from`, with its group as long as it
      can be: the search a non-global regular expression makes. */
  function MatchFrom(s: string, open: string, close: string, from: nat): (r: Option<(nat, nat)>)
    decreases |s| - from
    ensures r.Some? ==> from <= r.value.0 && GroupMatch(s, open, close, r.value.0, r.value.1)
    ensures r.Some? ==> forall j :: r.value.1 < j ==> !GroupMatch(s, open, close, r.value.0, j)
    ensures r.Some? ==> forall i, j :: from <= i < r.value.0 ==> !GroupMatch(s, open, close, i, j)
    ensures r.None? ==> forall i, j :: from <= i ==> !GroupMatch(s, open, close, i, j)
  {
    if from + |open| > |s| then None
    else if OccursAt(s, open, from) then
      var g := from + |open|;
      forall j ensures GroupMatch(s, open, close, from, j) <==>
                         g + 1 <= j < LineEnd(s, g) + 1 && OccursAt(s, close, j) {
        GroupEnds(s, open, close, from, j);
      }
      match FindLast(s, close, g + 1, LineEnd(s, g) + 1)
      case Some(j) => Some((from, j))
      case None => MatchFrom(s, open, close, from + 1)
    else MatchFrom(s, open, close, from + 1)
  }

  /** `s.replace(/open(.+)close/, newOpen + '$1' + newClose)` with `open` and
      `close` literal text: the leftmost match, its group as long as the
      line allows, is replaced by the group between `newOpen` and
      `newClose`; without a match `s` is returned unchanged. */
  function ReplaceGroup(s: string, open: string, close: string, newOpen: string, newClose: string): (r: string)
    ensures (forall i, j :: !GroupMatch(s, open, close, i, j)) ==> r == s
    ensures !Contains(s, open) ==> r == s
    ensures (exists i, j :: GroupMatch(s, open, close, i, j)) ==>
              |r| == |s| - |open| - |close| + |newOpen| + |newClose|
    ensures |r| == |s| || |r| == |s| - |open| - |close| + |newOpen| + |newClose|
  {
    match MatchFrom(s, open, close, 0)
    case None => s
    case Some((i, j)) =>
      assert OccursAt(s, open, i);
      s[..i] + newOpen + s[i + |open|..j] + newClose + s[j + |close|..]
  }

  /** The replacement happens at the leftmost match, with the longest
      group. */
  lemma ReplaceGroupAt(s: string, open: string, close: string, newOpen: string, newClose: string, i: nat, j: nat)
    requires GroupMatch(s, open, close, i, j)
    requires forall i', j' :: 0 <= i' < i ==> !GroupMatch(s, open, close, i', j')
    requires forall j' :: j < j' ==> !GroupMatch(s, open, close, i, j')
    ensures ReplaceGroup(s, open, close, newOpen, newClose) ==
              s[..i] + newOpen + s[i + |open|..j] + newClose + s[j + |close|..]
  {
    var m := MatchFrom(s, open, close, 0);
    assert m.Some?;
    assert m.value.0 == i;
    assert m.value.1 == j;
  }

  /** A string that is one whole match is replaced by its group between the
      new texts. */
  lemma ReplaceGroupWhole(open: string, g: string, close: string, newOpen: string, newClose: string)
    requires |g| > 0 && forall k :: 0 <= k < |g| ==> !IsLineTerminator(g[k])
    ensures ReplaceGroup(open + g + close, open, close, newOpen, newClose) == newOpen + g + newClose
  {
    var s := open + g + close;
    var j := |open| + |g|;
    assert s[..|open|] == open && s[|open|..j] == g && s[j..] == close;
    assert GroupMatch(s, open, close, 0, j) by {
      forall k | |open| <= k < j
        ensures !IsLineTerminator(s[k])
      {
        assert s[k] == g[k - |open|];
      }
    }
    ReplaceGroupAt(s, open, close, newOpen, newClose, 0, j);
    assert s[..0] == [] && s[j + |close|..] == [];
  }
}

=== FILE: uri.dfy ===
/** `encodeURIComponent`, used on cookie names and values. Its implementation
    is not part of this model; it is modelled after section 19.2.6.5 of
    ECMA-262: every character outside `A-Z a-z 0-9 - _ . ! ~ * ' ( )` is
    written as the `%XX` escapes (upper-case hexadecimal) of its UTF-8 bytes
    (section 3 of RFC 3629), and percent-decoding recovers those bytes. */
module Uri {
  import opened Wrappers
  import Text

  type Byte = b: nat | b < 256

  /** The characters `encodeURIComponent` leaves as they are. */
  predicate Unescaped(c: char) {
    ('A' <= c <= 'Z') || ('a' <= c <= 'z') || ('0' <= c <= '9') || c in "-_.!~*'()"
  }

  /** The UTF-8 encoding of one character. */
  function Utf8(c: char): (bytes: seq<Byte>)
    ensures 1 <= |bytes| <= 4
  {
    var n := c as int;
    if n < 0x80 then [n]
    else if n < 0x800 then [0xC0 + n / 64, 0x80 + n % 64]
    else if n < 0x10000 then [0xE0 + n / 4096, 0x80 + (n / 64) % 64, 0x80 + n % 64]
    else [0xF0 + n / 262144, 0x80 + (n / 4096) % 64, 0x80 + (n / 64) % 64, 0x80 + n % 64]
  }

  function Utf8String(s: string): seq<Byte> {
    if |s| == 0 then [] else Utf8(s[0]) + Utf8String(s[1..])
  }

  function PercentBytes(bytes: seq<Byte>): string {
    if |bytes| == 0 then ""
    else PercentByte(bytes[0]) + PercentBytes(bytes[1..])
  }

  function EncodeChar(c: char): string {
    if Unescaped(c) then [c] else PercentBytes(Utf8(c))
  }

  /** `encodeURIComponent(s)`. */
  function Encode(s: string): string {
    if |s| == 0 then "" else EncodeChar(s[0]) + Encode(s[1..])
  }

  /** Percent-decoding to bytes: `%XX` stands for the byte XX, any other
      character must be ASCII and stands for itself. */
  function Decode(s: string): Option<seq<Byte>>
    decreases |s|
  {
    if |s| == 0 then Some([])
    else if s[0] == '%' then
      if |s| < 3 then None
      else match (Text.HexValue(s[1]), Text.HexValue(s[2]))
        case (Some(hi), Some(lo)) =>
          (match Decode(s[3..]) case None => None case Some(rest) => Some([hi * 16 + lo] + rest))
        case _ => None
    else if (s[0] as int) < 0x80 then
      match Decode(s[1..]) case None => None case Some(rest) => Some([s[0] as int] + rest)
    else None
  }

  function Append(prefix: seq<Byte>, rest: Option<seq<Byte>>): Option<seq<Byte>> {
    match rest
    case None => None
    case Some(r) => Some(prefix + r)
  }

  function PercentByte(b: Byte): string {
    "%" + [Text.HexDigit(b / 16, true), Text.HexDigit(b % 16, true)]
  }

  lemma DecodePercentByte(b: Byte, tail: string)
    ensures Decode(PercentByte(b) + tail) == Append([b], Decode(tail))
  {
    var s := PercentByte(b) + tail;
    Text.HexValueOfDigit(b / 16, true);
    Text.HexValueOfDigit(b % 16, true);
    assert s[0] == '%' && s[1] == Text.HexDigit(b / 16, true) && s[2] == Text.HexDigit(b % 16, true);
    assert s[3..] == tail;
  }

  lemma AppendAssoc(b: Byte, bytes: seq<Byte>, rest: Option<seq<Byte>>)
    ensures Append([b], Append(bytes, rest)) == Append([b] + bytes, rest)
  {
    if rest.Some? {
      assert [b] + (bytes + rest.value) == [b] + bytes + rest.value;
    }
  }

  lemma {:induction false} DecodePercentBytes(bytes: seq<Byte>, rest: string)
    ensures Decode(PercentBytes(bytes) + rest) == Append(bytes, Decode(rest))
    decreases |bytes|
  {
    if |bytes| == 0 {
      assert PercentBytes(bytes) + rest == rest;
      if Decode(rest).Some? {
        assert [] + Decode(rest).value == Decode(rest).value;
      }
    } else {
      var tail := PercentBytes(bytes[1..]) + rest;
      assert PercentBytes(bytes) + rest == PercentByte(bytes[0]) + tail;
      DecodePercentByte(bytes[0], tail);
      DecodePercentBytes(bytes[1..], rest);
      AppendAssoc(bytes[0], bytes[1..], Decode(rest));
      assert [bytes[0]] + bytes[1..] == bytes;
    }
  }

  lemma DecodeEncodedChar(c: char, rest: string)
    ensures Decode(EncodeChar(c) + rest) == Append(Utf8(c), Decode(rest))
  {
    if Unescaped(c) {
      assert (EncodeChar(c) + rest)[1..] == rest;
    } else {
      DecodePercentBytes(Utf8(c), rest);
    }
  }

  /** Percent-decoding `encodeURIComponent(s)` gives exactly the UTF-8
      bytes of `s`. */
  lemma {:induction false} DecodeEncode(s: string)
    ensures Decode(Encode(s)) == Some(Utf8String(s))
  {
    if |s| > 0 {
      DecodeEncodedChar(s[0], Encode(s[1..]));
      DecodeEncode(s[1..]);
    }
  }

  lemma {:induction false} PercentBytesSafe(bytes: seq<Byte>)
    ensures forall i :: 0 <= i < |PercentBytes(bytes)| ==> Unescaped(PercentBytes(bytes)[i]) || PercentBytes(bytes)[i] == '%'
  {
    if |bytes| > 0 {
      PercentBytesSafe(bytes[1..]);
      assert PercentBytes(bytes) == PercentByte(bytes[0]) + PercentBytes(bytes[1..]);
    }
  }

  /** The output of `encodeURIComponent` holds nothing but unreserved
      characters and `%`: no `;`, `=` or space in particular. */
  lemma {:induction false} EncodeSafe(s: string)
    ensures forall i :: 0 <= i < |Encode(s)| ==> Unescaped(Encode(s)[i]) || Encode(s)[i] == '%'
  {
    if |s| > 0 {
      EncodeSafe(s[1..]);
      PercentBytesSafe(Utf8(s[0]));
      assert Encode(s) == EncodeChar(s[0]) + Encode(s[1..]);
    }
  }
}

=== FILE: wrappers.dfy ===
/** The optional-value datatype used for JavaScript values that may be
    `undefined` or `null`. */
module Wrappers {

  datatype Option<+T> = None | Some(value: T) {

    /** The value held, or `default` for an absent one. */
    function GetOr(default: T): T {
      match this
      case Some(v) => v
      case None => default
    }
  }

  /** JavaScript truthiness of a string that may be undefined: `if (s)`. */
  predicate Truthy(s: Option<string>) {
    s.Some? && s.value != ""
  }

  /** A template literal `${s}` of a string that may be undefined. */
  function Template(s: Option<string>): string {
    s.GetOr("undefined")
  }
}
